=== FILE: README.md ===
# one-click-operator reconcilers, modelled in Dafny

This project models the core of the one-click-operator. The operator is a
Kubernetes controller that turns a `Rollout` custom resource into the cluster
objects that run an application:

- a Deployment;
- one ClusterIP Service per interface;
- one Ingress per interface that asks for routing;
- one PersistentVolumeClaim per declared volume;
- one CronJob per scheduled job;
- a HorizontalPodAutoscaler;
- an image pull Secret when the image has registry credentials.

Each reconciler is modelled on its own, in the order its Go function does
its work. The Go functions are `reconcileService`, `reconcileIngress`,
`reconcilePVCs`, `reconcileCronJobs`, `reconcileHPA`, `reconcileDeployment`
and `reconcileImagePullSecret`.

## How the model is built

- **The store.** The API server, reduced to the Rollout's namespace, is the
  class `Cluster.Store`. It holds a map from (kind, name) keys to objects.
  - `Get`, `Create`, `Update`, `Delete` and `List` answer as the client does:
    NotFound for a missing object and AlreadyExists for a duplicate create.
  - Any other failure is an explicit fault set. Every operation on a key in
    `faulty` fails with Other, and listing a kind in `listFaulty` fails.
  - Each write is also stated as a pure outcome: `Created`, `Updated` or
    `Deleted`.
- **Garbage collection.** The Service, Ingress, claim and CronJob
  reconcilers end with a list-and-delete loop. It is one method, `Store.Sweep`, parameterised by the scope that decides
  which listed objects are deletable:
  - the two ownership labels (Services, Ingresses);
  - an owner reference to a Rollout of that name (claims);
  - an owner reference with the Rollout's uid (CronJobs).

  Its contract is the predicate `Swept`:
  - a failed List changes nothing;
  - otherwise only doomed objects go;
  - it succeeds exactly when no doomed key is faulty, and then all of them are
    gone.
- **Per-entry loops.** Each loop over interfaces, volumes or jobs is a method
  with a `while` loop. It is specified by a right fold (`ServicesPass`,
  `IngressesPass`, `ClaimsPass`, `SpecPass`) of a one-entry step function
  (`ServiceStep`, `IngressStep`, `ClaimStep`, `SpecStep`). The fold stops at
  the first error, or at the early `return nil` of the claim reconciler
  (status `Halted`).
- **Whole reconciles.** Each whole reconcile is tied to a predicate or
  function of the store before and after (`ServiceReconciled`,
  `IngressReconciled`, `ClaimsReconciled`, `CronJobsReconciled`,
  `HpaReconciled`, `DeploymentReconciled`, `PullSecretSynced`). The lemmas
  about those state what the controller promises.
- **Builders.** The builders (`ServiceFor`, `IngressFor`, `ClaimFor`,
  `CronJobFor`, `HpaFor`, `DeploymentFor`, `PullSecretFor`) are pure
  functions whose contracts give the fields of the object they build.
  `BuildIngress` and `BuildDeployment` are methods: the first runs the loops
  of `ingressForRollout`, and the second provisions the pull secret.
- **The pull secret's `auth` field.** It is the standard base64 encoding
  (RFC 4648, section 4) of the UTF-8 bytes of `username:password`. Both are
  implemented, and the round trip `Decode(Encode(b)) == b` is proved.
- **Parameters.** `resource.MustParse` and the secrets checksum are
  parameters: the record `Helpers.Externals`.

## Quirks of the code that the model reproduces

- **Autoscaler update test.** `needsHpaUpdate` (controllers/hpa.go:117-119)
  compares an autoscaler spec with the whole Rollout spec, which are values of
  different types. It is therefore always true, and every pass over an
  existing autoscaler rewrites it. `UpdateHpaIdempotent` and `HpaReconcileIdempotent` show that the
  rewrite converges anyway.
- **Claim resize refused.** A resize the claim cannot take does not just skip
  that volume. A claim that is not in Filesystem mode, or whose StorageClass
  does not allow expansion, makes `reconcilePVCs` return nil at once
  (controllers/volume.go:42-45, 53-56). Later volumes and the prune are not
  reached (`Halted`).
- **Claim size comparison.** The declared size is compared with the storage
  request of the live claim (controllers/volume.go:41).
- **Claim sweep scope.** The claim sweep deletes every listed claim with an
  owner reference of kind Rollout and the Rollout's name
  (controllers/volume.go:113-120), whatever its uid.
- **CronJob sweep scope.** The CronJob sweep deletes every listed CronJob with
  an owner reference carrying the Rollout's uid
  (controllers/cronjobs.go:96-110).
- **TLS hosts.** An Ingress TLS entry with an explicit secret name carries no
  hosts. An entry with the default secret name carries the rule's host.
- **Ingress backend name.** Ingress backends point at `<iface>-<rollout>-svc`,
  but the Service is named `<rollout>-<iface>-svc`
  (`Naming.ServiceAndBackendNames`). The two agree only when the names
  coincide, which can happen for different names, e.g. Rollout `a` with
  interface `a-a`.
- **Deployment staleness.**
  - The built Deployment declares no container ports, so `needsUpdate`
    reports it stale whenever the Rollout has interfaces.
  - `volumesMatch` looks up `<volume>-<rollout>-<rollout>`, so built volumes
    never match.
  - A Rollout with the default (all-empty) security context also gets a
    Deployment that `needsUpdate` reports stale.
  - The test builds its capability lists with `make`, so they are never nil.
    A live Deployment read back from the API server has a nil list where the
    Rollout's list is empty, so an empty Add or Drop list always reads as
    stale (controllers/deployment.go:229-250,
    `Deployments.ContainerSecurityContextAgrees`).

  `Deployments.BuiltDeploymentStale` gives the exact condition. The
  reconcile still settles: `DeploymentReconcileIdempotent` shows that a
  second pass writes the same store.
- **Failed pull-secret writes.** A failed pull-secret write is not an error of
  the Deployment reconcile. The Deployment is then built without the
  pull-secret reference (controllers/deployment.go:73-77).
- **Ingress delete branch.** The delete branch of the Ingress loop
  (controllers/ingress.go:79-95) fires only when an earlier interface of the
  same name put the Ingress among the expected ones. Otherwise deleting a
  missing Ingress would fail with NotFound. `DistinctNamesNeverDelete` and
  `DuplicateNameDeletes` state both sides.

## Model

| member | source | states |
|---|---|---|
| Cluster.IsOwnedBy | controllers/volume.go:113-120 | true exactly when some owner reference has kind Rollout and the Rollout's name |
| Cluster.HasOwnerUid | controllers/cronjobs.go:98-101 | the uid field selector: true exactly when some owner reference carries the uid |
| Cluster.Store.Get | controllers/service.go:28-29 | a faulty key answers Other, a missing key NotFound, otherwise the stored object under that key |
| Cluster.Store.Create | controllers/service.go:30 | fails with Other on a faulty key, AlreadyExists on an existing key, otherwise adds exactly that object |
| Cluster.Store.Update | controllers/service.go:40 | fails with Other on a faulty key, NotFound on a missing key, otherwise replaces exactly that object |
| Cluster.Store.Delete | controllers/service.go:57 | fails with Other on a faulty key, NotFound on a missing key, otherwise removes exactly that key |
| Cluster.Store.List | controllers/service.go:48-53 | fails exactly when the kind is faulty; otherwise lists every stored object of the kind once, as stored |
| Cluster.Store.Sweep | controllers/service.go:48-63 | the list-and-delete loop: only in-scope objects of the kind whose name is not expected are deleted; a failed List changes nothing; success exactly when no such key is faulty, and then all of them are gone |
| Cluster.SweptKeeps | controllers/ingress.go:107-118 | a sweep keeps every other kind, every expected name and every out-of-scope object unchanged, and adds nothing |
| Cluster.SweptClean | controllers/volume.go:73-81 | after a successful sweep no in-scope object of the kind has an unexpected name |
| Services.ServicePorts | controllers/service.go:90-99 | one TCP port named after the interface with port and target port equal to the interface's port |
| Services.ServiceFor | controllers/service.go:68-88 | the Service is keyed `<rollout>-<iface>-svc`, carries the ownership labels and controller reference, selects by the labels, is ClusterIP and lies in the label scope of the sweep |
| Services.ServiceStep | controllers/service.go:25-45 | one interface: fails exactly when the Service key is faulty, and then with Other and no write; an absent Service is created as built; an existing one keeps its metadata and everything but its ports; after success the Service has the interface's ports; no other key changes |
| Services.SyncService | controllers/service.go:22-45 | one loop iteration: the store and error are exactly the step's (create when absent, replace ports when they differ, stop on an error) |
| Services.ReconcileService | controllers/service.go:18-66 | the whole reconcile: the loop's error as is, or the label-scoped sweep of the Services no interface names |
| Services.ServicesPassFrame | controllers/service.go:22-46 | the loop writes no object other than the Services of the interfaces |
| Services.ServicesPassFails | controllers/service.go:28-43 | the loop fails exactly when some interface's Service key is faulty, and then with Other |
| Services.ServicesPassPorts | controllers/service.go:38-39 | after a loop that got through, each interface whose name no later one repeats has its Service with exactly its ports |
| Services.ServiceReconciledMeaning | controllers/service.go:18-66 | a successful reconcile leaves every interface's Service with its ports, no labelled Service outside the interfaces, and every other kind unchanged |
| Ingresses.IngressRules | controllers/ingress.go:207-239 | one rule per declared rule, in order, each routing the host and path to the interface's backend Service and port |
| Ingresses.IngressTlsEntriesIndex | controllers/ingress.go:241-265 | one TLS entry per rule asking for TLS, the i-th TLS rule's entry at the index counting the TLS rules before it |
| Ingresses.IngressFor | controllers/ingress.go:124-205 | keyed `<iface>-<rollout>-ingress`, ownership labels and controller reference, the interface's annotations, a class exactly when one is named, the rules and TLS entries built from the interface's rules (IngressRules, IngressTlsEntries) |
| Ingresses.CopyAnnotations | controllers/ingress.go:148-153 | the copy loop yields exactly the declared annotations |
| Ingresses.BuildIngress | controllers/ingress.go:124-205 | the builder's loops produce exactly IngressFor |
| Ingresses.ReviseIngress | controllers/ingress.go:43-78 | the live Ingress revised: class set when named, annotations, rules and TLS replaced, everything else kept; the change flag is true exactly when something changed |
| Ingresses.IngressStep | controllers/ingress.go:23-95 | one interface: a wanted Ingress fails with Other exactly on a faulty key, is created as built when absent, and is replaced by its revision when present; an unwanted one whose name is already expected is deleted (NotFound when absent, Other when faulty); any other unwanted one is left alone; no other key is written |
| Ingresses.SyncIngress | controllers/ingress.go:23-95 | one loop iteration: the store and error are exactly the step's |
| Ingresses.ReconcileIngress | controllers/ingress.go:18-122 | the whole reconcile: the loop's error as is, or the label-scoped sweep of the Ingresses not expected |
| Ingresses.IngressesPassFrame | controllers/ingress.go:23-96 | the loop writes no object other than the Ingresses named after the interfaces |
| Ingresses.DistinctNamesNeverDelete | controllers/ingress.go:79-95 | with distinct interface names the delete branch never removes anything: the loop only adds keys |
| Ingresses.DuplicateNameDeletes | controllers/ingress.go:79-95 | a wanted interface followed by an unwanted one of the same name creates and then deletes the Ingress |
| Ingresses.IngressStepInLine | controllers/ingress.go:25-78 | a wanted interface's step that got through leaves its Ingress with the declared annotations, rules, TLS and class |
| Ingresses.IngressesPassInLine | controllers/ingress.go:23-96 | after a loop over distinct names that got through, every wanted interface's Ingress is in line |
| Ingresses.IngressReconciledMeaning | controllers/ingress.go:18-122 | a successful reconcile over distinct names leaves every wanted Ingress in line, no labelled Ingress that is not expected, and every other kind unchanged |
| Volumes.ClaimFor | controllers/volume.go:90-111 | keyed `<volume>-<rollout>`, ownership labels and controller reference, ReadWriteOnce, exactly a storage request of the declared size, the declared class |
| Volumes.Resized | controllers/volume.go:58 | the claim with its storage request set to the new size and every other field and request kept |
| Volumes.ClaimStep | controllers/volume.go:25-64 | one volume: a faulty claim key fails with Other and no write; an absent claim is created and the pass goes on; a grow on a Filesystem claim fails with Other when the class name is missing or its key is faulty, with NotFound when the class is absent, with Other when the claim has no requests, and otherwise writes the resized claim and goes on; a claim already large enough is left alone; a larger size on a claim not in Filesystem mode, or whose present StorageClass does not allow expansion, halts the pass without writing, and a halt happens only then; any write is the create or the resize, touching no other key |
| Volumes.DeleteAllClaims | controllers/volume.go:122-142 | the sweep of every claim owned by the Rollout, expecting no name |
| Volumes.SyncClaim | controllers/volume.go:25-64 | one loop iteration: the store, error and halt are exactly the step's |
| Volumes.ReconcileClaims | controllers/volume.go:17-84 | the whole reconcile: delete all claims when no volume is declared; otherwise the loop's error or halt as is, or the owner-name sweep of the claims not declared |
| Volumes.ClaimsPassFrame | controllers/volume.go:25-65 | the loop writes no object other than the declared claims |
| Volumes.ClaimsNeverShrink | controllers/volume.go:41 | the loop removes no claim and shrinks no storage request |
| Volumes.ClaimStepSized | controllers/volume.go:32-62 | a step that got through leaves its claim with at least the declared size |
| Volumes.ClaimsPassSized | controllers/volume.go:25-65 | after a loop that got through, every declared claim requests at least its declared size |
| Volumes.ClaimsReconciledFrame | controllers/volume.go:17-84 | a reconcile changes no object other than claims |
| Volumes.ClaimsReconciledNeverShrink | controllers/volume.go:41-62 | a claim that survives a reconcile is not smaller than before |
| Volumes.ClaimsReconciledNoVolumes | controllers/volume.go:20-22 | with no volume declared, a successful reconcile leaves no claim the Rollout owns |
| Volumes.ClaimsReconciledSized | controllers/volume.go:17-84 | after a full successful reconcile every declared claim requests at least its size and every claim the Rollout owns is declared |
| CronJobs.CronJobFor | controllers/cronjobs.go:28-66 | named after the job, controller reference and no labels, schedule, suspend, backoff limit, OnFailure restart, no pull secret, one container named after the job with image `registry/repository:tag` of the job's image, the job's command, args, env and resources |
| CronJobs.CronJobsFor | controllers/cronjobs.go:26-66 | the desired CronJobs, one per declared job, in order |
| CronJobs.SpecStep | controllers/cronjobs.go:73-94 | fails exactly on a faulty key, with Other; otherwise the object holds the desired spec; an existing one keeps its metadata; no other key is written |
| CronJobs.SyncCronJob | controllers/cronjobs.go:28-94 | one loop iteration: the pass over the remaining jobs advances exactly as the step does |
| CronJobs.ReconcileCronJobs | controllers/cronjobs.go:21-114 | the whole reconcile: the loop's error as is, or the uid-scoped sweep of the CronJobs no job names |
| CronJobs.SpecPassFrame | controllers/cronjobs.go:26-95 | the loop writes no key outside the desired ones |
| CronJobs.SpecPassFails | controllers/cronjobs.go:75-92 | the loop fails exactly when a desired key is faulty, and then with Other |
| CronJobs.SpecPassKeepsMeta | controllers/cronjobs.go:86-89 | an existing CronJob keeps its metadata; only its spec is replaced |
| CronJobs.SpecPassLastWins | controllers/cronjobs.go:26-95 | after a loop that got through, a job that no later job shares a name with has its spec in place |
| CronJobs.CronJobKeys | controllers/cronjobs.go:25-27 | the desired keys are exactly the CronJob keys of the declared names |
| CronJobs.CronJobsPassFails | controllers/cronjobs.go:73-94 | the loop fails exactly when some declared job's key is faulty |
| CronJobs.CronJobSpecInPlace | controllers/cronjobs.go:26-95 | after a loop that got through, a job no later job shares a name with is among the defined names and its CronJob holds that job's spec |
| CronJobs.CronJobsPassOtherKinds | controllers/cronjobs.go:26-95 | the loop leaves every object of another kind as it was |
| CronJobs.CronJobsReconciledSpecs | controllers/cronjobs.go:21-114 | after a successful reconcile, every job no later job shares a name with has its CronJob holding its spec |
| CronJobs.CronJobsReconciledKeeps | controllers/cronjobs.go:21-114 | after a successful reconcile, existing CronJobs kept their metadata, no uid-owned CronJob outside the defined names is left, and other kinds are unchanged |
| CronJobs.CronJobsReconciledMeaning | controllers/cronjobs.go:21-114 | a successful reconcile leaves every job's spec (last one per name), keeps existing metadata, leaves no uid-owned CronJob no job names, and every other kind unchanged |
| Autoscaling.HpaFor | controllers/hpa.go:58-115 | named after the Rollout, controller reference, targets the Deployment, fixed behaviour, min and max replicas and one CPU utilisation metric from the Rollout |
| Autoscaling.UpdateHpa | controllers/hpa.go:121-130 | fails (index out of range) exactly when the first metric is missing or not a resource metric; otherwise sets min, max and the first metric's target and keeps everything else |
| Autoscaling.UpdateHpaIdempotent | controllers/hpa.go:121-130 | rewriting a rewritten autoscaler changes nothing |
| Autoscaling.UpdateHpaKeepsDesired | controllers/hpa.go:58-130 | the built autoscaler is a fixed point of the rewrite |
| Autoscaling.HpaReconciled | controllers/hpa.go:17-56 | writes only the autoscaler key; fails exactly on a faulty key or a malformed live metric list; creates the built one when absent, otherwise the rewritten spec under the live metadata |
| Autoscaling.ReconcileHpa | controllers/hpa.go:17-56 | the method's store and error are exactly HpaReconciled's |
| Autoscaling.HpaReconcileIdempotent | controllers/hpa.go:17-56 | a second pass after a successful one leaves the store unchanged |
| Helpers.ImageRef | controllers/deployment.go:113 | the image reference is the registry, a slash, the repository, a colon and the tag, in that order and nothing else |
| Helpers.EnvVars | controllers/helpers.go:20-29 | one variable per declared entry, in order, with its name and value |
| Helpers.ResourceRequirementsFor | controllers/helpers.go:31-42 | requests and limits hold exactly cpu and memory, each the parsed declared quantity |
| Helpers.DockerAuthFor | controllers/helpers.go:45-50 | the registry entry carries the username and password |
| Helpers.DockerAuthDecodes | controllers/helpers.go:45 | the `auth` field decodes back to the UTF-8 bytes of `username:password` |
| Helpers.PullSecretData | controllers/helpers.go:46-63 | one `.dockerconfigjson` key holding one entry, under the registry |
| Helpers.PullSecretFor | controllers/helpers.go:61-77 | a dockerconfigjson Secret with that data, the controller reference and no labels |
| Helpers.PullSecretSyncedStores | controllers/helpers.go:79-94 | succeeds exactly when the key is not faulty; creates the secret when absent, otherwise replaces only its data; nothing else changes |
| Helpers.ReconcileImagePullSecret | controllers/helpers.go:44-95 | the method's store and error are exactly PullSecretSynced's |
| Base64.Encode | controllers/helpers.go:45 | the encoding's length is a multiple of four |
| Base64.DecodeEncode | controllers/helpers.go:45 | decoding the encoding gives back the bytes |
| Naming.ServiceNameInjective | controllers/service.go:23 | Service names of one Rollout agree exactly when the interface names agree |
| Naming.IngressNameInjective | controllers/ingress.go:26 | Ingress names of one Rollout agree exactly when the interface names agree |
| Naming.ClaimNameInjective | controllers/volume.go:26 | claim names of one Rollout agree exactly when the volume names agree |
| Naming.ServiceAndBackendNames | controllers/ingress.go:170 | the Service name and the backend name agree when the Rollout and interface names are equal; for equal lengths, only then |
| Naming.ServiceAndBackendNamesCoincideForDistinctNames | controllers/ingress.go:170 | Rollout `a` with interface `a-a` gives the same name both ways |
| Deployments.StrategyFor | controllers/deployment.go:80-94 | Recreate exactly for "recreate"; RollingUpdate for every other value, the empty one included |
| Deployments.Tolerations | controllers/deployment.go:349-361 | the field-by-field copy gives back the tolerations |
| Deployments.VolumeWiring | controllers/deployment.go:181-205 | one claim-backed volume and one mount per declared volume, in order, both named `<volume>-<rollout>` |
| Deployments.DeploymentFor | controllers/deployment.go:63-216 | named after the Rollout, ownership labels, controller reference, no replicas, the Rollout's strategy, checksum annotation, the given pull secrets, one container named after the Rollout with image `registry/repository:tag`, command and args, no ports, one envFrom of `<rollout>-secrets` exactly when secrets exist, each security context present exactly when the Rollout's is not default |
| Deployments.DeploymentForFields | controllers/deployment.go:110-205 | the pod's service account, node selector, tolerations and host aliases are the Rollout's; its volumes and the container's mounts are the claim wiring of the declared volumes; the container's env and resources are the Rollout's; a present security context has the Rollout's flags and capabilities |
| Deployments.PortsAgree | controllers/deployment.go:396-405 | true exactly when each port agrees with the interface at its index |
| Deployments.PortsMatch | controllers/deployment.go:390-407 | true exactly when lengths agree and each port agrees with the interface at its index |
| Deployments.DesiredVolumeMap | controllers/deployment.go:368-371 | its keys are exactly the claim names of the declared volumes, each mapping to a volume of that name |
| Deployments.AllVolumesKnown | controllers/deployment.go:373-386 | true exactly when every live volume is found under `<name>-<rollout>` with claim `<name>-<rollout>` |
| Deployments.VolumesMatchMeaning | controllers/deployment.go:363-388 | `VolumesMatch`, the model of `volumesMatch`: the comparison holds exactly when lengths agree and each live volume is a declared name whose claim name is `<name>-<rollout>` |
| Deployments.BuiltVolumesNeverMatch | controllers/deployment.go:363-388 | the builder's volumes never pass the comparison |
| Deployments.NeedsUpdate | controllers/deployment.go:218-347 | fails (empty containers) only after the pod security context check; each listed difference makes it true, and so does a container security context that does not agree (an empty capability list never agrees); false only when every compared field agrees and both capability lists are non-empty |
| Deployments.BuiltDeploymentStale | controllers/deployment.go:218-347 | the built Deployment passes the test exactly when the security context is not default, both capability lists are non-empty, and no interface or volume is declared |
| Deployments.ContainerSecurityContextAgrees | controllers/deployment.go:228-250 | the live container security context passes exactly when it is the one built from the Rollout and neither capability list is empty |
| Deployments.NeedsUpdateIgnoresSecretValues | controllers/deployment.go:259-272 | changing secret values without emptying or filling the list does not change the verdict |
| Deployments.PullSecretRefsFollowWrite | controllers/deployment.go:69-78 | the Deployment references the pull secret exactly when the image has credentials and the write that provisions the secret succeeds, and references nothing otherwise |
| Deployments.AfterBuildFrame | controllers/deployment.go:69-78 | building writes nothing but the pull secret |
| Deployments.BuildDeployment | controllers/deployment.go:63-216 | the store afterwards is the pull-secret outcome and the result is DeploymentFor with the resulting references |
| Deployments.DeploymentWrite | controllers/deployment.go:26-55 | writes only the Deployment key; creates when absent, overwrites the spec (keeping replicas) when stale, leaves the store alone when not |
| Deployments.ReconcileDeployment | controllers/deployment.go:20-61 | the method's store and error are exactly DeploymentReconciled's |
| Deployments.DeploymentReconciledFrame | controllers/deployment.go:20-61 | a reconcile writes nothing but the Deployment and the pull secret |
| Deployments.DeploymentReconciledResult | controllers/deployment.go:26-55 | after success the Deployment exists: the built one when it was absent, otherwise unchanged or overwritten with replicas and metadata kept |
| Deployments.AfterBuildFixed | controllers/helpers.go:90-94 | provisioning again changes nothing once the secret holds the data |
| Deployments.ReconciledHoldsPullSecret | controllers/deployment.go:69-78 | after success the pull secret, when provisioned, holds the registry data |
| Deployments.ReconciledFromBuild | controllers/deployment.go:20-61 | a successful reconcile differs from the built store only at the Deployment key |
| Deployments.OverwrittenSettles | controllers/deployment.go:41-47 | a Deployment carrying the desired spec is a fixed point of the overwrite |
| Deployments.ReconciledDeploymentSettled | controllers/deployment.go:20-61 | after success the next staleness test does not fail, and an overwrite would change nothing |
| Deployments.ReconcileSettledStore | controllers/deployment.go:20-61 | on a store where the pull secret is settled, the Deployment test does not fail and an overwrite changes nothing, a reconcile succeeds and writes nothing new |
| Deployments.DeploymentReconcileIdempotent | controllers/deployment.go:20-61 | reconciling twice leaves the store as reconciling once did |

## Left out

- Namespaces, the client transport and the watch machinery: the store holds
  the Rollout's namespace only. Events and log lines are not modelled.
- Optimistic-concurrency retries (`retry.RetryOnConflict`): the store has no
  concurrent writer, so no Conflict is ever returned.
- `resource.MustParse` is a parameter mapping text to a natural-number
  quantity. Its panics on malformed input are not modelled.
- `json.Marshal` of the docker config: the Secret holds the structure itself.
  Its error return, which cannot fire for that map, is left out.
- The secrets checksum is a parameter. Its hash is not modelled.
- `SetControllerReference` errors (it fails only for an owner without a kind
  or for an object already controlled by another owner): the controller
  reference is always set.
- Go distinguishes a nil slice or map from an empty one, and the API server's
  JSON round trip erases the difference. The model has only the empty value.
  - The one place where the code compares a freshly made list with a live
    one, the capability lists of `needsUpdate`, is modelled explicitly
    (`Deployments.ContainerSecurityContextAgrees`).
  - A nil request map on a live claim is taken as empty. Resizing it would
    panic in Go, and the model reports that as Other.
- Panics (index out of range, nil dereference) are modelled as the reconciler
  returning Other with no further write. This covers `UpdateHpa` on an empty
  metric list and a claim without a StorageClass name.
- Defaulting by the API server (strategy parameters, volume mode) is not
  modelled. The live objects are whatever the store holds.
- A live Deployment's env sources are modelled as a sequence of Secret names,
  and its volumes as claim volumes only. A live Deployment whose first env
  source is a ConfigMap, or that has a non-claim volume, cannot be expressed.
  On such an object `needsUpdate` dereferences a nil `SecretRef`
  (controllers/deployment.go:264) or a nil `PersistentVolumeClaim`
  (controllers/deployment.go:381) and panics. Those panics are not modelled.
- The orchestrating `Reconcile` function and the status update are not part
  of this model.
- `MaxRetries` is a field of a CronJob spec
  (api/v1alpha1/rollout_types.go:110). The model carries it as
  `Api.CronJobSpec.maxRetries`, but the CronJob builder never reads it, and
  neither does any member of the model.
- Replica counts and ports are unbounded integers. The 32-bit width of the
  Kubernetes fields is not modelled.
- The CronJob reconciler's map of defined jobs is modelled as the set of
  their names. Only membership is read from it.
- Autoscaling.NeedsHpaUpdate: modelled as constant true. This is what the
  cross-type comparison evaluates to, not a field-by-field comparison. It has
  no row of its own; `UpdateHpaIdempotent` and `HpaReconcileIdempotent` state
  what it implies for the reconcile.

=== FILE: api.dfy ===
/** The Rollout resource: the declarative description the reconcilers read. */
module Api {
  import Kube

  datatype ImageSpec = ImageSpec(
    registry: string, repository: string, tag: string, username: string, password: string)

  datatype CapabilitiesSpec = CapabilitiesSpec(add: seq<string>, drop: seq<string>)

  datatype SecurityContextSpec = SecurityContextSpec(
    fsGroup: int,
    runAsUser: int,
    runAsGroup: int,
    allowPrivilegeEscalation: bool,
    runAsNonRoot: bool,
    readOnlyRootFilesystem: bool,
    privileged: bool,
    capabilities: CapabilitiesSpec)

  datatype HorizontalScaleSpec = HorizontalScaleSpec(
    minReplicas: int, maxReplicas: int, targetCPUUtilizationPercentage: int)

  datatype ResourceList = ResourceList(cpu: string, memory: string)

  datatype ResourceRequirements = ResourceRequirements(requests: ResourceList, limits: ResourceList)

  datatype EnvVar = EnvVar(name: string, value: string)

  datatype SecretItem = SecretItem(name: string, value: string)

  datatype VolumeSpec = VolumeSpec(name: string, mountPath: string, size: string, storageClass: string)

  datatype IngressRule = IngressRule(host: string, path: string, tls: bool, tlsSecretName: string)

  datatype IngressSpec = IngressSpec(
    ingressClass: string, annotations: map<string, string>, rules: seq<IngressRule>)

  datatype InterfaceSpec = InterfaceSpec(name: string, port: int, ingress: IngressSpec)

  datatype CronJobSpec = CronJobSpec(
    name: string,
    suspend: bool,
    image: ImageSpec,
    schedule: string,
    command: seq<string>,
    args: seq<string>,
    maxRetries: int,
    backoffLimit: int,
    env: seq<EnvVar>,
    resources: ResourceRequirements)

  datatype RolloutSpec = RolloutSpec(
    args: seq<string>,
    command: seq<string>,
    rolloutStrategy: string,
    image: ImageSpec,
    securityContext: SecurityContextSpec,
    horizontalScale: HorizontalScaleSpec,
    resources: ResourceRequirements,
    env: seq<EnvVar>,
    secrets: seq<SecretItem>,
    volumes: seq<VolumeSpec>,
    interfaces: seq<InterfaceSpec>,
    serviceAccountName: string,
    cronJobs: seq<CronJobSpec>,
    nodeSelector: map<string, string>,
    tolerations: seq<Kube.Toleration>,
    hostAliases: seq<Kube.HostAlias>)

  /** A Rollout with its identity: name, namespace and the uid the store assigned. */
  datatype Rollout = Rollout(name: string, namespace: string, uid: string, spec: RolloutSpec)

  /** The zero value of the security-context block, which the workload builder
      treats as "not defined". */
  const DefaultSecurityContext := SecurityContextSpec(0, 0, 0, false, false, false, false, CapabilitiesSpec([], []))
}

=== FILE: base64.dfy ===
/** Standard base64 (section 4 of RFC 4648, with '=' padding) and the UTF-8
    encoding that turns a string into the bytes it encodes. */
module Base64 {
  import opened Common

  /** The alphabet character for a six-bit value. */
  function Digit(i: int): char
    requires 0 <= i < 64
  {
    if i < 26 then ('A' as int + i) as char
    else if i < 52 then ('a' as int + (i - 26)) as char
    else if i < 62 then ('0' as int + (i - 52)) as char
    else if i == 62 then '+'
    else '/'
  }

  /** The six-bit value of an alphabet character; None for anything else,
      the padding character included. */
  function DigitValue(c: char): (r: Option<int>)
    ensures r.Some? ==> 0 <= r.value < 64
  {
    if 'A' <= c <= 'Z' then Some(c as int - 'A' as int)
    else if 'a' <= c <= 'z' then Some(c as int - 'a' as int + 26)
    else if '0' <= c <= '9' then Some(c as int - '0' as int + 52)
    else if c == '+' then Some(62)
    else if c == '/' then Some(63)
    else None
  }

  lemma DigitRoundTrip(i: int)
    requires 0 <= i < 64
    ensures DigitValue(Digit(i)) == Some(i)
  {
  }

  /** Three bytes as four characters. */
  function Quad(a: byte, b: byte, c: byte): string
  {
    [Digit(a as int / 4), Digit(a as int % 4 * 16 + b as int / 16),
     Digit(b as int % 16 * 4 + c as int / 64), Digit(c as int % 64)]
  }

  /** Two final bytes as three characters and one pad. */
  function QuadOfTwo(a: byte, b: byte): string
  {
    [Digit(a as int / 4), Digit(a as int % 4 * 16 + b as int / 16), Digit(b as int % 16 * 4), '=']
  }

  /** One final byte as two characters and two pads. */
  function QuadOfOne(a: byte): string
  {
    [Digit(a as int / 4), Digit(a as int % 4 * 16), '=', '=']
  }

  function Encode(bs: seq<byte>): (s: string)
    ensures |s| % 4 == 0
    decreases |bs|
  {
    if |bs| >= 3 then Quad(bs[0], bs[1], bs[2]) + Encode(bs[3..])
    else if |bs| == 2 then QuadOfTwo(bs[0], bs[1])
    else if |bs| == 1 then QuadOfOne(bs[0])
    else ""
  }

  /** The bytes one group of four characters stands for: three, or fewer
      when the group ends in padding; None when a character is not in the
      alphabet or padding is misplaced. */
  function DecodeGroup(c0: char, c1: char, c2: char, c3: char): (r: Option<seq<byte>>)
    ensures r.Some? ==> 1 <= |r.value| <= 3
  {
    var d0, d1 := DigitValue(c0), DigitValue(c1);
    if d0.None? || d1.None? then None
    else
      var b0 := (d0.value * 4 + d1.value / 16) as byte;
      if c2 == '=' && c3 == '=' then Some([b0])
      else
        var d2 := DigitValue(c2);
        if d2.None? then None
        else
          var b1 := (d1.value % 16 * 16 + d2.value / 4) as byte;
          if c3 == '=' then Some([b0, b1])
          else
            var d3 := DigitValue(c3);
            if d3.None? then None
            else Some([b0, b1, (d2.value % 4 * 64 + d3.value) as byte])
  }

  /** Decoding, group by group; a padded group must be the last one. */
  function Decode(s: string): Option<seq<byte>>
    decreases |s|
  {
    if |s| == 0 then Some([])
    else if |s| < 4 then None
    else
      match DecodeGroup(s[0], s[1], s[2], s[3])
      case None => None
      case Some(g) =>
        if |g| < 3 then (if |s| == 4 then Some(g) else None)
        else
          match Decode(s[4..])
          case None => None
          case Some(rest) => Some(g + rest)
  }

  /** The three six-bit pieces of a full group put back together. */
  lemma RegroupThree(a: int, b: int, c: int)
    requires 0 <= a < 256 && 0 <= b < 256 && 0 <= c < 256
    ensures a / 4 * 4 + (a % 4 * 16 + b / 16) / 16 == a
    ensures (a % 4 * 16 + b / 16) % 16 * 16 + (b % 16 * 4 + c / 64) / 4 == b
    ensures (b % 16 * 4 + c / 64) % 4 * 64 + c % 64 == c
  {
  }

  lemma DecodeQuad(a: byte, b: byte, c: byte)
    ensures var q := Quad(a, b, c); DecodeGroup(q[0], q[1], q[2], q[3]) == Some([a, b, c])
  {
    var x, y, z := a as int, b as int, c as int;
    DigitRoundTrip(x / 4);
    DigitRoundTrip(x % 4 * 16 + y / 16);
    DigitRoundTrip(y % 16 * 4 + z / 64);
    DigitRoundTrip(z % 64);
    RegroupThree(x, y, z);
  }

  lemma DecodeTwo(a: byte, b: byte)
    ensures var q := QuadOfTwo(a, b); DecodeGroup(q[0], q[1], q[2], q[3]) == Some([a, b])
  {
    var x, y := a as int, b as int;
    DigitRoundTrip(x / 4);
    DigitRoundTrip(x % 4 * 16 + y / 16);
    DigitRoundTrip(y % 16 * 4);
    RegroupThree(x, y, 0);
  }

  lemma DecodeOne(a: byte)
    ensures var q := QuadOfOne(a); DecodeGroup(q[0], q[1], q[2], q[3]) == Some([a])
  {
    var x := a as int;
    DigitRoundTrip(x / 4);
    DigitRoundTrip(x % 4 * 16);
    RegroupThree(x, 0, 0);
  }

  /** A full group in front of a decodable rest decodes to its three bytes
      in front of the rest's. */
  lemma DecodeFullGroup(q: string, rest: string, g: seq<byte>, tail: seq<byte>)
    requires |q| == 4 && |g| == 3
    requires DecodeGroup(q[0], q[1], q[2], q[3]) == Some(g)
    requires Decode(rest) == Some(tail)
    ensures Decode(q + rest) == Some(g + tail)
  {
    var s := q + rest;
    assert s[0] == q[0] && s[1] == q[1] && s[2] == q[2] && s[3] == q[3];
    assert s[4..] == rest;
  }

  /** A padded group decodes, alone, to its bytes. */
  lemma DecodeLastGroup(q: string, g: seq<byte>)
    requires |q| == 4 && |g| < 3
    requires DecodeGroup(q[0], q[1], q[2], q[3]) == Some(g)
    ensures Decode(q) == Some(g)
  {
  }

  lemma EncodeFull(bs: seq<byte>)
    requires |bs| >= 3
    ensures Encode(bs) == Quad(bs[0], bs[1], bs[2]) + Encode(bs[3..])
  {
  }

  lemma SplitThree(bs: seq<byte>)
    requires |bs| >= 3
    ensures [bs[0], bs[1], bs[2]] + bs[3..] == bs
  {
  }

  /** A full group decodes back when the rest does. */
  lemma DecodeEncodeFull(bs: seq<byte>)
    requires |bs| >= 3 && Decode(Encode(bs[3..])) == Some(bs[3..])
    ensures Decode(Encode(bs)) == Some(bs)
  {
    var a, b, c := bs[0], bs[1], bs[2];
    EncodeFull(bs);
    SplitThree(bs);
    DecodeQuad(a, b, c);
    DecodeFullGroup(Quad(a, b, c), Encode(bs[3..]), [a, b, c], bs[3..]);
  }

  /** Fewer than three bytes decode back from their one padded group. */
  lemma DecodeEncodeShort(bs: seq<byte>)
    requires |bs| < 3
    ensures Decode(Encode(bs)) == Some(bs)
  {
    if |bs| == 2 {
      DecodeTwo(bs[0], bs[1]);
      DecodeLastGroup(QuadOfTwo(bs[0], bs[1]), [bs[0], bs[1]]);
      assert [bs[0], bs[1]] == bs;
    } else if |bs| == 1 {
      DecodeOne(bs[0]);
      DecodeLastGroup(QuadOfOne(bs[0]), [bs[0]]);
      assert [bs[0]] == bs;
    }
  }

  /** Decoding undoes encoding. */
  lemma {:induction false} DecodeEncode(bs: seq<byte>)
    ensures Decode(Encode(bs)) == Some(bs)
    decreases |bs|
  {
    if |bs| >= 3 {
      DecodeEncode(bs[3..]);
      DecodeEncodeFull(bs);
    } else {
      DecodeEncodeShort(bs);
    }
  }

  /** The UTF-8 bytes of one character. */
  function Utf8Char(c: char): (r: seq<byte>)
    ensures 1 <= |r| <= 4
  {
    var n := c as int;
    if n < 0x80 then [n as byte]
    else if n < 0x800 then [(0xC0 + n / 64) as byte, (0x80 + n % 64) as byte]
    else if n < 0x10000 then
      [(0xE0 + n / 4096) as byte, (0x80 + n / 64 % 64) as byte, (0x80 + n % 64) as byte]
    else
      [(0xF0 + n / 262144) as byte, (0x80 + n / 4096 % 64) as byte,
       (0x80 + n / 64 % 64) as byte, (0x80 + n % 64) as byte]
  }

  /** The bytes of a string, as Go's `[]byte(s)` gives them. */
  function Utf8(s: string): seq<byte>
  {
    if s == [] then [] else Utf8Char(s[0]) + Utf8(s[1..])
  }
}

=== FILE: common.dfy ===
/** Shared vocabulary of the model: optional values, the error outcomes a
    store call can report, and bytes. */
module Common {

  datatype Option<+T> = None | Some(value: T)

  /** What a call on the backing store can answer besides success: the
      object is absent, the object already exists, or any other failure
      (transport, authorization, a recovered panic). */
  datatype Error = NotFound | AlreadyExists | Other

  newtype byte = x: int | 0 <= x < 256
}

=== FILE: cronjobs.dfy ===
/** The CronJob reconciler: one CronJob per declared job, named after the job
    alone, its spec replaced wholesale when it drifts, and a prune of the
    CronJobs carrying the Rollout's uid that no declared job names. */
module CronJobs {
  import opened Common
  import opened Kube
  import Api
  import opened Naming
  import opened Cluster
  import opened Helpers

  function CronJobKey(cj: Api.CronJobSpec): Key
  {
    Key(CronJob, cj.name)
  }

  /** The desired CronJob: a single container named after the job, run with
      restart-on-failure, with the job's suspend flag, schedule and retry
      limit. It carries no labels and no image pull secret. */
  function CronJobFor(f: Api.Rollout, cj: Api.CronJobSpec, ext: Externals): (o: Obj)
    ensures KeyOf(o) == CronJobKey(cj)
    ensures o.meta.labels == map[] && o.meta.owners == [ControllerRef(f)]
    ensures InScope(o, OwnerUidScope(f.uid))
    ensures var s := o.body.cronJob;
      && s.suspend == Some(cj.suspend) && s.schedule == cj.schedule
      && s.jobTemplate.backoffLimit == Some(cj.backoffLimit)
      && s.jobTemplate.template.spec.restartPolicy == Some(OnFailure)
      && s.jobTemplate.template.spec.imagePullSecrets == []
      && |s.jobTemplate.template.spec.containers| == 1
    ensures var c := o.body.cronJob.jobTemplate.template.spec.containers[0];
      && c.name == cj.name
      && c.image == cj.image.registry + "/" + cj.image.repository + ":" + cj.image.tag
      && c.command == cj.command && c.args == cj.args
      && c.env == EnvVars(cj.env) && c.resources == ResourceRequirementsFor(cj.resources, ext)
  {
    var container := Container(cj.name, ImageRef(cj.image), cj.command, cj.args, EnvVars(cj.env), [],
      ResourceRequirementsFor(cj.resources, ext), [], [], None);
    var pod := PodSpec([container], "", [], map[], [], [], [], None, Some(OnFailure));
    Obj(Meta(cj.name, map[], map[], [ControllerRef(f)]),
      CronJobBody(CronJobSpec(Some(cj.suspend), cj.schedule, JobSpec(Some(cj.backoffLimit), PodTemplate(map[], map[], pod)))))
  }

  /** The desired CronJobs, in declaration order. */
  function CronJobsFor(f: Api.Rollout, cjs: seq<Api.CronJobSpec>, ext: Externals): (ds: seq<Obj>)
    ensures |ds| == |cjs|
    ensures forall t :: 0 <= t < |cjs| ==> ds[t] == CronJobFor(f, cjs[t], ext)
  {
    seq(|cjs|, t requires 0 <= t < |cjs| => CronJobFor(f, cjs[t], ext))
  }

  /** One declared job: create the desired object when absent; replace the
      live object's spec (and nothing else) when it differs. */
  function SpecStep(m: map<Key, Obj>, faulty: set<Key>, desired: Obj): (p: Pass)
    requires WellKeyed(m)
    ensures WellKeyed(p.objects)
    ensures p.status != Halted
    ensures p.status.Failed? <==> KeyOf(desired) in faulty
    ensures p.status.Failed? ==> p.status.error == Other
    ensures p.status == Running ==> KeyOf(desired) in p.objects && p.objects[KeyOf(desired)].body == desired.body
    ensures KeyOf(desired) in m ==> KeyOf(desired) in p.objects && p.objects[KeyOf(desired)].meta == m[KeyOf(desired)].meta
    ensures forall j :: j != KeyOf(desired) ==> (j in p.objects <==> j in m) && (j in m ==> p.objects[j] == m[j])
  {
    var k := KeyOf(desired);
    if k in faulty then Pass(m, Failed(Other))
    else if k !in m then Continue(Created(m, faulty, desired))
    else if m[k].body != desired.body then Continue(Updated(m, faulty, m[k].(body := desired.body)))
    else Pass(m, Running)
  }

  /** The per-job loop over the desired CronJobs, stopped by the first error. */
  function SpecPass(m: map<Key, Obj>, faulty: set<Key>, ds: seq<Obj>): (p: Pass)
    requires WellKeyed(m)
    ensures WellKeyed(p.objects)
    ensures p.status != Halted
    decreases |ds|
  {
    if ds == [] then Pass(m, Running)
    else
      var p := SpecStep(m, faulty, ds[0]);
      if p.status != Running then p else SpecPass(p.objects, faulty, ds[1..])
  }

  function Keys(ds: seq<Obj>): set<Key>
  {
    set t | 0 <= t < |ds| :: KeyOf(ds[t])
  }

  function CronJobNames(cjs: seq<Api.CronJobSpec>): set<string>
  {
    set i | 0 <= i < |cjs| :: cjs[i].name
  }

  /** What the reconciler promises: the loop's error as is, or else a prune
      of the CronJobs owned by the Rollout's uid whose names no job uses. */
  ghost predicate CronJobsReconciled(
    before: map<Key, Obj>, after: map<Key, Obj>, faulty: set<Key>, listFaulty: set<Kind>, f: Api.Rollout, ext: Externals, err: Option<Error>)
    requires WellKeyed(before)
  {
    var p := SpecPass(before, faulty, CronJobsFor(f, f.spec.cronJobs, ext));
    if p.status.Failed? then err == Some(p.status.error) && after == p.objects
    else Swept(p.objects, after, CronJob, CronJobNames(f.spec.cronJobs), OwnerUidScope(f.uid), faulty, listFaulty, err)
  }

  /** One loop step moves the pass forward, or ends it with the step's error. */
  lemma SpecPassAdvance(m: map<Key, Obj>, m': map<Key, Obj>, faulty: set<Key>, ds: seq<Obj>, i: int, err: Option<Error>)
    requires WellKeyed(m) && WellKeyed(m') && 0 <= i < |ds|
    requires SpecStep(m, faulty, ds[i]) == Pass(m', if err.None? then Running else Failed(err.value))
    ensures err.None? ==> SpecPass(m, faulty, ds[i..]) == SpecPass(m', faulty, ds[i + 1..])
    ensures err.Some? ==> SpecPass(m, faulty, ds[i..]) == Pass(m', Failed(err.value))
  {
    assert ds[i..][0] == ds[i] && ds[i..][1..] == ds[i + 1..];
  }

  /** The `i`-th declared job, as the loop body does it: the pass over the
      remaining jobs either carries on from the new state or ends here with
      the error. */
  method SyncCronJob(store: Store, f: Api.Rollout, ext: Externals, cjs: seq<Api.CronJobSpec>, i: int) returns (err: Option<Error>)
    requires store.Valid() && 0 <= i < |cjs|
    modifies store
    ensures store.Valid()
    ensures var ds := CronJobsFor(f, cjs, ext);
      err.None? ==> SpecPass(old(store.objects), store.faulty, ds[i..]) == SpecPass(store.objects, store.faulty, ds[i + 1..])
    ensures var ds := CronJobsFor(f, cjs, ext);
      err.Some? ==> SpecPass(old(store.objects), store.faulty, ds[i..]) == Pass(store.objects, Failed(err.value))
  {
    ghost var m := store.objects;
    var cj := cjs[i];
    var desired := CronJobFor(f, cj, ext);
    var got := store.Get(CronJobKey(cj));
    if got.FetchError? && got.error == NotFound {
      err := store.Create(desired);
    } else if got.FetchError? {
      err := Some(got.error);
    } else {
      var found := got.obj;
      err := None;
      if found.body != desired.body {
        found := found.(body := desired.body);
        err := store.Update(found);
      }
    }
    SpecPassAdvance(m, store.objects, store.faulty, CronJobsFor(f, cjs, ext), i, err);
  }

  lemma CronJobNamesGrow(cjs: seq<Api.CronJobSpec>, i: int)
    requires 0 <= i <= |cjs|
    ensures i < |cjs| ==> CronJobNames(cjs[..i + 1]) == CronJobNames(cjs[..i]) + {cjs[i].name}
    ensures i == |cjs| ==> CronJobNames(cjs[..i]) == CronJobNames(cjs)
  {
    if i < |cjs| {
      assert forall j :: 0 <= j < i ==> cjs[..i + 1][j] == cjs[..i][j];
      assert cjs[..i + 1][i] == cjs[i];
    } else {
      assert cjs[..i] == cjs;
    }
  }

  lemma CronJobsStoppedAt(
    before: map<Key, Obj>, after: map<Key, Obj>, faulty: set<Key>, listFaulty: set<Kind>, f: Api.Rollout, ext: Externals, e: Error)
    requires WellKeyed(before)
    requires SpecPass(before, faulty, CronJobsFor(f, f.spec.cronJobs, ext)) == Pass(after, Failed(e))
    ensures CronJobsReconciled(before, after, faulty, listFaulty, f, ext, Some(e))
  {
  }

  lemma CronJobsSweptAfter(
    before: map<Key, Obj>, mid: map<Key, Obj>, after: map<Key, Obj>, faulty: set<Key>, listFaulty: set<Kind>,
    f: Api.Rollout, ext: Externals, err: Option<Error>)
    requires WellKeyed(before)
    requires SpecPass(before, faulty, CronJobsFor(f, f.spec.cronJobs, ext)) == Pass(mid, Running)
    requires Swept(mid, after, CronJob, CronJobNames(f.spec.cronJobs), OwnerUidScope(f.uid), faulty, listFaulty, err)
    ensures CronJobsReconciled(before, after, faulty, listFaulty, f, ext, err)
  {
  }

  method ReconcileCronJobs(store: Store, f: Api.Rollout, ext: Externals) returns (err: Option<Error>)
    requires store.Valid()
    modifies store
    ensures store.Valid()
    ensures CronJobsReconciled(old(store.objects), store.objects, store.faulty, store.listFaulty, f, ext, err)
  {
    var cjs := f.spec.cronJobs;
    ghost var m0 := store.objects;
    ghost var ds := CronJobsFor(f, cjs, ext);
    // the names seen so far; the source keys a map by them and only ever
    // asks whether a name is among its keys
    var defined: set<string> := {};
    var i := 0;
    while i < |cjs|
      invariant 0 <= i <= |cjs|
      invariant store.Valid()
      invariant defined == CronJobNames(cjs[..i])
      invariant SpecPass(m0, store.faulty, ds) == SpecPass(store.objects, store.faulty, ds[i..])
    {
      CronJobNamesGrow(cjs, i);
      defined := defined + {cjs[i].name};
      err := SyncCronJob(store, f, ext, cjs, i);
      if err.Some? {
        CronJobsStoppedAt(m0, store.objects, store.faulty, store.listFaulty, f, ext, err.value);
        return;
      }
      i := i + 1;
    }
    CronJobNamesGrow(cjs, i);
    assert ds[i..] == [];
    ghost var mid := store.objects;
    err := store.Sweep(CronJob, defined, OwnerUidScope(f.uid));
    CronJobsSweptAfter(m0, mid, store.objects, store.faulty, store.listFaulty, f, ext, err);
  }

  /** The loop writes only the keys of the desired objects. */
  lemma {:induction false} SpecPassFrame(m: map<Key, Obj>, faulty: set<Key>, ds: seq<Obj>, j: Key)
    requires WellKeyed(m) && j !in Keys(ds)
    ensures var p := SpecPass(m, faulty, ds);
      (j in p.objects <==> j in m) && (j in m ==> p.objects[j] == m[j])
    decreases |ds|
  {
    if ds != [] {
      var p := SpecStep(m, faulty, ds[0]);
      if p.status == Running {
        assert Keys(ds[1..]) <= Keys(ds) by {
          assert forall t :: 0 <= t < |ds| - 1 ==> ds[1..][t] == ds[t + 1];
        }
        SpecPassFrame(p.objects, faulty, ds[1..], j);
      }
    }
  }

  /** The loop fails exactly when the key of some desired object is faulty,
      and then with Other. */
  lemma {:induction false} SpecPassFails(m: map<Key, Obj>, faulty: set<Key>, ds: seq<Obj>)
    requires WellKeyed(m)
    ensures var p := SpecPass(m, faulty, ds);
      && (p.status.Failed? <==> Keys(ds) * faulty != {})
      && (p.status.Failed? ==> p.status.error == Other)
    decreases |ds|
  {
    if ds != [] {
      var p := SpecStep(m, faulty, ds[0]);
      assert Keys(ds) == {KeyOf(ds[0])} + Keys(ds[1..]) by {
        assert forall t :: 0 <= t < |ds| - 1 ==> ds[1..][t] == ds[t + 1];
        assert forall t :: 1 <= t < |ds| ==> ds[t] == ds[1..][t - 1];
      }
      if p.status == Running {
        SpecPassFails(p.objects, faulty, ds[1..]);
      } else {
        assert KeyOf(ds[0]) in Keys(ds) * faulty;
      }
    }
  }

  /** An object that already existed keeps its metadata (owners included):
      only its spec is ever replaced. */
  lemma {:induction false} SpecPassKeepsMeta(m: map<Key, Obj>, faulty: set<Key>, ds: seq<Obj>, k: Key)
    requires WellKeyed(m) && k in m
    ensures var p := SpecPass(m, faulty, ds);
      k in p.objects && p.objects[k].meta == m[k].meta
    decreases |ds|
  {
    if ds != [] {
      var p := SpecStep(m, faulty, ds[0]);
      if p.status == Running {
        SpecPassKeepsMeta(p.objects, faulty, ds[1..], k);
      }
    }
  }

  /** After a loop that got through, a desired object whose key no later one
      shares is in place with its spec. */
  lemma {:induction false} SpecPassLastWins(m: map<Key, Obj>, faulty: set<Key>, ds: seq<Obj>, i: int)
    requires WellKeyed(m)
    requires SpecPass(m, faulty, ds).status == Running
    requires 0 <= i < |ds| && KeyOf(ds[i]) !in Keys(ds[i + 1..])
    ensures var p := SpecPass(m, faulty, ds);
      KeyOf(ds[i]) in p.objects && p.objects[KeyOf(ds[i])].body == ds[i].body
    decreases |ds|
  {
    var p := SpecStep(m, faulty, ds[0]);
    var rest := ds[1..];
    assert p.status == Running;
    if i == 0 {
      SpecPassFrame(p.objects, faulty, rest, KeyOf(ds[0]));
    } else {
      assert rest[i - 1] == ds[i] && rest[i..] == ds[i + 1..];
      SpecPassLastWins(p.objects, faulty, rest, i - 1);
    }
  }

  /** The desired CronJobs' keys are the CronJob keys of the declared names. */
  lemma CronJobKeys(f: Api.Rollout, cjs: seq<Api.CronJobSpec>, ext: Externals)
    ensures Keys(CronJobsFor(f, cjs, ext)) == set n | n in CronJobNames(cjs) :: Key(CronJob, n)
  {
    var ds := CronJobsFor(f, cjs, ext);
    forall k | k in Keys(ds)
      ensures k.kind == CronJob && k.name in CronJobNames(cjs)
    {
      var t :| 0 <= t < |ds| && KeyOf(ds[t]) == k;
      assert cjs[t].name in CronJobNames(cjs);
    }
    forall n | n in CronJobNames(cjs)
      ensures Key(CronJob, n) in Keys(ds)
    {
      var t :| 0 <= t < |cjs| && cjs[t].name == n;
      assert KeyOf(ds[t]) == Key(CronJob, n);
    }
  }

  /** The CronJob loop fails exactly when some declared job's key is faulty,
      and then with Other. */
  lemma CronJobsPassFails(m: map<Key, Obj>, faulty: set<Key>, f: Api.Rollout, ext: Externals, cjs: seq<Api.CronJobSpec>)
    requires WellKeyed(m)
    ensures var p := SpecPass(m, faulty, CronJobsFor(f, cjs, ext));
      && (p.status.Failed? <==> exists i :: 0 <= i < |cjs| && CronJobKey(cjs[i]) in faulty)
      && (p.status.Failed? ==> p.status.error == Other)
  {
    var ds := CronJobsFor(f, cjs, ext);
    SpecPassFails(m, faulty, ds);
    if Keys(ds) * faulty != {} {
      var k :| k in Keys(ds) * faulty;
      var t :| 0 <= t < |ds| && KeyOf(ds[t]) == k;
      assert CronJobKey(cjs[t]) in faulty;
    }
    if exists i :: 0 <= i < |cjs| && CronJobKey(cjs[i]) in faulty {
      var i :| 0 <= i < |cjs| && CronJobKey(cjs[i]) in faulty;
      assert KeyOf(ds[i]) in Keys(ds) * faulty;
    }
  }

  /** After a loop that got through, a job that no later job shares a name
      with has its spec in place, under a name the prune keeps. */
  lemma CronJobSpecInPlace(m: map<Key, Obj>, faulty: set<Key>, f: Api.Rollout, ext: Externals, i: int)
    requires WellKeyed(m)
    requires SpecPass(m, faulty, CronJobsFor(f, f.spec.cronJobs, ext)).status == Running
    requires 0 <= i < |f.spec.cronJobs| && f.spec.cronJobs[i].name !in CronJobNames(f.spec.cronJobs[i + 1..])
    ensures var p := SpecPass(m, faulty, CronJobsFor(f, f.spec.cronJobs, ext));
      var k := CronJobKey(f.spec.cronJobs[i]);
      && k.name in CronJobNames(f.spec.cronJobs)
      && k in p.objects && p.objects[k].body == CronJobFor(f, f.spec.cronJobs[i], ext).body
  {
    var cjs := f.spec.cronJobs;
    var ds := CronJobsFor(f, cjs, ext);
    CronJobKeys(f, cjs[i + 1..], ext);
    assert ds[i + 1..] == CronJobsFor(f, cjs[i + 1..], ext);
    SpecPassLastWins(m, faulty, ds, i);
    assert cjs[i].name in CronJobNames(cjs);
  }

  /** The CronJob loop leaves every object of another kind as it was. */
  lemma CronJobsPassOtherKinds(m: map<Key, Obj>, faulty: set<Key>, f: Api.Rollout, ext: Externals, k: Key)
    requires WellKeyed(m) && k.kind != CronJob
    ensures var p := SpecPass(m, faulty, CronJobsFor(f, f.spec.cronJobs, ext));
      (k in p.objects <==> k in m) && (k in m ==> p.objects[k] == m[k])
  {
    CronJobKeys(f, f.spec.cronJobs, ext);
    SpecPassFrame(m, faulty, CronJobsFor(f, f.spec.cronJobs, ext), k);
  }

  /** A successful reconcile leaves every declared job's CronJob with the
      spec of the last job bearing its name. */
  lemma CronJobsReconciledSpecs(
    before: map<Key, Obj>, after: map<Key, Obj>, faulty: set<Key>, listFaulty: set<Kind>, f: Api.Rollout, ext: Externals, err: Option<Error>)
    requires WellKeyed(before)
    requires CronJobsReconciled(before, after, faulty, listFaulty, f, ext, err) && err.None?
    ensures var cjs := f.spec.cronJobs;
      forall i :: 0 <= i < |cjs| && cjs[i].name !in CronJobNames(cjs[i + 1..]) ==>
        CronJobKey(cjs[i]) in after && after[CronJobKey(cjs[i])].body == CronJobFor(f, cjs[i], ext).body
  {
    var cjs := f.spec.cronJobs;
    var p := SpecPass(before, faulty, CronJobsFor(f, cjs, ext));
    SweptKeeps(p.objects, after, CronJob, CronJobNames(cjs), OwnerUidScope(f.uid), faulty, listFaulty, err);
    forall i | 0 <= i < |cjs| && cjs[i].name !in CronJobNames(cjs[i + 1..])
      ensures CronJobKey(cjs[i]) in after && after[CronJobKey(cjs[i])].body == CronJobFor(f, cjs[i], ext).body
    {
      CronJobSpecInPlace(before, faulty, f, ext, i);
    }
  }

  /** A successful reconcile keeps the metadata of the CronJobs that already
      existed unless they were pruned, leaves no CronJob owned by the
      Rollout's uid that no job names, and leaves every object of another
      kind as it was. */
  lemma CronJobsReconciledKeeps(
    before: map<Key, Obj>, after: map<Key, Obj>, faulty: set<Key>, listFaulty: set<Kind>, f: Api.Rollout, ext: Externals, err: Option<Error>)
    requires WellKeyed(before)
    requires CronJobsReconciled(before, after, faulty, listFaulty, f, ext, err) && err.None?
    ensures forall k :: k in before && k in after ==> after[k].meta == before[k].meta
    ensures forall k :: k in after && k.kind == CronJob && InScope(after[k], OwnerUidScope(f.uid)) ==>
      k.name in CronJobNames(f.spec.cronJobs)
    ensures forall k: Key :: k.kind != CronJob ==> (k in after <==> k in before) && (k in before ==> after[k] == before[k])
  {
    var cjs := f.spec.cronJobs;
    var ds := CronJobsFor(f, cjs, ext);
    var p := SpecPass(before, faulty, ds);
    var scope := OwnerUidScope(f.uid);
    SweptKeeps(p.objects, after, CronJob, CronJobNames(cjs), scope, faulty, listFaulty, err);
    SweptClean(p.objects, after, CronJob, CronJobNames(cjs), scope, faulty, listFaulty, err);
    forall k | k in before && k in after
      ensures after[k].meta == before[k].meta
    {
      SpecPassKeepsMeta(before, faulty, ds, k);
    }
    forall k: Key | k.kind != CronJob
      ensures (k in after <==> k in before) && (k in before ==> after[k] == before[k])
    {
      CronJobsPassOtherKinds(before, faulty, f, ext, k);
    }
  }

  /** A successful reconcile leaves every declared job's CronJob with the
      spec of the last job bearing its name, keeps the metadata of the
      CronJobs that already existed unless they were pruned, leaves no
      CronJob owned by the Rollout's uid that no job names, and leaves every
      object of another kind as it was. */
  lemma CronJobsReconciledMeaning(
    before: map<Key, Obj>, after: map<Key, Obj>, faulty: set<Key>, listFaulty: set<Kind>, f: Api.Rollout, ext: Externals, err: Option<Error>)
    requires WellKeyed(before)
    requires CronJobsReconciled(before, after, faulty, listFaulty, f, ext, err) && err.None?
    ensures var cjs := f.spec.cronJobs;
      forall i :: 0 <= i < |cjs| && cjs[i].name !in CronJobNames(cjs[i + 1..]) ==>
        CronJobKey(cjs[i]) in after && after[CronJobKey(cjs[i])].body == CronJobFor(f, cjs[i], ext).body
    ensures forall k :: k in before && k in after ==> after[k].meta == before[k].meta
    ensures forall k :: k in after && k.kind == CronJob && InScope(after[k], OwnerUidScope(f.uid)) ==>
      k.name in CronJobNames(f.spec.cronJobs)
    ensures forall k: Key :: k.kind != CronJob ==> (k in after <==> k in before) && (k in before ==> after[k] == before[k])
  {
    CronJobsReconciledSpecs(before, after, faulty, listFaulty, f, ext, err);
    CronJobsReconciledKeeps(before, after, faulty, listFaulty, f, ext, err);
  }
}

=== FILE: deployment.dfy ===
/** The workload reconciler: builds the Deployment a Rollout describes,
    decides whether the live one is stale, and creates or overwrites it while
    keeping the live replica count. */
module Deployments {
  import opened Common
  import opened Kube
  import Api
  import opened Naming
  import opened Cluster
  import opened Helpers

  /** "recreate" selects Recreate; every other value, the empty one included,
      selects RollingUpdate. */
  function StrategyFor(s: string): (t: StrategyType)
    ensures t == Recreate <==> s == "recreate"
    ensures t == RollingUpdate <==> s != "recreate"
  {
    if s == "" then RollingUpdate
    else if s == "recreate" then Recreate
    else if s == "rollingUpdate" then RollingUpdate
    else RollingUpdate
  }

  /** The tolerations, copied field by field. */
  function Tolerations(ts: seq<Toleration>): (r: seq<Toleration>)
    ensures r == ts
  {
    if ts == [] then []
    else
      var t := ts[0];
      [Toleration(t.key, t.operator, t.value, t.effect, t.tolerationSeconds)] + Tolerations(ts[1..])
  }

  /** One claim-backed pod volume and one mount per declared volume, in
      order; volume, claim and mount all carry the name `<volume>-<rollout>`. */
  function VolumeWiring(vols: seq<Api.VolumeSpec>, rollout: string): (r: (seq<Volume>, seq<VolumeMount>))
    ensures |r.0| == |vols| && |r.1| == |vols|
    ensures forall i :: 0 <= i < |vols| ==>
      && r.0[i] == Volume(ClaimName(vols[i].name, rollout), ClaimName(vols[i].name, rollout))
      && r.1[i] == VolumeMount(ClaimName(vols[i].name, rollout), vols[i].mountPath)
  {
    if vols == [] then ([], [])
    else
      var rest := VolumeWiring(vols[1..], rollout);
      var n := ClaimName(vols[0].name, rollout);
      ([Volume(n, n)] + rest.0, [VolumeMount(n, vols[0].mountPath)] + rest.1)
  }

  function PodSecurityContextFor(sc: Api.SecurityContextSpec): PodSecurityContext
  {
    PodSecurityContext(sc.fsGroup, sc.runAsUser, sc.runAsGroup)
  }

  function ContainerSecurityContextFor(sc: Api.SecurityContextSpec): SecurityContext
  {
    SecurityContext(sc.privileged, sc.readOnlyRootFilesystem, sc.runAsNonRoot, sc.allowPrivilegeEscalation,
      Capabilities(sc.capabilities.add, sc.capabilities.drop))
  }

  /** The Deployment for a Rollout, given the pull secrets to reference
      (its remaining fields are stated by DeploymentForFields). */
  function DeploymentFor(f: Api.Rollout, ext: Externals, pullSecrets: seq<string>): (d: Obj)
    ensures KeyOf(d) == Key(Deployment, f.name)
    ensures d.meta.labels == OwnershipLabels(f) && d.meta.owners == [ControllerRef(f)]
    ensures var spec := d.body.deployment;
      && spec.replicas == None
      && spec.selector == spec.template.labels == OwnershipLabels(f)
      && spec.strategy == StrategyFor(f.spec.rolloutStrategy)
      && spec.template.annotations == map[ChecksumAnnotation := ext.secretsChecksum(f.spec.secrets)]
      && spec.template.spec.imagePullSecrets == pullSecrets
      && (spec.template.spec.securityContext.Some? <==> f.spec.securityContext != Api.DefaultSecurityContext)
      && |spec.template.spec.containers| == 1
    ensures var c := d.body.deployment.template.spec.containers[0];
      && c.name == f.name
      && c.image == f.spec.image.registry + "/" + f.spec.image.repository + ":" + f.spec.image.tag
      && c.command == f.spec.command && c.args == f.spec.args
      && c.ports == []
      && (c.envFrom == [EnvSecretName(f.name)] <==> |f.spec.secrets| > 0)
      && (c.envFrom == [] <==> |f.spec.secrets| == 0)
      && (c.securityContext.Some? <==> f.spec.securityContext != Api.DefaultSecurityContext)
  {
    var labels := OwnershipLabels(f);
    var sc := f.spec.securityContext;
    var defined := sc != Api.DefaultSecurityContext;
    var wiring := VolumeWiring(f.spec.volumes, f.name);
    var container := Container(
      f.name,
      ImageRef(f.spec.image),
      f.spec.command,
      f.spec.args,
      EnvVars(f.spec.env),
      if |f.spec.secrets| > 0 then [EnvSecretName(f.name)] else [],
      ResourceRequirementsFor(f.spec.resources, ext),
      [],
      wiring.1,
      if defined then Some(ContainerSecurityContextFor(sc)) else None);
    var pod := PodSpec(
      [container],
      f.spec.serviceAccountName,
      pullSecrets,
      f.spec.nodeSelector,
      Tolerations(f.spec.tolerations),
      f.spec.hostAliases,
      wiring.0,
      if defined then Some(PodSecurityContextFor(sc)) else None,
      None);
    var template := PodTemplate(labels, map[ChecksumAnnotation := ext.secretsChecksum(f.spec.secrets)], pod);
    Obj(Meta(f.name, labels, map[], [ControllerRef(f)]),
      DeploymentBody(DeploymentSpec(None, labels, template, StrategyFor(f.spec.rolloutStrategy))))
  }

  /** The rest of what the builder sets: the pod's pass-through fields, the
      claim volumes and their mounts, env and resources, and the values of
      both security contexts when the Rollout declares one. */
  lemma DeploymentForFields(f: Api.Rollout, ext: Externals, pullSecrets: seq<string>)
    ensures var pod := DeploymentFor(f, ext, pullSecrets).body.deployment.template.spec;
      && pod.serviceAccountName == f.spec.serviceAccountName
      && pod.nodeSelector == f.spec.nodeSelector
      && pod.tolerations == f.spec.tolerations
      && pod.hostAliases == f.spec.hostAliases
      && pod.volumes == VolumeWiring(f.spec.volumes, f.name).0
      && (pod.securityContext.Some? ==> pod.securityContext.value == PodSecurityContextFor(f.spec.securityContext))
      && |pod.containers| == 1
      && pod.containers[0].env == EnvVars(f.spec.env)
      && pod.containers[0].resources == ResourceRequirementsFor(f.spec.resources, ext)
      && pod.containers[0].volumeMounts == VolumeWiring(f.spec.volumes, f.name).1
      && (pod.containers[0].securityContext.Some? ==>
            pod.containers[0].securityContext.value == ContainerSecurityContextFor(f.spec.securityContext))
  {
  }

  /** The live container ports agree with the interfaces, index by index. */
  function PortsAgree(ports: seq<ContainerPort>, ifaces: seq<Api.InterfaceSpec>): (b: bool)
    requires |ports| == |ifaces|
    ensures b <==> forall i :: 0 <= i < |ifaces| ==>
      ports[i].containerPort == ifaces[i].port && ports[i].name == ifaces[i].name
  {
    if ifaces == [] then true
    else if ports[0].containerPort != ifaces[0].port then false
    else if ports[0].name != ifaces[0].name then false
    else
      var rest := PortsAgree(ports[1..], ifaces[1..]);
      assert forall i :: 1 <= i < |ifaces| ==> ports[i] == ports[1..][i - 1] && ifaces[i] == ifaces[1..][i - 1];
      rest
  }

  function PortsMatch(ports: seq<ContainerPort>, ifaces: seq<Api.InterfaceSpec>): (b: bool)
    ensures b <==> |ports| == |ifaces| && forall i :: 0 <= i < |ifaces| ==>
      ports[i].containerPort == ifaces[i].port && ports[i].name == ifaces[i].name
  {
    if |ports| != |ifaces| then false else PortsAgree(ports, ifaces)
  }

  /** The declared volumes keyed by `<volume>-<rollout>`; a later entry with
      the same key replaces an earlier one. */
  function DesiredVolumeMap(vols: seq<Api.VolumeSpec>, rollout: string): (m: map<string, Api.VolumeSpec>)
    ensures forall key :: key in m <==> exists i :: 0 <= i < |vols| && key == ClaimName(vols[i].name, rollout)
    ensures forall key :: key in m ==> key == ClaimName(m[key].name, rollout)
  {
    if vols == [] then map[]
    else
      var init := DesiredVolumeMap(vols[..|vols| - 1], rollout);
      var v := vols[|vols| - 1];
      assert forall i :: 0 <= i < |vols| - 1 ==> vols[..|vols| - 1][i] == vols[i];
      init[ClaimName(v.name, rollout) := v]
  }

  /** Every live volume is found in the map under its own name suffixed with
      the rollout name, and claims that name suffixed once more. */
  function AllVolumesKnown(current: seq<Volume>, desired: map<string, Api.VolumeSpec>, rollout: string): (b: bool)
    ensures b <==> forall i :: 0 <= i < |current| ==>
      var key := current[i].name + "-" + rollout;
      key in desired && current[i].claimName == desired[key].name + "-" + rollout
  {
    if current == [] then true
    else
      var key := current[0].name + "-" + rollout;
      if key !in desired then false
      else if current[0].claimName != desired[key].name + "-" + rollout then false
      else
        var rest := AllVolumesKnown(current[1..], desired, rollout);
        assert forall i :: 1 <= i < |current| ==> current[i] == current[1..][i - 1];
        rest
  }

  function VolumesMatch(current: seq<Volume>, desired: seq<Api.VolumeSpec>, rollout: string): (b: bool)
    ensures |current| != |desired| ==> !b
  {
    if |current| != |desired| then false
    else AllVolumesKnown(current, DesiredVolumeMap(desired, rollout), rollout)
  }

  /** What the comparison really tests: equal lengths, and every live volume
      bears the name of some declared volume (not its claim name) and claims
      that name suffixed with the rollout name. */
  lemma VolumesMatchMeaning(current: seq<Volume>, desired: seq<Api.VolumeSpec>, rollout: string)
    ensures VolumesMatch(current, desired, rollout) <==>
      && |current| == |desired|
      && forall i :: 0 <= i < |current| ==>
        && (exists j :: 0 <= j < |desired| && desired[j].name == current[i].name)
        && current[i].claimName == current[i].name + "-" + rollout
  {
    if |current| == |desired| {
      var dm := DesiredVolumeMap(desired, rollout);
      forall i | 0 <= i < |current|
        ensures (current[i].name + "-" + rollout in dm) <==>
          exists j :: 0 <= j < |desired| && desired[j].name == current[i].name
        ensures current[i].name + "-" + rollout in dm ==>
          dm[current[i].name + "-" + rollout].name == current[i].name
      {
        var key := current[i].name + "-" + rollout;
        forall j | 0 <= j < |desired|
          ensures key == ClaimName(desired[j].name, rollout) <==> desired[j].name == current[i].name
        {
          ClaimNameInjective(desired[j].name, current[i].name, rollout);
        }
        if key in dm {
          ClaimNameInjective(dm[key].name, current[i].name, rollout);
        }
      }
    }
  }

  /** The volumes the builder produces never pass the comparison: each one
      claims its own name, while the comparison wants that name suffixed. */
  lemma BuiltVolumesNeverMatch(vols: seq<Api.VolumeSpec>, rollout: string)
    requires |vols| > 0
    ensures !VolumesMatch(VolumeWiring(vols, rollout).0, vols, rollout)
  {
    var built := VolumeWiring(vols, rollout).0;
    VolumesMatchMeaning(built, vols, rollout);
    assert |built[0].claimName| != |built[0].name + "-" + rollout|;
  }

  /** The container security-context check. The test compares the live
      context with one whose capability lists are freshly made, and so never
      nil; a live Deployment is read back from the API server, where an empty
      list is omitted and comes back nil. The check therefore passes only when
      the live context carries the Rollout's values and both lists are
      non-empty. */
  function ContainerSecurityContextAgrees(live: Option<SecurityContext>, sc: Api.SecurityContextSpec): (b: bool)
    ensures b ==> live == Some(ContainerSecurityContextFor(sc))
    ensures sc.capabilities.add == [] || sc.capabilities.drop == [] ==> !b
    ensures live == Some(ContainerSecurityContextFor(sc)) && sc.capabilities.add != [] && sc.capabilities.drop != [] ==> b
  {
    live == Some(ContainerSecurityContextFor(sc)) && |sc.capabilities.add| > 0 && |sc.capabilities.drop| > 0
  }

  /** The staleness test, check by check in the order the controller makes
      them; None where the controller would index an empty container list. */
  function NeedsUpdate(current: DeploymentSpec, f: Api.Rollout, ext: Externals): (r: Option<bool>)
    ensures r.None? <==>
      current.template.spec.securityContext == Some(PodSecurityContextFor(f.spec.securityContext))
      && |current.template.spec.containers| == 0
    ensures current.template.spec.securityContext != Some(PodSecurityContextFor(f.spec.securityContext)) ==>
      r == Some(true)
    ensures |current.template.spec.containers| > 0 ==>
      var c := current.template.spec.containers[0];
      && (!ContainerSecurityContextAgrees(c.securityContext, f.spec.securityContext) ==> r == Some(true))
      && (c.image != ImageRef(f.spec.image) ==> r == Some(true))
      && (|f.spec.secrets| > 0 && |c.envFrom| == 0 ==> r == Some(true))
      && (|f.spec.secrets| > 0 && |c.envFrom| > 0 && c.envFrom[0] != EnvSecretName(f.name) ==> r == Some(true))
      && (|f.spec.secrets| == 0 && |c.envFrom| > 0 ==> r == Some(true))
    ensures r == Some(false) ==>
      var pod := current.template.spec;
      var c := pod.containers[0];
      && pod.securityContext == Some(PodSecurityContextFor(f.spec.securityContext))
      && c.securityContext == Some(ContainerSecurityContextFor(f.spec.securityContext))
      && |f.spec.securityContext.capabilities.add| > 0 && |f.spec.securityContext.capabilities.drop| > 0
      && c.image == ImageRef(f.spec.image)
      && c.env == EnvVars(f.spec.env)
      && c.resources == ResourceRequirementsFor(f.spec.resources, ext)
      && PortsMatch(c.ports, f.spec.interfaces)
      && VolumesMatch(pod.volumes, f.spec.volumes, f.name)
      && pod.serviceAccountName == f.spec.serviceAccountName
      && c.command == f.spec.command && c.args == f.spec.args
      && current.strategy == StrategyFor(f.spec.rolloutStrategy)
      && pod.nodeSelector == f.spec.nodeSelector
      && pod.tolerations == f.spec.tolerations
      && pod.hostAliases == f.spec.hostAliases
  {
    var sc := f.spec.securityContext;
    var pod := current.template.spec;
    if pod.securityContext != Some(PodSecurityContextFor(sc)) then Some(true)
    else if |pod.containers| == 0 then None
    else
      var c := pod.containers[0];
      if !ContainerSecurityContextAgrees(c.securityContext, sc) then Some(true)
      else if c.image != ImageRef(f.spec.image) then Some(true)
      else if |f.spec.secrets| > 0 && |c.envFrom| == 0 then Some(true)
      else if |f.spec.secrets| > 0 && c.envFrom[0] != EnvSecretName(f.name) then Some(true)
      else if |f.spec.secrets| == 0 && |c.envFrom| > 0 then Some(true)
      else if c.env != EnvVars(f.spec.env) then Some(true)
      else if c.resources != ResourceRequirementsFor(f.spec.resources, ext) then Some(true)
      else if !PortsMatch(c.ports, f.spec.interfaces) then Some(true)
      else if !VolumesMatch(pod.volumes, f.spec.volumes, f.name) then Some(true)
      else if pod.serviceAccountName != f.spec.serviceAccountName then Some(true)
      else if c.command != f.spec.command then Some(true)
      else if c.args != f.spec.args then Some(true)
      else if current.strategy != StrategyFor(f.spec.rolloutStrategy) then Some(true)
      else if pod.nodeSelector != f.spec.nodeSelector then Some(true)
      else if pod.tolerations != Tolerations(f.spec.tolerations) then Some(true)
      else if pod.hostAliases != f.spec.hostAliases then Some(true)
      else Some(false)
  }

  /** The builder and the staleness test disagree exactly when the security
      context is the default one (the builder then sets none, the test wants
      one), when either capability list is empty (read back as nil, it never
      equals the test's made list), when there are interfaces (the builder
      sets no ports), or when there are volumes (the comparison never accepts
      built volumes). */
  lemma {:induction false} BuiltDeploymentStale(f: Api.Rollout, ext: Externals, pullSecrets: seq<string>)
    ensures NeedsUpdate(DeploymentFor(f, ext, pullSecrets).body.deployment, f, ext) == Some(false) <==>
      && f.spec.securityContext != Api.DefaultSecurityContext
      && f.spec.securityContext.capabilities.add != []
      && f.spec.securityContext.capabilities.drop != []
      && f.spec.interfaces == []
      && f.spec.volumes == []
    ensures NeedsUpdate(DeploymentFor(f, ext, pullSecrets).body.deployment, f, ext).Some?
  {
    var spec := DeploymentFor(f, ext, pullSecrets).body.deployment;
    var c := spec.template.spec.containers[0];
    if f.spec.volumes != [] {
      BuiltVolumesNeverMatch(f.spec.volumes, f.name);
    }
    if f.spec.interfaces != [] {
      assert !PortsMatch(c.ports, f.spec.interfaces);
    }
  }

  /** Changing secret values alone, without emptying or filling the list,
      never makes a Deployment stale: the checksum annotation that would carry
      the change is not compared. */
  lemma {:induction false} NeedsUpdateIgnoresSecretValues(current: DeploymentSpec, f: Api.Rollout, secrets: seq<Api.SecretItem>, ext: Externals)
    requires (|secrets| > 0) == (|f.spec.secrets| > 0)
    ensures NeedsUpdate(current, f.(spec := f.spec.(secrets := secrets)), ext) == NeedsUpdate(current, f, ext)
  {
  }

  predicate HasCredentials(image: Api.ImageSpec)
  {
    image.username != "" && image.password != ""
  }

  /** The pull secrets the Deployment references: the Rollout's own one,
      when it has credentials and provisioning the secret succeeded. */
  function PullSecretRefs(f: Api.Rollout, faulty: set<Key>): seq<string>
  {
    if HasCredentials(f.spec.image) && Key(Secret, PullSecretName(f.name)) !in faulty then [PullSecretName(f.name)] else []
  }

  /** The Deployment references the pull secret exactly when the Rollout has
      credentials and the write that provisions the secret succeeded; a failed
      write leaves the reference out rather than failing the build. */
  lemma PullSecretRefsFollowWrite(m: map<Key, Obj>, faulty: set<Key>, f: Api.Rollout)
    requires WellKeyed(m)
    ensures var out := PullSecretSynced(m, faulty, f, f.spec.image, PullSecretName(f.name));
      PullSecretRefs(f, faulty) == [PullSecretName(f.name)] <==> HasCredentials(f.spec.image) && out.err.None?
    ensures var out := PullSecretSynced(m, faulty, f, f.spec.image, PullSecretName(f.name));
      PullSecretRefs(f, faulty) == [] <==> !HasCredentials(f.spec.image) || out.err.Some?
  {
    PullSecretSyncedStores(m, faulty, f, f.spec.image, PullSecretName(f.name));
  }

  /** The store after building the Deployment: building provisions the pull
      secret when the Rollout has credentials. */
  function AfterBuild(m: map<Key, Obj>, faulty: set<Key>, f: Api.Rollout): map<Key, Obj>
    requires WellKeyed(m)
  {
    if HasCredentials(f.spec.image) then PullSecretSynced(m, faulty, f, f.spec.image, PullSecretName(f.name)).objects
    else m
  }

  lemma AfterBuildFrame(m: map<Key, Obj>, faulty: set<Key>, f: Api.Rollout)
    requires WellKeyed(m)
    ensures var m1 := AfterBuild(m, faulty, f);
      && WellKeyed(m1)
      && (forall j :: j != Key(Secret, PullSecretName(f.name)) ==> (j in m1 <==> j in m) && (j in m ==> m1[j] == m[j]))
  {
    if HasCredentials(f.spec.image) {
      PullSecretSyncedStores(m, faulty, f, f.spec.image, PullSecretName(f.name));
    }
  }

  /** Builds the desired Deployment, provisioning the pull secret on the way. */
  method BuildDeployment(store: Store, f: Api.Rollout, ext: Externals) returns (d: Obj)
    requires store.Valid()
    modifies store
    ensures store.Valid()
    ensures store.objects == AfterBuild(old(store.objects), store.faulty, f)
    ensures d == DeploymentFor(f, ext, PullSecretRefs(f, store.faulty))
  {
    var pullSecrets: seq<string> := [];
    if f.spec.image.username != "" && f.spec.image.password != "" {
      var name := PullSecretName(f.name);
      PullSecretSyncedStores(store.objects, store.faulty, f, f.spec.image, name);
      var err := ReconcileImagePullSecret(store, f, f.spec.image, name);
      if err.None? {
        pullSecrets := pullSecrets + [name];
      }
    }
    d := DeploymentFor(f, ext, pullSecrets);
  }

  /** The live Deployment with the desired spec written over its own, except
      for the replica count, which stays the live one. */
  function Overwritten(current: Obj, desired: Obj): Obj
    requires current.body.DeploymentBody? && desired.body.DeploymentBody?
  {
    current.(body := DeploymentBody(desired.body.deployment.(replicas := current.body.deployment.replicas)))
  }

  /** The write once the live Deployment (if any), the desired one and the
      staleness verdict are known: create when there is none, fail on no
      verdict, overwrite when stale, and otherwise leave the store alone. */
  function DeploymentWrite(m1: map<Key, Obj>, faulty: set<Key>, live: Option<Obj>, desired: Obj, verdict: Option<bool>): (out: Outcome)
    requires WellKeyed(m1) && desired.body.DeploymentBody?
    requires live.Some? ==> KeyOf(live.value) == KeyOf(desired)
    ensures WellKeyed(out.objects)
    ensures forall j :: j != KeyOf(desired) ==> (j in out.objects <==> j in m1) && (j in m1 ==> out.objects[j] == m1[j])
    ensures out.err.Some? ==> out.objects == m1
    ensures out.err.None? && live.None? ==> KeyOf(desired) in out.objects && out.objects[KeyOf(desired)] == desired
    ensures out.err.None? && live.Some? ==> verdict.Some?
    ensures out.err.None? && live.Some? && verdict == Some(true) ==>
      KeyOf(desired) in out.objects && out.objects[KeyOf(desired)] == Overwritten(live.value, desired)
    ensures live.Some? && verdict == Some(false) ==> out == Outcome(m1, None)
  {
    match live
    case None => Created(m1, faulty, desired)
    case Some(current) =>
      match verdict
      case None => Outcome(m1, Some(Other))
      case Some(stale) =>
        if stale then Updated(m1, faulty, Overwritten(current, desired)) else Outcome(m1, None)
  }

  /** What one Deployment reconcile leaves in the store. */
  function DeploymentReconciled(m: map<Key, Obj>, faulty: set<Key>, f: Api.Rollout, ext: Externals): Outcome
    requires WellKeyed(m)
  {
    var k := Key(Deployment, f.name);
    if k in faulty then Outcome(m, Some(Other))
    else
      DeploymentWrite(AfterBuild(m, faulty, f), faulty,
        if k in m then Some(m[k]) else None,
        DeploymentFor(f, ext, PullSecretRefs(f, faulty)),
        if k in m then NeedsUpdate(m[k].body.deployment, f, ext) else None)
  }

  /** Fetches the Rollout's Deployment; creates it when absent, and when it
      is stale writes the desired spec over it, keeping its replica count. */
  method ReconcileDeployment(store: Store, f: Api.Rollout, ext: Externals) returns (err: Option<Error>)
    requires store.Valid()
    modifies store
    ensures store.Valid()
    ensures Outcome(store.objects, err) == DeploymentReconciled(old(store.objects), store.faulty, f, ext)
  {
    var k := Key(Deployment, f.name);
    AfterBuildFrame(store.objects, store.faulty, f);
    var got := store.Get(k);
    if got.FetchError? {
      if got.error != NotFound {
        return Some(got.error);
      }
      var desired := BuildDeployment(store, f, ext);
      err := store.Create(desired);
      return;
    }
    var current := got.obj;
    var desired := BuildDeployment(store, f, ext);
    var stale := NeedsUpdate(current.body.deployment, f, ext);
    if stale.None? {
      return Some(Other);
    }
    err := None;
    if stale.value {
      err := store.Update(Overwritten(current, desired));
    }
  }

  /** A reconcile writes only the Deployment and the pull secret, and keeps
      every object under its own key. */
  lemma DeploymentReconciledFrame(m: map<Key, Obj>, faulty: set<Key>, f: Api.Rollout, ext: Externals)
    requires WellKeyed(m)
    ensures var out := DeploymentReconciled(m, faulty, f, ext);
      && WellKeyed(out.objects)
      && forall j :: j != Key(Deployment, f.name) && j != Key(Secret, PullSecretName(f.name)) ==>
           (j in out.objects <==> j in m) && (j in m ==> out.objects[j] == m[j])
  {
    AfterBuildFrame(m, faulty, f);
  }

  /** After a successful reconcile the Deployment exists. An existing one
      keeps its metadata and its replica count, and is either untouched or
      carries the desired spec; a new one is the desired Deployment. */
  lemma DeploymentReconciledResult(m: map<Key, Obj>, faulty: set<Key>, f: Api.Rollout, ext: Externals)
    requires WellKeyed(m)
    requires DeploymentReconciled(m, faulty, f, ext).err.None?
    ensures var out := DeploymentReconciled(m, faulty, f, ext).objects;
      var k := Key(Deployment, f.name);
      var desired := DeploymentFor(f, ext, PullSecretRefs(f, faulty));
      && k in out
      && (k !in m ==> out[k] == desired)
      && (k in m ==>
            && m[k].body.DeploymentBody? && out[k].body.DeploymentBody?
            && out[k].meta == m[k].meta
            && out[k].body.deployment.replicas == m[k].body.deployment.replicas
            && (out[k] == m[k] || out[k] == Overwritten(m[k], desired)))
  {
    var k := Key(Deployment, f.name);
    var desired := DeploymentFor(f, ext, PullSecretRefs(f, faulty));
    var mb := AfterBuild(m, faulty, f);
    AfterBuildFrame(m, faulty, f);
    var live := if k in m then Some(m[k]) else None;
    var verdict := if k in m then NeedsUpdate(m[k].body.deployment, f, ext) else None;
    var out := DeploymentWrite(mb, faulty, live, desired, verdict);
    assert DeploymentReconciled(m, faulty, f, ext) == out;
    if k !in m {
      assert out.objects[k] == desired;
    } else if verdict == Some(true) {
      assert out.objects[k] == Overwritten(m[k], desired);
    } else {
      assert out == Outcome(mb, None);
      assert out.objects[k] == m[k];
    }
  }

  /** Provisioning the pull secret again changes nothing once it holds the
      credentials. */
  lemma AfterBuildFixed(m: map<Key, Obj>, faulty: set<Key>, f: Api.Rollout)
    requires WellKeyed(m)
    requires HasCredentials(f.spec.image) && Key(Secret, PullSecretName(f.name)) !in faulty ==>
      var sk := Key(Secret, PullSecretName(f.name));
      sk in m && m[sk].body.SecretBody? && m[sk].body.data == PullSecretData(f.spec.image)
    ensures AfterBuild(m, faulty, f) == m
  {
    if HasCredentials(f.spec.image) && Key(Secret, PullSecretName(f.name)) !in faulty {
      var sk := Key(Secret, PullSecretName(f.name));
      assert m[sk].(body := m[sk].body.(data := PullSecretData(f.spec.image))) == m[sk];
      assert m[sk := m[sk]] == m;
    }
  }

  /** After a successful reconcile the pull secret, when there is one to
      provision, holds the credentials. */
  lemma ReconciledHoldsPullSecret(m: map<Key, Obj>, faulty: set<Key>, f: Api.Rollout, ext: Externals)
    requires WellKeyed(m)
    requires DeploymentReconciled(m, faulty, f, ext).err.None?
    ensures HasCredentials(f.spec.image) && Key(Secret, PullSecretName(f.name)) !in faulty ==>
      var m1 := DeploymentReconciled(m, faulty, f, ext).objects;
      var sk := Key(Secret, PullSecretName(f.name));
      sk in m1 && m1[sk].body.SecretBody? && m1[sk].body.data == PullSecretData(f.spec.image)
  {
    if HasCredentials(f.spec.image) && Key(Secret, PullSecretName(f.name)) !in faulty {
      PullSecretSyncedStores(m, faulty, f, f.spec.image, PullSecretName(f.name));
      ReconciledFromBuild(m, faulty, f, ext);
    }
  }

  /** A successful reconcile changes the built store at the Deployment's key only. */
  lemma ReconciledFromBuild(m: map<Key, Obj>, faulty: set<Key>, f: Api.Rollout, ext: Externals)
    requires WellKeyed(m)
    requires DeploymentReconciled(m, faulty, f, ext).err.None?
    ensures var out := DeploymentReconciled(m, faulty, f, ext).objects;
      var m1 := AfterBuild(m, faulty, f);
      forall j :: j != Key(Deployment, f.name) ==> (j in out <==> j in m1) && (j in m1 ==> out[j] == m1[j])
  {
    var k := Key(Deployment, f.name);
    var m1 := AfterBuild(m, faulty, f);
    var desired := DeploymentFor(f, ext, PullSecretRefs(f, faulty));
    if k !in m {
      assert DeploymentReconciled(m, faulty, f, ext) == Created(m1, faulty, desired);
    } else {
      var stale := NeedsUpdate(m[k].body.deployment, f, ext);
      if stale == Some(true) {
        assert DeploymentReconciled(m, faulty, f, ext) == Updated(m1, faulty, Overwritten(m[k], desired));
      } else {
        assert DeploymentReconciled(m, faulty, f, ext) == Outcome(m1, None);
      }
    }
  }

  /** A Deployment that carries the desired spec, whatever its replica
      count, gets a verdict from the staleness test, and rewriting it
      changes nothing. */
  lemma OverwrittenSettles(d: Obj, desired: Obj, f: Api.Rollout, ext: Externals)
    requires d.body.DeploymentBody? && desired.body.DeploymentBody?
    requires d.body.deployment == desired.body.deployment.(replicas := d.body.deployment.replicas)
    requires |desired.body.deployment.template.spec.containers| == 1
    ensures NeedsUpdate(d.body.deployment, f, ext).Some?
    ensures Overwritten(d, desired) == d
  {
  }

  /** After a successful reconcile the live Deployment is one the next
      staleness test accepts, or one that rewriting leaves as it is. */
  lemma ReconciledDeploymentSettled(m: map<Key, Obj>, faulty: set<Key>, f: Api.Rollout, ext: Externals)
    requires WellKeyed(m)
    requires DeploymentReconciled(m, faulty, f, ext).err.None?
    ensures var m1 := DeploymentReconciled(m, faulty, f, ext).objects;
      var k := Key(Deployment, f.name);
      var desired := DeploymentFor(f, ext, PullSecretRefs(f, faulty));
      && k in m1 && m1[k].body.DeploymentBody?
      && NeedsUpdate(m1[k].body.deployment, f, ext).Some?
      && (NeedsUpdate(m1[k].body.deployment, f, ext) == Some(true) ==> Overwritten(m1[k], desired) == m1[k])
  {
    var k := Key(Deployment, f.name);
    var desired := DeploymentFor(f, ext, PullSecretRefs(f, faulty));
    var mb := AfterBuild(m, faulty, f);
    AfterBuildFrame(m, faulty, f);
    var live := if k in m then Some(m[k]) else None;
    var verdict := if k in m then NeedsUpdate(m[k].body.deployment, f, ext) else None;
    var out := DeploymentWrite(mb, faulty, live, desired, verdict);
    assert DeploymentReconciled(m, faulty, f, ext) == out;
    var d := out.objects[k];
    if k !in m {
      assert d == desired;
      OverwrittenSettles(d, desired, f, ext);
    } else if verdict == Some(true) {
      assert d == Overwritten(m[k], desired);
      OverwrittenSettles(d, desired, f, ext);
    } else {
      assert out == Outcome(mb, None);
      assert d == m[k];
    }
  }

  /** A reconcile over a store whose pull secret is in place and whose
      Deployment the staleness test settles writes nothing. */
  lemma ReconcileSettledStore(m1: map<Key, Obj>, faulty: set<Key>, f: Api.Rollout, ext: Externals)
    requires WellKeyed(m1)
    requires AfterBuild(m1, faulty, f) == m1
    requires var k := Key(Deployment, f.name);
      && k !in faulty && k in m1 && m1[k].body.DeploymentBody?
      && NeedsUpdate(m1[k].body.deployment, f, ext).Some?
      && (NeedsUpdate(m1[k].body.deployment, f, ext) == Some(true) ==>
            Overwritten(m1[k], DeploymentFor(f, ext, PullSecretRefs(f, faulty))) == m1[k])
    ensures DeploymentReconciled(m1, faulty, f, ext) == Outcome(m1, None)
  {
    var k := Key(Deployment, f.name);
    var desired := DeploymentFor(f, ext, PullSecretRefs(f, faulty));
    var v := NeedsUpdate(m1[k].body.deployment, f, ext);
    assert DeploymentReconciled(m1, faulty, f, ext) == DeploymentWrite(m1, faulty, Some(m1[k]), desired, v);
    if v == Some(true) {
      assert m1[k := m1[k]] == m1;
    }
  }

  /** Reconciling twice leaves the store as reconciling once did. */
  lemma {:induction false} DeploymentReconcileIdempotent(m: map<Key, Obj>, faulty: set<Key>, f: Api.Rollout, ext: Externals)
    requires WellKeyed(m)
    requires DeploymentReconciled(m, faulty, f, ext).err.None?
    ensures var m1 := DeploymentReconciled(m, faulty, f, ext).objects;
      WellKeyed(m1) && DeploymentReconciled(m1, faulty, f, ext) == Outcome(m1, None)
  {
    DeploymentReconciledFrame(m, faulty, f, ext);
    ReconciledHoldsPullSecret(m, faulty, f, ext);
    ReconciledDeploymentSettled(m, faulty, f, ext);
    var m1 := DeploymentReconciled(m, faulty, f, ext).objects;
    AfterBuildFixed(m1, faulty, f);
    assert Key(Deployment, f.name) !in faulty;
    ReconcileSettledStore(m1, faulty, f, ext);
  }
}

=== FILE: helpers.dfy ===
/** Builders shared by the reconcilers: environment variables, resource
    requirements, the image reference, and the registry pull secret. */
module Helpers {
  import opened Common
  import opened Kube
  import Api
  import Base64
  import opened Naming
  import opened Cluster

  /** The two computations the reconcilers call into but whose bodies lie
      outside this model: the quantity parser and the checksum of the
      Rollout's secrets. */
  datatype Externals = Externals(
    parseQuantity: string -> Quantity,
    secretsChecksum: seq<Api.SecretItem> -> string)

  /** `registry/repository:tag`: the registry, then a slash, then the
      repository, then a colon, then the tag. */
  function ImageRef(image: Api.ImageSpec): (r: string)
    ensures |r| == |image.registry| + |image.repository| + |image.tag| + 2
    ensures r[..|image.registry|] == image.registry && r[|image.registry|] == '/'
    ensures r[|image.registry| + 1..|r| - |image.tag| - 1] == image.repository
    ensures r[|r| - |image.tag| - 1] == ':' && r[|r| - |image.tag|..] == image.tag
  {
    image.registry + "/" + image.repository + ":" + image.tag
  }

  /** Environment variables, one per declared entry, in order. */
  function EnvVars(env: seq<Api.EnvVar>): (r: seq<EnvVar>)
    ensures |r| == |env|
    ensures forall i :: 0 <= i < |env| ==> r[i].name == env[i].name && r[i].value == env[i].value
  {
    if env == [] then []
    else [EnvVar(env[0].name, env[0].value)] + EnvVars(env[1..])
  }

  /** Requests and limits, each holding exactly cpu and memory. */
  function ResourceRequirementsFor(res: Api.ResourceRequirements, ext: Externals): (r: ResourceRequirements)
    ensures r.requests.Keys == {Cpu, Memory} && r.limits.Keys == {Cpu, Memory}
    ensures r.requests[Cpu] == ext.parseQuantity(res.requests.cpu)
    ensures r.requests[Memory] == ext.parseQuantity(res.requests.memory)
    ensures r.limits[Cpu] == ext.parseQuantity(res.limits.cpu)
    ensures r.limits[Memory] == ext.parseQuantity(res.limits.memory)
  {
    ResourceRequirements(
      map[Cpu := ext.parseQuantity(res.requests.cpu), Memory := ext.parseQuantity(res.requests.memory)],
      map[Cpu := ext.parseQuantity(res.limits.cpu), Memory := ext.parseQuantity(res.limits.memory)])
  }

  const DockerConfigKey := ".dockerconfigjson"

  /** The registry credentials, with `auth` as base64 text (see DockerAuthDecodes). */
  function DockerAuthFor(image: Api.ImageSpec): (a: DockerAuth)
    ensures a.username == image.username && a.password == image.password
  {
    DockerAuth(image.username, image.password, Base64.Encode(Base64.Utf8(image.username + ":" + image.password)))
  }

  /** `auth` decodes back to the UTF-8 bytes of `username:password`. */
  lemma DockerAuthDecodes(image: Api.ImageSpec)
    ensures Base64.Decode(DockerAuthFor(image).auth) == Some(Base64.Utf8(image.username + ":" + image.password))
  {
    Base64.DecodeEncode(Base64.Utf8(image.username + ":" + image.password));
  }

  /** The pull secret's data: one key, holding one registry entry. */
  function PullSecretData(image: Api.ImageSpec): (d: map<string, SecretValue>)
    ensures d.Keys == {DockerConfigKey}
    ensures d[DockerConfigKey].DockerConfig?
    ensures d[DockerConfigKey].auths.Keys == {image.registry}
    ensures d[DockerConfigKey].auths[image.registry] == DockerAuthFor(image)
  {
    map[DockerConfigKey := DockerConfig(map[image.registry := DockerAuthFor(image)])]
  }

  /** The pull secret as first created: no labels, owned by the Rollout. */
  function PullSecretFor(f: Api.Rollout, image: Api.ImageSpec, name: string): (o: Obj)
    ensures KeyOf(o) == Key(Secret, name)
    ensures o.body == SecretBody(DockerConfigJson, PullSecretData(image))
    ensures o.meta.owners == [ControllerRef(f)] && o.meta.labels == map[]
  {
    Obj(Meta(name, map[], map[], [ControllerRef(f)]), SecretBody(DockerConfigJson, PullSecretData(image)))
  }

  /** What reconciling the pull secret leaves in the store: created when
      absent; when present, only its data is replaced. */
  function PullSecretSynced(m: map<Key, Obj>, faulty: set<Key>, f: Api.Rollout, image: Api.ImageSpec, name: string): Outcome
    requires WellKeyed(m)
  {
    var k := Key(Secret, name);
    if k in faulty then Outcome(m, Some(Other))
    else if k !in m then Created(m, faulty, PullSecretFor(f, image, name))
    else Updated(m, faulty, m[k].(body := m[k].body.(data := PullSecretData(image))))
  }

  /** The pull secret write succeeds unless its key is faulty; then the
      secret is stored under its key, holds the credentials as its only data,
      keeps its metadata when it already existed, and no other key changes. */
  lemma PullSecretSyncedStores(m: map<Key, Obj>, faulty: set<Key>, f: Api.Rollout, image: Api.ImageSpec, name: string)
    requires WellKeyed(m)
    ensures var out := PullSecretSynced(m, faulty, f, image, name);
      var k := Key(Secret, name);
      && WellKeyed(out.objects)
      && (out.err.None? <==> k !in faulty)
      && (out.err.Some? ==> out.err == Some(Other) && out.objects == m)
      && (out.err.None? ==>
            && out.objects.Keys == m.Keys + {k}
            && (forall j :: j in m && j != k ==> out.objects[j] == m[j])
            && out.objects[k].body.SecretBody?
            && out.objects[k].body.data == PullSecretData(image)
            && (k in m ==> out.objects[k].meta == m[k].meta && out.objects[k].body.secretType == m[k].body.secretType)
            && (k !in m ==> out.objects[k] == PullSecretFor(f, image, name)))
  {
  }

  /** Provisions the registry pull secret named `name` for the Rollout. */
  method ReconcileImagePullSecret(store: Store, f: Api.Rollout, image: Api.ImageSpec, name: string) returns (err: Option<Error>)
    requires store.Valid()
    modifies store
    ensures store.Valid()
    ensures Outcome(store.objects, err) == PullSecretSynced(old(store.objects), store.faulty, f, image, name)
  {
    var secret := PullSecretFor(f, image, name);
    var got := store.Get(Key(Secret, name));
    if got.FetchError? && got.error == NotFound {
      err := store.Create(secret);
      return;
    } else if got.FetchError? {
      return Some(got.error);
    }
    var found := got.obj;
    err := store.Update(found.(body := found.body.(data := PullSecretData(image))));
  }
}

=== FILE: hpa.dfy ===
/** The HorizontalPodAutoscaler reconciler: one autoscaler named after the
    Rollout, created with fixed scaling behaviour and rewritten on every
    pass with the Rollout's replica bounds and CPU target. */
module Autoscaling {
  import opened Common
  import opened Kube
  import Api
  import opened Naming
  import opened Cluster

  /** Scale up by up to 100% every 15 s with no stabilisation window; scale
      down by up to 100% every 60 s after a 300 s window. */
  const DefaultBehavior := Behavior(
    Some(ScalingRules(Some(0), [ScalingPolicy(PercentPolicy, 100, 15)])),
    Some(ScalingRules(Some(300), [ScalingPolicy(PercentPolicy, 100, 60)])))

  function HpaKey(f: Api.Rollout): Key
  {
    Key(HorizontalPodAutoscaler, f.name)
  }

  /** The desired autoscaler: it targets the Rollout's Deployment, scales
      between the declared bounds on CPU utilisation, and is owned by the
      Rollout. */
  function HpaFor(f: Api.Rollout): (o: Obj)
    ensures KeyOf(o) == HpaKey(f)
    ensures o.meta.labels == map[] && o.meta.owners == [ControllerRef(f)]
    ensures var s := o.body.autoscaler;
      && s.behavior == Some(DefaultBehavior)
      && s.scaleTargetRef == TargetRef("apps/v1", "Deployment", f.name)
      && s.minReplicas == Some(f.spec.horizontalScale.minReplicas)
      && s.maxReplicas == f.spec.horizontalScale.maxReplicas
      && s.metrics == [ResourceMetric(Cpu, MetricTarget(Utilization, Some(f.spec.horizontalScale.targetCPUUtilizationPercentage)))]
  {
    var hs := f.spec.horizontalScale;
    Obj(Meta(f.name, map[], map[], [ControllerRef(f)]),
      AutoscalerBody(HpaSpec(
        Some(DefaultBehavior),
        TargetRef("apps/v1", "Deployment", f.name),
        Some(hs.minReplicas),
        hs.maxReplicas,
        [ResourceMetric(Cpu, MetricTarget(Utilization, Some(hs.targetCPUUtilizationPercentage)))])))
  }

  /** The change test compares the live autoscaler spec with the Rollout
      spec, values of two different types, which deep equality never
      equates: an existing autoscaler is always rewritten. */
  predicate NeedsHpaUpdate(current: HpaSpec, f: Api.Rollout)
  {
    true
  }

  /** Sets the replica bounds and the first metric's utilisation target,
      leaving every other field as it was. None: there is no first metric,
      or it has no resource part (the source dereferences it). */
  function UpdateHpa(s: HpaSpec, f: Api.Rollout): (r: Option<HpaSpec>)
    ensures r.None? <==> s.metrics == [] || !s.metrics[0].ResourceMetric?
    ensures r.Some? ==>
      var hs := f.spec.horizontalScale;
      && r.value.minReplicas == Some(hs.minReplicas)
      && r.value.maxReplicas == hs.maxReplicas
      && r.value.behavior == s.behavior && r.value.scaleTargetRef == s.scaleTargetRef
      && |r.value.metrics| == |s.metrics| && r.value.metrics[1..] == s.metrics[1..]
      && r.value.metrics[0].ResourceMetric? && r.value.metrics[0].resource == s.metrics[0].resource
      && r.value.metrics[0].target.targetType == s.metrics[0].target.targetType
      && r.value.metrics[0].target.averageUtilization == Some(hs.targetCPUUtilizationPercentage)
  {
    if s.metrics == [] || !s.metrics[0].ResourceMetric? then None
    else
      var hs := f.spec.horizontalScale;
      var m0 := s.metrics[0];
      var target := m0.target.(averageUtilization := Some(hs.targetCPUUtilizationPercentage));
      Some(s.(minReplicas := Some(hs.minReplicas), maxReplicas := hs.maxReplicas,
              metrics := [m0.(target := target)] + s.metrics[1..]))
  }

  /** Rewriting an autoscaler a second time changes nothing. */
  lemma UpdateHpaIdempotent(s: HpaSpec, f: Api.Rollout)
    requires UpdateHpa(s, f).Some?
    ensures UpdateHpa(UpdateHpa(s, f).value, f) == UpdateHpa(s, f)
  {
    var t := UpdateHpa(s, f).value;
    assert t.metrics == [t.metrics[0]] + t.metrics[1..];
  }

  /** The desired autoscaler is left as it is by the rewrite. */
  lemma UpdateHpaKeepsDesired(f: Api.Rollout)
    ensures UpdateHpa(HpaFor(f).body.autoscaler, f) == Some(HpaFor(f).body.autoscaler)
  {
    var s := HpaFor(f).body.autoscaler;
    assert UpdateHpa(s, f).value.metrics == s.metrics;
  }

  /** The pass as a whole: create when absent, otherwise rewrite. It writes
      only the Rollout's autoscaler, and fails exactly when that key is
      faulty or the live autoscaler has no resource metric first. After a
      success the autoscaler is the desired one if it was new; an existing
      one keeps its metadata and receives the rewrite. */
  function HpaReconciled(m: map<Key, Obj>, faulty: set<Key>, f: Api.Rollout): (out: Outcome)
    requires WellKeyed(m)
    ensures WellKeyed(out.objects)
    ensures forall k :: k != HpaKey(f) ==> (k in out.objects <==> k in m) && (k in m ==> out.objects[k] == m[k])
    ensures var k := HpaKey(f);
      && (out.err.Some? <==> k in faulty || (k in m && UpdateHpa(m[k].body.autoscaler, f).None?))
      && (out.err.None? ==>
        && k in out.objects
        && (k !in m ==> out.objects[k] == HpaFor(f))
        && (k in m ==>
              && out.objects[k].meta == m[k].meta
              && Some(out.objects[k].body.autoscaler) == UpdateHpa(m[k].body.autoscaler, f)))
  {
    var k := HpaKey(f);
    if k in faulty then Outcome(m, Some(Other))
    else if k !in m then Created(m, faulty, HpaFor(f))
    else
      var found := m[k];
      if !NeedsHpaUpdate(found.body.autoscaler, f) then Outcome(m, None)
      else match UpdateHpa(found.body.autoscaler, f)
        case None => Outcome(m, Some(Other))
        case Some(s) => Updated(m, faulty, found.(body := AutoscalerBody(s)))
  }

  method ReconcileHpa(store: Store, f: Api.Rollout) returns (err: Option<Error>)
    requires store.Valid()
    modifies store
    ensures store.Valid()
    ensures Outcome(store.objects, err) == HpaReconciled(old(store.objects), store.faulty, f)
  {
    var desired := HpaFor(f);
    var got := store.Get(HpaKey(f));
    if got.FetchError? && got.error == NotFound {
      err := store.Create(desired);
    } else if got.FetchError? {
      err := Some(got.error);
    } else {
      var found := got.obj;
      err := None;
      if NeedsHpaUpdate(found.body.autoscaler, f) {
        var updated := UpdateHpa(found.body.autoscaler, f);
        if updated.None? {
          return Some(Other);
        }
        found := found.(body := AutoscalerBody(updated.value));
        err := store.Update(found);
      }
    }
  }

  /** A second pass right after a successful one leaves the store as it is. */
  lemma HpaReconcileIdempotent(m: map<Key, Obj>, faulty: set<Key>, f: Api.Rollout)
    requires WellKeyed(m)
    requires HpaReconciled(m, faulty, f).err.None?
    ensures var m1 := HpaReconciled(m, faulty, f).objects;
      WellKeyed(m1) && HpaReconciled(m1, faulty, f) == Outcome(m1, None)
  {
    var k := HpaKey(f);
    var m1 := HpaReconciled(m, faulty, f).objects;
    var s := m1[k].body.autoscaler;
    if k !in m {
      UpdateHpaKeepsDesired(f);
    } else {
      UpdateHpaIdempotent(m[k].body.autoscaler, f);
    }
    assert UpdateHpa(s, f) == Some(s);
    assert m1[k].(body := AutoscalerBody(s)) == m1[k];
    assert m1[k := m1[k]] == m1;
  }
}

=== FILE: ingress.dfy ===
/** The Ingress reconciler: one Ingress per interface that declares a class
    or rules, revised in place when it drifts, and a sweep of labelled
    Ingresses no interface asks for. */
module Ingresses {
  import opened Common
  import opened Kube
  import Api
  import opened Naming
  import opened Cluster

  /** An interface asks for an Ingress when it names a class or declares a rule. */
  predicate IngressWanted(intf: Api.InterfaceSpec)
  {
    intf.ingress.ingressClass != "" || |intf.ingress.rules| > 0
  }

  function IngressKey(f: Api.Rollout, intf: Api.InterfaceSpec): Key
  {
    Key(Ingress, IngressName(intf.name, f.name))
  }

  /** One routing rule: the host, and a single path of implementation-specific
      type leading to the interface's backend Service on the interface's port. */
  function RuleFor(f: Api.Rollout, intf: Api.InterfaceSpec, rule: Api.IngressRule): IngressRule
  {
    IngressRule(rule.host, [HttpPath(rule.path, ImplementationSpecific, BackendServiceName(intf.name, f.name), intf.port)])
  }

  /** The TLS entry of a rule: with no secret named, the default secret and
      the rule's host; otherwise the named secret and no hosts. */
  function TlsFor(f: Api.Rollout, intf: Api.InterfaceSpec, rule: Api.IngressRule): IngressTLS
  {
    if rule.tlsSecretName == "" then IngressTLS([rule.host], DefaultTlsSecretName(intf.name, f.name))
    else IngressTLS([], rule.tlsSecretName)
  }

  /** The routing rules, one per declared rule, in order. */
  function IngressRules(f: Api.Rollout, intf: Api.InterfaceSpec, rules: seq<Api.IngressRule>): (r: seq<IngressRule>)
    ensures |r| == |rules|
    ensures forall i :: 0 <= i < |rules| ==> r[i] == RuleFor(f, intf, rules[i])
  {
    if rules == [] then []
    else
      var init := rules[..|rules| - 1];
      assert forall i :: 0 <= i < |init| ==> init[i] == rules[i];
      IngressRules(f, intf, init) + [RuleFor(f, intf, rules[|rules| - 1])]
  }

  /** How many rules ask for TLS. */
  function CountTls(rules: seq<Api.IngressRule>): nat
  {
    if rules == [] then 0
    else CountTls(rules[..|rules| - 1]) + if rules[|rules| - 1].tls then 1 else 0
  }

  /** The TLS entries, one per rule that asks for TLS, in order. */
  function IngressTlsEntries(f: Api.Rollout, intf: Api.InterfaceSpec, rules: seq<Api.IngressRule>): seq<IngressTLS>
  {
    if rules == [] then []
    else
      var last := rules[|rules| - 1];
      IngressTlsEntries(f, intf, rules[..|rules| - 1]) + if last.tls then [TlsFor(f, intf, last)] else []
  }

  /** There is one TLS entry per TLS rule, and the entry of TLS rule i sits
      after the entries of the TLS rules before it. */
  lemma {:induction false} IngressTlsEntriesIndex(f: Api.Rollout, intf: Api.InterfaceSpec, rules: seq<Api.IngressRule>)
    ensures |IngressTlsEntries(f, intf, rules)| == CountTls(rules)
    ensures forall i :: 0 <= i < |rules| && rules[i].tls ==>
      CountTls(rules[..i]) < CountTls(rules) && IngressTlsEntries(f, intf, rules)[CountTls(rules[..i])] == TlsFor(f, intf, rules[i])
  {
    if rules != [] {
      var init := rules[..|rules| - 1];
      IngressTlsEntriesIndex(f, intf, init);
      forall i | 0 <= i < |rules| && rules[i].tls
        ensures CountTls(rules[..i]) < CountTls(rules) && IngressTlsEntries(f, intf, rules)[CountTls(rules[..i])] == TlsFor(f, intf, rules[i])
      {
        if i < |init| {
          assert rules[..i] == init[..i];
          assert rules[i] == init[i];
        } else {
          assert rules[..i] == init;
        }
      }
    }
  }

  /** The Ingress for an interface, labelled by the two ownership labels
      (and so inside the sweep's scope), carrying the interface's
      annotations, its class when one is named, and its rules and TLS. */
  function IngressFor(f: Api.Rollout, intf: Api.InterfaceSpec): (o: Obj)
    ensures KeyOf(o) == IngressKey(f, intf)
    ensures o.meta.labels == OwnershipLabels(f) && o.meta.owners == [ControllerRef(f)]
    ensures o.meta.annotations == intf.ingress.annotations
    ensures InScope(o, LabelScope(f.namespace, f.name))
    ensures o.body.ingress.className.Some? <==> intf.ingress.ingressClass != ""
    ensures o.body.ingress.className.Some? ==> o.body.ingress.className.value == intf.ingress.ingressClass
    ensures o.body.ingress.rules == IngressRules(f, intf, intf.ingress.rules)
    ensures o.body.ingress.tls == IngressTlsEntries(f, intf, intf.ingress.rules)
  {
    var cls := intf.ingress.ingressClass;
    Obj(Meta(IngressName(intf.name, f.name), OwnershipLabels(f), intf.ingress.annotations, [ControllerRef(f)]),
      IngressBody(IngressSpec(
        if cls != "" then Some(cls) else None,
        IngressRules(f, intf, intf.ingress.rules),
        IngressTlsEntries(f, intf, intf.ingress.rules))))
  }

  /** The annotations, copied entry by entry. */
  method CopyAnnotations(source: map<string, string>) returns (annotations: map<string, string>)
    ensures annotations == source
  {
    annotations := map[];
    var pending := source.Keys;
    while pending != {}
      invariant pending <= source.Keys
      invariant annotations.Keys == source.Keys - pending
      invariant forall k :: k in annotations ==> annotations[k] == source[k]
      decreases pending
    {
      var k :| k in pending;
      annotations := annotations[k := source[k]];
      pending := pending - {k};
    }
  }

  /** Builds the Ingress: class, annotations, then one pass over the rules
      appending each routing rule and, for TLS rules, each TLS entry. */
  method BuildIngress(f: Api.Rollout, intf: Api.InterfaceSpec) returns (o: Obj)
    ensures o == IngressFor(f, intf)
  {
    var cls := intf.ingress.ingressClass;
    var className: Option<string> := None;
    if cls != "" {
      className := Some(cls);
    }
    var annotations := CopyAnnotations(intf.ingress.annotations);
    var declared := intf.ingress.rules;
    var rules: seq<IngressRule> := [];
    var tls: seq<IngressTLS> := [];
    var i := 0;
    while i < |declared|
      invariant 0 <= i <= |declared|
      invariant rules == IngressRules(f, intf, declared[..i])
      invariant tls == IngressTlsEntries(f, intf, declared[..i])
    {
      var rule := declared[i];
      assert declared[..i + 1][..i] == declared[..i];
      assert IngressRules(f, intf, declared[..i + 1]) == rules + [RuleFor(f, intf, rule)];
      assert IngressTlsEntries(f, intf, declared[..i + 1]) == tls + if rule.tls then [TlsFor(f, intf, rule)] else [];
      rules := rules + [RuleFor(f, intf, rule)];
      if rule.tls {
        tls := tls + [TlsFor(f, intf, rule)];
      }
      i := i + 1;
    }
    assert declared[..i] == declared;
    o := Obj(Meta(IngressName(intf.name, f.name), OwnershipLabels(f), annotations, [ControllerRef(f)]),
      IngressBody(IngressSpec(className, rules, tls)));
  }

  /** The live Ingress revised toward the interface, and whether anything
      changed: the class is set when one is named and differs, rules and TLS
      are replaced together when either differs, annotations are replaced
      when they differ. */
  function ReviseIngress(found: Obj, f: Api.Rollout, intf: Api.InterfaceSpec): (r: (Obj, bool))
    requires found.body.IngressBody?
    ensures KeyOf(r.0) == KeyOf(found)
    ensures r.0.meta == found.meta.(annotations := intf.ingress.annotations)
    ensures intf.ingress.ingressClass != "" ==> r.0.body.ingress.className == Some(intf.ingress.ingressClass)
    ensures intf.ingress.ingressClass == "" ==> r.0.body.ingress.className == found.body.ingress.className
    ensures r.0.body.ingress.rules == IngressRules(f, intf, intf.ingress.rules)
    ensures r.0.body.ingress.tls == IngressTlsEntries(f, intf, intf.ingress.rules)
    ensures r.1 <==> r.0 != found
  {
    var cls := intf.ingress.ingressClass;
    var spec0 := found.body.ingress;
    var classChanged := cls != "" && spec0.className != Some(cls);
    var spec1 := if classChanged then spec0.(className := Some(cls)) else spec0;
    var rules := IngressRules(f, intf, intf.ingress.rules);
    var tls := IngressTlsEntries(f, intf, intf.ingress.rules);
    var routesChanged := spec1.rules != rules || spec1.tls != tls;
    var spec2 := if routesChanged then spec1.(rules := rules, tls := tls) else spec1;
    var annotationsChanged := found.meta.annotations != intf.ingress.annotations;
    var meta := if annotationsChanged then found.meta.(annotations := intf.ingress.annotations) else found.meta;
    (found.(meta := meta, body := IngressBody(spec2)), classChanged || routesChanged || annotationsChanged)
  }

  /** One interface. A wanted Ingress is created when absent and revised
      when present; an unwanted one is deleted only when an earlier interface
      of the same name already put its name among the expected ones. */
  function IngressStep(m: map<Key, Obj>, faulty: set<Key>, f: Api.Rollout, intf: Api.InterfaceSpec, expected: set<string>): (p: Pass)
    requires WellKeyed(m)
    ensures WellKeyed(p.objects)
    ensures p.status != Halted
    ensures var k := IngressKey(f, intf);
      IngressWanted(intf) ==>
        && (k in faulty ==> p == Pass(m, Failed(Other)))
        && (k !in faulty && k !in m ==> p == Pass(m[k := IngressFor(f, intf)], Running))
        && (k !in faulty && k in m ==> p == Pass(m[k := ReviseIngress(m[k], f, intf).0], Running))
    ensures var k := IngressKey(f, intf);
      !IngressWanted(intf) && k.name in expected ==>
        && (k in faulty ==> p == Pass(m, Failed(Other)))
        && (k !in faulty && k !in m ==> p == Pass(m, Failed(NotFound)))
        && (k !in faulty && k in m ==> p == Pass(m - {k}, Running))
    ensures !IngressWanted(intf) && IngressKey(f, intf).name !in expected ==> p == Pass(m, Running)
    ensures forall j :: j != IngressKey(f, intf) ==> (j in p.objects <==> j in m) && (j in m ==> p.objects[j] == m[j])
  {
    var k := IngressKey(f, intf);
    if IngressWanted(intf) then
      if k in faulty then Pass(m, Failed(Other))
      else if k !in m then Continue(Created(m, faulty, IngressFor(f, intf)))
      else
        var revised := ReviseIngress(m[k], f, intf);
        if revised.1 then Continue(Updated(m, faulty, revised.0)) else Pass(m, Running)
    else if k.name in expected then Continue(Deleted(m, faulty, k))
    else Pass(m, Running)
  }

  /** The names an interface list puts among the expected Ingresses. */
  function ExpectedIngresses(f: Api.Rollout, ifaces: seq<Api.InterfaceSpec>): set<string>
  {
    set i | 0 <= i < |ifaces| && IngressWanted(ifaces[i]) :: IngressName(ifaces[i].name, f.name)
  }

  /** The per-interface loop from a given expected set, stopped by the first error. */
  function IngressesPass(m: map<Key, Obj>, faulty: set<Key>, f: Api.Rollout, ifaces: seq<Api.InterfaceSpec>, expected: set<string>): (p: Pass)
    requires WellKeyed(m)
    ensures WellKeyed(p.objects)
    ensures p.status != Halted
    decreases |ifaces|
  {
    if ifaces == [] then Pass(m, Running)
    else
      var intf := ifaces[0];
      var p := IngressStep(m, faulty, f, intf, expected);
      if p.status != Running then p
      else
        var next := if IngressWanted(intf) then expected + {IngressName(intf.name, f.name)} else expected;
        IngressesPass(p.objects, faulty, f, ifaces[1..], next)
  }

  /** What the reconciler promises: the loop's outcome, then, when the loop
      got through, a label-scoped sweep of the Ingresses nobody expects. */
  ghost predicate IngressReconciled(
    before: map<Key, Obj>, after: map<Key, Obj>, faulty: set<Key>, listFaulty: set<Kind>, f: Api.Rollout, err: Option<Error>)
    requires WellKeyed(before)
  {
    var p := IngressesPass(before, faulty, f, f.spec.interfaces, {});
    if p.status.Failed? then err == Some(p.status.error) && after == p.objects
    else Swept(p.objects, after, Ingress, ExpectedIngresses(f, f.spec.interfaces), LabelScope(f.namespace, f.name), faulty, listFaulty, err)
  }

  /** One interface, as the loop body does it. */
  method SyncIngress(store: Store, f: Api.Rollout, intf: Api.InterfaceSpec, expected: set<string>) returns (err: Option<Error>)
    requires store.Valid()
    modifies store
    ensures store.Valid()
    ensures IngressStep(old(store.objects), store.faulty, f, intf, expected) ==
      Pass(store.objects, if err.None? then Running else Failed(err.value))
  {
    var name := IngressName(intf.name, f.name);
    if intf.ingress.ingressClass != "" || |intf.ingress.rules| > 0 {
      var ingress := BuildIngress(f, intf);
      var got := store.Get(Key(Ingress, name));
      if got.FetchError? && got.error == NotFound {
        err := store.Create(ingress);
        return;
      } else if got.FetchError? {
        return Some(got.error);
      }
      var found := got.obj;
      var updateNeeded := false;
      var cls := intf.ingress.ingressClass;
      if cls != "" {
        if found.body.ingress.className != Some(cls) {
          found := found.(body := IngressBody(found.body.ingress.(className := Some(cls))));
          updateNeeded := true;
        }
      }
      var desiredRules := IngressRules(f, intf, intf.ingress.rules);
      var desiredTls := IngressTlsEntries(f, intf, intf.ingress.rules);
      if found.body.ingress.rules != desiredRules || found.body.ingress.tls != desiredTls {
        found := found.(body := IngressBody(found.body.ingress.(rules := desiredRules, tls := desiredTls)));
        updateNeeded := true;
      }
      if found.meta.annotations != intf.ingress.annotations {
        found := found.(meta := found.meta.(annotations := intf.ingress.annotations));
        updateNeeded := true;
      }
      assert (found, updateNeeded) == ReviseIngress(got.obj, f, intf);
      err := None;
      if updateNeeded {
        err := store.Update(found);
      }
    } else if name in expected {
      err := store.Delete(Key(Ingress, name));
    } else {
      err := None;
    }
  }

  lemma IngressesPassUnfold(m: map<Key, Obj>, faulty: set<Key>, f: Api.Rollout, ifaces: seq<Api.InterfaceSpec>, i: int, expected: set<string>)
    requires WellKeyed(m) && 0 <= i < |ifaces|
    ensures IngressesPass(m, faulty, f, ifaces[i..], expected) ==
      var p := IngressStep(m, faulty, f, ifaces[i], expected);
      var next := if IngressWanted(ifaces[i]) then expected + {IngressName(ifaces[i].name, f.name)} else expected;
      if p.status != Running then p else IngressesPass(p.objects, faulty, f, ifaces[i + 1..], next)
  {
    assert ifaces[i..][0] == ifaces[i] && ifaces[i..][1..] == ifaces[i + 1..];
  }

  lemma ExpectedIngressesGrow(f: Api.Rollout, ifaces: seq<Api.InterfaceSpec>, i: int)
    requires 0 <= i <= |ifaces|
    ensures i < |ifaces| ==>
      (ExpectedIngresses(f, ifaces[..i + 1]) ==
        ExpectedIngresses(f, ifaces[..i]) + (if IngressWanted(ifaces[i]) then {IngressName(ifaces[i].name, f.name)} else {}))
    ensures i == |ifaces| ==> ExpectedIngresses(f, ifaces[..i]) == ExpectedIngresses(f, ifaces)
  {
    if i < |ifaces| {
      assert forall j :: 0 <= j < i ==> ifaces[..i + 1][j] == ifaces[..i][j];
      assert ifaces[..i + 1][i] == ifaces[i];
    } else {
      assert ifaces[..i] == ifaces;
    }
  }

  method ReconcileIngress(store: Store, f: Api.Rollout) returns (err: Option<Error>)
    requires store.Valid()
    modifies store
    ensures store.Valid()
    ensures IngressReconciled(old(store.objects), store.objects, store.faulty, store.listFaulty, f, err)
  {
    var ifaces := f.spec.interfaces;
    ghost var m0 := store.objects;
    var expected: set<string> := {};
    var i := 0;
    assert ifaces[..0] == [];
    while i < |ifaces|
      invariant 0 <= i <= |ifaces|
      invariant store.Valid()
      invariant expected == ExpectedIngresses(f, ifaces[..i])
      invariant IngressesPass(m0, store.faulty, f, ifaces, {}) == IngressesPass(store.objects, store.faulty, f, ifaces[i..], expected)
    {
      var intf := ifaces[i];
      IngressesPassUnfold(store.objects, store.faulty, f, ifaces, i, expected);
      ExpectedIngressesGrow(f, ifaces, i);
      err := SyncIngress(store, f, intf, expected);
      if err.Some? {
        return;
      }
      if IngressWanted(intf) {
        expected := expected + {IngressName(intf.name, f.name)};
      }
      i := i + 1;
    }
    ExpectedIngressesGrow(f, ifaces, i);
    err := store.Sweep(Ingress, expected, LabelScope(f.namespace, f.name));
  }

  /** The Ingress names of all the interfaces, wanted or not. */
  function IngressNames(f: Api.Rollout, ifaces: seq<Api.InterfaceSpec>): set<string>
  {
    set i | 0 <= i < |ifaces| :: IngressName(ifaces[i].name, f.name)
  }

  predicate DistinctNames(ifaces: seq<Api.InterfaceSpec>)
  {
    forall i, j :: 0 <= i < j < |ifaces| ==> ifaces[i].name != ifaces[j].name
  }

  lemma IngressNamesTail(f: Api.Rollout, ifaces: seq<Api.InterfaceSpec>)
    requires ifaces != []
    ensures IngressNames(f, ifaces) == IngressNames(f, ifaces[1..]) + {IngressName(ifaces[0].name, f.name)}
  {
    assert forall i :: 0 <= i < |ifaces| - 1 ==> ifaces[1..][i] == ifaces[i + 1];
    assert forall i :: 1 <= i < |ifaces| ==> ifaces[i] == ifaces[1..][i - 1];
  }

  /** The loop writes only the Ingresses named after the interfaces it was given. */
  lemma {:induction false} IngressesPassFrame(m: map<Key, Obj>, faulty: set<Key>, f: Api.Rollout, ifaces: seq<Api.InterfaceSpec>, expected: set<string>, j: Key)
    requires WellKeyed(m)
    requires j.kind != Ingress || j.name !in IngressNames(f, ifaces)
    ensures var p := IngressesPass(m, faulty, f, ifaces, expected);
      (j in p.objects <==> j in m) && (j in m ==> p.objects[j] == m[j])
    decreases |ifaces|
  {
    if ifaces != [] {
      var intf := ifaces[0];
      var p := IngressStep(m, faulty, f, intf, expected);
      IngressNamesTail(f, ifaces);
      if p.status == Running {
        var next := if IngressWanted(intf) then expected + {IngressName(intf.name, f.name)} else expected;
        IngressesPassFrame(p.objects, faulty, f, ifaces[1..], next, j);
      }
    }
  }

  /** With distinct interface names, and no interface's name expected
      beforehand, the loop never deletes: every object it started with is
      still there. */
  lemma {:induction false} DistinctNamesNeverDelete(m: map<Key, Obj>, faulty: set<Key>, f: Api.Rollout, ifaces: seq<Api.InterfaceSpec>, expected: set<string>)
    requires WellKeyed(m)
    requires DistinctNames(ifaces)
    requires expected !! IngressNames(f, ifaces)
    ensures m.Keys <= IngressesPass(m, faulty, f, ifaces, expected).objects.Keys
    decreases |ifaces|
  {
    if ifaces != [] {
      var intf := ifaces[0];
      var p := IngressStep(m, faulty, f, intf, expected);
      IngressNamesTail(f, ifaces);
      assert IngressName(intf.name, f.name) !in expected;
      if p.status == Running {
        var next := if IngressWanted(intf) then expected + {IngressName(intf.name, f.name)} else expected;
        forall i | 0 <= i < |ifaces[1..]|
          ensures IngressName(ifaces[1..][i].name, f.name) != IngressName(intf.name, f.name)
        {
          assert ifaces[1..][i] == ifaces[i + 1];
          IngressNameInjective(ifaces[1..][i].name, intf.name, f.name);
        }
        assert DistinctNames(ifaces[1..]) by {
          forall a, b | 0 <= a < b < |ifaces[1..]|
            ensures ifaces[1..][a].name != ifaces[1..][b].name
          {
            assert ifaces[1..][a] == ifaces[a + 1] && ifaces[1..][b] == ifaces[b + 1];
          }
        }
        DistinctNamesNeverDelete(p.objects, faulty, f, ifaces[1..], next);
      }
    }
  }

  /** With a duplicated interface name the delete branch does fire: an
      interface that asks for no Ingress deletes the one an earlier interface
      of the same name has just created. */
  lemma DuplicateNameDeletes(m: map<Key, Obj>, f: Api.Rollout, a: Api.InterfaceSpec, b: Api.InterfaceSpec)
    requires WellKeyed(m)
    requires a.name == b.name && IngressWanted(a) && !IngressWanted(b)
    requires IngressKey(f, a) !in m
    ensures var p := IngressesPass(m, {}, f, [a, b], {});
      p.status == Running && IngressKey(f, a) !in p.objects
  {
    var k := IngressKey(f, a);
    var m1 := m[k := IngressFor(f, a)];
    assert IngressStep(m, {}, f, a, {}) == Pass(m1, Running);
    assert [a, b][1..] == [b];
    assert IngressKey(f, b) == k;
    assert IngressStep(m1, {}, f, b, {k.name}) == Pass(m1 - {k}, Running);
    assert [b][1..] == [];
    assert IngressesPass(m1, {}, f, [b], {k.name}) == IngressesPass(m1 - {k}, {}, f, [], {k.name});
    var none: set<string> := {};
    assert none + {IngressName(a.name, f.name)} == {k.name};
    assert IngressesPass(m, {}, f, [a, b], {}) == IngressesPass(m1, {}, f, [b], {k.name});
  }

  /** What a wanted interface's Ingress holds once the loop has been at it. */
  ghost predicate IngressInLine(o: Obj, f: Api.Rollout, intf: Api.InterfaceSpec)
    requires o.body.IngressBody?
  {
    && o.meta.annotations == intf.ingress.annotations
    && o.body.ingress.rules == IngressRules(f, intf, intf.ingress.rules)
    && o.body.ingress.tls == IngressTlsEntries(f, intf, intf.ingress.rules)
    && (intf.ingress.ingressClass != "" ==> o.body.ingress.className == Some(intf.ingress.ingressClass))
  }

  /** A wanted interface's step that got through leaves its Ingress in line. */
  lemma IngressStepInLine(m: map<Key, Obj>, faulty: set<Key>, f: Api.Rollout, intf: Api.InterfaceSpec, expected: set<string>)
    requires WellKeyed(m)
    requires IngressWanted(intf)
    requires IngressStep(m, faulty, f, intf, expected).status == Running
    ensures var p := IngressStep(m, faulty, f, intf, expected);
      var k := IngressKey(f, intf);
      k in p.objects && p.objects[k].body.IngressBody? && IngressInLine(p.objects[k], f, intf)
  {
  }

  /** After a loop over distinct names that got through, every wanted
      interface's Ingress exists and is in line with the interface. */
  lemma {:induction false} IngressesPassInLine(m: map<Key, Obj>, faulty: set<Key>, f: Api.Rollout, ifaces: seq<Api.InterfaceSpec>, expected: set<string>, i: int)
    requires WellKeyed(m)
    requires DistinctNames(ifaces)
    requires IngressesPass(m, faulty, f, ifaces, expected).status == Running
    requires 0 <= i < |ifaces| && IngressWanted(ifaces[i])
    ensures var p := IngressesPass(m, faulty, f, ifaces, expected);
      var k := IngressKey(f, ifaces[i]);
      k in p.objects && p.objects[k].body.IngressBody? && IngressInLine(p.objects[k], f, ifaces[i])
    decreases |ifaces|
  {
    var intf := ifaces[0];
    var p := IngressStep(m, faulty, f, intf, expected);
    var next := if IngressWanted(intf) then expected + {IngressName(intf.name, f.name)} else expected;
    assert DistinctNames(ifaces[1..]) by {
      forall a, b | 0 <= a < b < |ifaces[1..]|
        ensures ifaces[1..][a].name != ifaces[1..][b].name
      {
        assert ifaces[1..][a] == ifaces[a + 1] && ifaces[1..][b] == ifaces[b + 1];
      }
    }
    if i == 0 {
      var k := IngressKey(f, intf);
      IngressStepInLine(m, faulty, f, intf, expected);
      forall j | 0 <= j < |ifaces[1..]|
        ensures IngressName(ifaces[1..][j].name, f.name) != k.name
      {
        assert ifaces[1..][j] == ifaces[j + 1];
        IngressNameInjective(ifaces[1..][j].name, intf.name, f.name);
      }
      IngressesPassFrame(p.objects, faulty, f, ifaces[1..], next, k);
    } else {
      assert ifaces[1..][i - 1] == ifaces[i];
      IngressesPassInLine(p.objects, faulty, f, ifaces[1..], next, i - 1);
    }
  }

  /** A successful reconcile over distinct interface names leaves every
      wanted interface's Ingress in line, leaves no labelled Ingress that no
      interface expects, and leaves every other kind of object as it was. */
  lemma IngressReconciledMeaning(
    before: map<Key, Obj>, after: map<Key, Obj>, faulty: set<Key>, listFaulty: set<Kind>, f: Api.Rollout, err: Option<Error>)
    requires WellKeyed(before)
    requires IngressReconciled(before, after, faulty, listFaulty, f, err) && err.None?
    requires DistinctNames(f.spec.interfaces)
    ensures forall i :: 0 <= i < |f.spec.interfaces| && IngressWanted(f.spec.interfaces[i]) ==>
      var k := IngressKey(f, f.spec.interfaces[i]);
      k in after && after[k].body.IngressBody? && IngressInLine(after[k], f, f.spec.interfaces[i])
    ensures forall k :: k in after && k.kind == Ingress && InScope(after[k], LabelScope(f.namespace, f.name)) ==>
      k.name in ExpectedIngresses(f, f.spec.interfaces)
    ensures forall k: Key :: k.kind != Ingress ==> (k in after <==> k in before) && (k in before ==> after[k] == before[k])
  {
    var ifaces := f.spec.interfaces;
    var p := IngressesPass(before, faulty, f, ifaces, {});
    var scope := LabelScope(f.namespace, f.name);
    SweptKeeps(p.objects, after, Ingress, ExpectedIngresses(f, ifaces), scope, faulty, listFaulty, err);
    SweptClean(p.objects, after, Ingress, ExpectedIngresses(f, ifaces), scope, faulty, listFaulty, err);
    forall i | 0 <= i < |ifaces| && IngressWanted(ifaces[i])
      ensures var k := IngressKey(f, ifaces[i]);
        k in after && after[k].body.IngressBody? && IngressInLine(after[k], f, ifaces[i])
    {
      IngressesPassInLine(before, faulty, f, ifaces, {}, i);
      assert IngressKey(f, ifaces[i]).name in ExpectedIngresses(f, ifaces);
    }
    forall k: Key | k.kind != Ingress
      ensures (k in after <==> k in before) && (k in before ==> after[k] == before[k])
    {
      IngressesPassFrame(before, faulty, f, ifaces, {}, k);
    }
  }
}

=== FILE: kube.dfy ===
/** The cluster objects the reconcilers build, read and write: Deployments,
    Services, Ingresses, PersistentVolumeClaims, CronJobs, HorizontalPodAutoscalers,
    Secrets and StorageClasses, reduced to the fields the reconcilers touch.
    Optional pointer fields that the reconcilers always set are plain values;
    nil and empty lists or maps are both the empty sequence or map. */
module Kube {
  import opened Common

  /** A parsed resource quantity, in the quantity's smallest unit. */
  type Quantity = nat

  datatype ResourceName = Cpu | Memory | Storage

  type ResourceList = map<ResourceName, Quantity>

  datatype ResourceRequirements = ResourceRequirements(requests: ResourceList, limits: ResourceList)

  datatype OwnerRef = OwnerRef(kind: string, name: string, uid: string)

  datatype Meta = Meta(
    name: string,
    labels: map<string, string>,
    annotations: map<string, string>,
    owners: seq<OwnerRef>)

  // Pod and container level pieces

  datatype Toleration = Toleration(
    key: string, operator: string, value: string, effect: string, tolerationSeconds: Option<int>)

  datatype HostAlias = HostAlias(ip: string, hostnames: seq<string>)

  datatype EnvVar = EnvVar(name: string, value: string)

  datatype ContainerPort = ContainerPort(name: string, containerPort: int)

  datatype VolumeMount = VolumeMount(name: string, mountPath: string)

  /** A pod volume backed by a PersistentVolumeClaim. */
  datatype Volume = Volume(name: string, claimName: string)

  datatype Capabilities = Capabilities(add: seq<string>, drop: seq<string>)

  datatype SecurityContext = SecurityContext(
    privileged: bool,
    readOnlyRootFilesystem: bool,
    runAsNonRoot: bool,
    allowPrivilegeEscalation: bool,
    capabilities: Capabilities)

  datatype PodSecurityContext = PodSecurityContext(fsGroup: int, runAsUser: int, runAsGroup: int)

  datatype Container = Container(
    name: string,
    image: string,
    command: seq<string>,
    args: seq<string>,
    env: seq<EnvVar>,
    envFrom: seq<string>,            // names of the Secrets referenced as bulk environment sources
    resources: ResourceRequirements,
    ports: seq<ContainerPort>,
    volumeMounts: seq<VolumeMount>,
    securityContext: Option<SecurityContext>)

  datatype RestartPolicy = Always | OnFailure | Never

  datatype PodSpec = PodSpec(
    containers: seq<Container>,
    serviceAccountName: string,
    imagePullSecrets: seq<string>,
    nodeSelector: map<string, string>,
    tolerations: seq<Toleration>,
    hostAliases: seq<HostAlias>,
    volumes: seq<Volume>,
    securityContext: Option<PodSecurityContext>,
    restartPolicy: Option<RestartPolicy>)

  datatype PodTemplate = PodTemplate(
    labels: map<string, string>, annotations: map<string, string>, spec: PodSpec)

  // Deployments

  datatype StrategyType = RollingUpdate | Recreate

  datatype DeploymentSpec = DeploymentSpec(
    replicas: Option<int>,
    selector: map<string, string>,
    template: PodTemplate,
    strategy: StrategyType)

  // Services

  datatype Protocol = TCP | UDP | SCTP

  datatype ServiceType = ClusterIP | NodePort | LoadBalancer | ExternalName

  datatype ServicePort = ServicePort(name: string, port: int, targetPort: int, protocol: Protocol)

  datatype ServiceSpec = ServiceSpec(
    selector: map<string, string>, ports: seq<ServicePort>, serviceType: ServiceType)

  // Ingresses

  datatype PathType = Exact | Prefix | ImplementationSpecific

  datatype HttpPath = HttpPath(path: string, pathType: PathType, service: string, port: int)

  datatype IngressRule = IngressRule(host: string, paths: seq<HttpPath>)

  datatype IngressTLS = IngressTLS(hosts: seq<string>, secretName: string)

  datatype IngressSpec = IngressSpec(
    className: Option<string>, rules: seq<IngressRule>, tls: seq<IngressTLS>)

  // PersistentVolumeClaims

  datatype AccessMode = ReadWriteOnce | ReadOnlyMany | ReadWriteMany | ReadWriteOncePod

  datatype VolumeMode = Filesystem | Block

  datatype ClaimSpec = ClaimSpec(
    accessModes: seq<AccessMode>,
    requests: ResourceList,
    storageClassName: Option<string>,
    volumeMode: Option<VolumeMode>)

  // CronJobs

  datatype JobSpec = JobSpec(backoffLimit: Option<int>, template: PodTemplate)

  datatype CronJobSpec = CronJobSpec(suspend: Option<bool>, schedule: string, jobTemplate: JobSpec)

  // HorizontalPodAutoscalers

  datatype ScalingPolicyType = PodsPolicy | PercentPolicy

  datatype ScalingPolicy = ScalingPolicy(policyType: ScalingPolicyType, value: int, periodSeconds: int)

  datatype ScalingRules = ScalingRules(stabilizationWindowSeconds: Option<int>, policies: seq<ScalingPolicy>)

  datatype Behavior = Behavior(scaleUp: Option<ScalingRules>, scaleDown: Option<ScalingRules>)

  datatype TargetRef = TargetRef(apiVersion: string, kind: string, name: string)

  datatype MetricTargetType = Utilization | ValueTarget | AverageValueTarget

  datatype MetricTarget = MetricTarget(targetType: MetricTargetType, averageUtilization: Option<int>)

  /** A resource metric, or a metric of another source type (pods, object,
      external), which carries no resource part. */
  datatype Metric = ResourceMetric(resource: ResourceName, target: MetricTarget) | OtherMetric(source: string)

  datatype HpaSpec = HpaSpec(
    behavior: Option<Behavior>,
    scaleTargetRef: TargetRef,
    minReplicas: Option<int>,
    maxReplicas: int,
    metrics: seq<Metric>)

  // Secrets and StorageClasses

  datatype SecretType = Opaque | DockerConfigJson

  datatype DockerAuth = DockerAuth(username: string, password: string, auth: string)

  /** A Secret data value: raw bytes, or a registry configuration document,
      kept as the structure it serialises. */
  datatype SecretValue = Bytes(bytes: seq<byte>) | DockerConfig(auths: map<string, DockerAuth>)

  // Objects in the store

  datatype Kind =
    | Deployment | Service | Ingress | PersistentVolumeClaim | CronJob
    | HorizontalPodAutoscaler | Secret | StorageClass

  datatype Body =
    | DeploymentBody(deployment: DeploymentSpec)
    | ServiceBody(service: ServiceSpec)
    | IngressBody(ingress: IngressSpec)
    | ClaimBody(claim: ClaimSpec)
    | CronJobBody(cronJob: CronJobSpec)
    | AutoscalerBody(autoscaler: HpaSpec)
    | SecretBody(secretType: SecretType, data: map<string, SecretValue>)
    | StorageClassBody(allowVolumeExpansion: Option<bool>)

  datatype Obj = Obj(meta: Meta, body: Body)

  datatype Key = Key(kind: Kind, name: string)

  function KindOf(b: Body): Kind
  {
    match b
    case DeploymentBody(_) => Deployment
    case ServiceBody(_) => Service
    case IngressBody(_) => Ingress
    case ClaimBody(_) => PersistentVolumeClaim
    case CronJobBody(_) => CronJob
    case AutoscalerBody(_) => HorizontalPodAutoscaler
    case SecretBody(_, _) => Secret
    case StorageClassBody(_) => StorageClass
  }

  /** The store key under which an object lives: its kind and its name. */
  function KeyOf(o: Obj): Key
  {
    Key(KindOf(o.body), o.meta.name)
  }

  /** Every object is stored under its own key. */
  ghost predicate WellKeyed(m: map<Key, Obj>)
  {
    forall k :: k in m ==> KeyOf(m[k]) == k
  }
}

=== FILE: naming.dfy ===
/** Naming conventions and ownership markers shared by all reconcilers. */
module Naming {
  import Api
  import opened Kube

  const ProjectLabel := "one-click.dev/projectId"
  const DeploymentLabel := "one-click.dev/deploymentId"
  const ChecksumAnnotation := "one-click.dev/secrets-checksum"

  /** The two labels that mark an object as belonging to a Rollout. */
  function OwnershipLabels(f: Api.Rollout): map<string, string>
  {
    map[ProjectLabel := f.namespace, DeploymentLabel := f.name]
  }

  /** The controller owner reference that points back at the Rollout. */
  function ControllerRef(f: Api.Rollout): OwnerRef
  {
    OwnerRef("Rollout", f.name, f.uid)
  }

  /** `<rollout>-<iface>-svc`: the name of an interface's Service. */
  function ServiceName(rollout: string, iface: string): string
  {
    rollout + "-" + iface + "-svc"
  }

  /** `<iface>-<rollout>-svc`: the Service name Ingress backends point at. */
  function BackendServiceName(iface: string, rollout: string): string
  {
    iface + "-" + rollout + "-svc"
  }

  /** `<iface>-<rollout>-ingress` */
  function IngressName(iface: string, rollout: string): string
  {
    iface + "-" + rollout + "-ingress"
  }

  /** `<iface>-<rollout>-tls-secret` */
  function DefaultTlsSecretName(iface: string, rollout: string): string
  {
    iface + "-" + rollout + "-tls-secret"
  }

  /** `<volume>-<rollout>`: the name of a volume's claim, pod volume and mount. */
  function ClaimName(volume: string, rollout: string): string
  {
    volume + "-" + rollout
  }

  /** `<owner>-imagepullsecret` */
  function PullSecretName(owner: string): string
  {
    owner + "-imagepullsecret"
  }

  /** `<rollout>-secrets`: the Secret consumed as a bulk environment source. */
  function EnvSecretName(rollout: string): string
  {
    rollout + "-secrets"
  }

  lemma SuffixCancels(a: string, b: string, s: string)
    requires a + s == b + s
    ensures a == b
  {
    assert |a| == |b|;
    assert a == (a + s)[..|a|];
    assert b == (b + s)[..|b|];
  }

  lemma PrefixCancels(p: string, a: string, b: string)
    requires p + a == p + b
    ensures a == b
  {
    assert a == (p + a)[|p|..];
    assert b == (p + b)[|p|..];
  }

  /** Within one Rollout, distinct interfaces get distinct Service names. */
  lemma {:induction false} ServiceNameInjective(rollout: string, i: string, j: string)
    ensures ServiceName(rollout, i) == ServiceName(rollout, j) <==> i == j
  {
    if ServiceName(rollout, i) == ServiceName(rollout, j) {
      SuffixCancels(rollout + "-" + i, rollout + "-" + j, "-svc");
      PrefixCancels(rollout + "-", i, j);
    }
  }

  /** Within one Rollout, distinct interfaces get distinct Ingress names. */
  lemma {:induction false} IngressNameInjective(i: string, j: string, rollout: string)
    ensures IngressName(i, rollout) == IngressName(j, rollout) <==> i == j
  {
    if IngressName(i, rollout) == IngressName(j, rollout) {
      SuffixCancels(i + "-" + rollout, j + "-" + rollout, "-ingress");
      assert i + "-" + rollout == i + ("-" + rollout);
      assert j + "-" + rollout == j + ("-" + rollout);
      SuffixCancels(i, j, "-" + rollout);
    }
  }

  /** Within one Rollout, distinct volumes get distinct claim names. */
  lemma {:induction false} ClaimNameInjective(v: string, w: string, rollout: string)
    ensures ClaimName(v, rollout) == ClaimName(w, rollout) <==> v == w
  {
    if ClaimName(v, rollout) == ClaimName(w, rollout) {
      assert v + "-" + rollout == v + ("-" + rollout);
      assert w + "-" + rollout == w + ("-" + rollout);
      SuffixCancels(v, w, "-" + rollout);
    }
  }

  /** The Service an interface gets and the Service its Ingress backends
      name coincide exactly when `<rollout>-<iface>` reads the same as
      `<iface>-<rollout>`; for names of equal length that means the
      interface is named like the Rollout. */
  lemma {:induction false} ServiceAndBackendNames(rollout: string, iface: string)
    ensures ServiceName(rollout, iface) == BackendServiceName(iface, rollout)
        <==> rollout + "-" + iface == iface + "-" + rollout
    ensures |rollout| == |iface| ==>
      (ServiceName(rollout, iface) == BackendServiceName(iface, rollout) <==> rollout == iface)
  {
    if ServiceName(rollout, iface) == BackendServiceName(iface, rollout) {
      SuffixCancels(rollout + "-" + iface, iface + "-" + rollout, "-svc");
    }
    if |rollout| == |iface| && rollout + "-" + iface == iface + "-" + rollout {
      assert rollout == (rollout + "-" + iface)[..|rollout|];
      assert iface == (iface + "-" + rollout)[..|iface|];
    }
  }

  /** Names of different lengths can still coincide: Rollout "a" with
      interface "a-a" gets Service "a-a-a-svc", which is also its backend name. */
  lemma ServiceAndBackendNamesCoincideForDistinctNames()
    ensures ServiceName("a", "a-a") == BackendServiceName("a-a", "a")
  {
  }
}

=== FILE: service.dfy ===
/** The Service reconciler: one ClusterIP Service per interface, ports kept
    in line with the interface, and a sweep of labelled Services no
    interface asks for. */
module Services {
  import opened Common
  import opened Kube
  import Api
  import opened Naming
  import opened Cluster

  /** Exactly one TCP port, named after the interface, whose port and target
      port are the interface's port. */
  function ServicePorts(intf: Api.InterfaceSpec): (r: seq<ServicePort>)
    ensures |r| == 1
    ensures r[0].name == intf.name && r[0].port == intf.port && r[0].targetPort == intf.port
    ensures r[0].protocol == TCP
  {
    [ServicePort(intf.name, intf.port, intf.port, TCP)]
  }

  /** The Service for an interface, labelled and selecting by the two
      ownership labels, and therefore inside the sweep's scope. */
  function ServiceFor(f: Api.Rollout, intf: Api.InterfaceSpec): (o: Obj)
    ensures KeyOf(o) == Key(Service, ServiceName(f.name, intf.name))
    ensures o.meta.labels == OwnershipLabels(f) && o.meta.owners == [ControllerRef(f)]
    ensures o.body.service == ServiceSpec(OwnershipLabels(f), ServicePorts(intf), ClusterIP)
    ensures InScope(o, LabelScope(f.namespace, f.name))
  {
    var labels := OwnershipLabels(f);
    Obj(Meta(ServiceName(f.name, intf.name), labels, map[], [ControllerRef(f)]),
      ServiceBody(ServiceSpec(labels, ServicePorts(intf), ClusterIP)))
  }

  function ServiceKey(f: Api.Rollout, intf: Api.InterfaceSpec): Key
  {
    Key(Service, ServiceName(f.name, intf.name))
  }

  /** The names of the Services the interfaces ask for. */
  function ServiceNames(f: Api.Rollout, ifaces: seq<Api.InterfaceSpec>): set<string>
  {
    set i | 0 <= i < |ifaces| :: ServiceName(f.name, ifaces[i].name)
  }

  /** The live Service with only its ports replaced. */
  function WithPorts(o: Obj, ports: seq<ServicePort>): Obj
    requires o.body.ServiceBody?
  {
    o.(body := ServiceBody(o.body.service.(ports := ports)))
  }

  /** One interface: create the Service when absent, replace its ports when
      they differ, otherwise leave it. It fails exactly on a faulty key; an
      existing Service keeps everything but its ports. */
  function ServiceStep(m: map<Key, Obj>, faulty: set<Key>, f: Api.Rollout, intf: Api.InterfaceSpec): (p: Pass)
    requires WellKeyed(m)
    ensures WellKeyed(p.objects)
    ensures p.status != Halted
    ensures p.status.Failed? <==> ServiceKey(f, intf) in faulty
    ensures p.status.Failed? ==> p.status.error == Other && p.objects == m
    ensures var k := ServiceKey(f, intf);
      p.status == Running ==> k in p.objects && p.objects[k].body.service.ports == ServicePorts(intf)
    ensures var k := ServiceKey(f, intf);
      k !in m && k !in faulty ==> p.objects[k] == ServiceFor(f, intf)
    ensures var k := ServiceKey(f, intf);
      k in m ==>
        && k in p.objects && p.objects[k].meta == m[k].meta
        && p.objects[k].body.service.(ports := m[k].body.service.ports) == m[k].body.service
    ensures forall j :: j != ServiceKey(f, intf) ==> (j in p.objects <==> j in m) && (j in m ==> p.objects[j] == m[j])
  {
    var k := ServiceKey(f, intf);
    if k in faulty then Pass(m, Failed(Other))
    else if k !in m then Continue(Created(m, faulty, ServiceFor(f, intf)))
    else if m[k].body.service.ports != ServicePorts(intf) then
      Continue(Updated(m, faulty, WithPorts(m[k], ServicePorts(intf))))
    else Pass(m, Running)
  }

  /** The per-interface loop, stopped by the first error. */
  function ServicesPass(m: map<Key, Obj>, faulty: set<Key>, f: Api.Rollout, ifaces: seq<Api.InterfaceSpec>): (p: Pass)
    requires WellKeyed(m)
    ensures WellKeyed(p.objects)
    ensures p.status != Halted
    decreases |ifaces|
  {
    if ifaces == [] then Pass(m, Running)
    else
      var p := ServiceStep(m, faulty, f, ifaces[0]);
      if p.status != Running then p else ServicesPass(p.objects, faulty, f, ifaces[1..])
  }

  /** What the reconciler promises: the loop's outcome, then, when the loop
      got through, a label-scoped sweep of the Services nobody asks for. */
  ghost predicate ServiceReconciled(
    before: map<Key, Obj>, after: map<Key, Obj>, faulty: set<Key>, listFaulty: set<Kind>, f: Api.Rollout, err: Option<Error>)
    requires WellKeyed(before)
  {
    var p := ServicesPass(before, faulty, f, f.spec.interfaces);
    if p.status.Failed? then err == Some(p.status.error) && after == p.objects
    else Swept(p.objects, after, Service, ServiceNames(f, f.spec.interfaces), LabelScope(f.namespace, f.name), faulty, listFaulty, err)
  }

  lemma ServicesPassUnfold(m: map<Key, Obj>, faulty: set<Key>, f: Api.Rollout, ifaces: seq<Api.InterfaceSpec>, i: int)
    requires WellKeyed(m) && 0 <= i < |ifaces|
    ensures ServicesPass(m, faulty, f, ifaces[i..]) ==
      var p := ServiceStep(m, faulty, f, ifaces[i]);
      if p.status != Running then p else ServicesPass(p.objects, faulty, f, ifaces[i + 1..])
  {
    assert ifaces[i..][0] == ifaces[i] && ifaces[i..][1..] == ifaces[i + 1..];
  }

  lemma ServiceNamesGrow(f: Api.Rollout, ifaces: seq<Api.InterfaceSpec>, i: int)
    requires 0 <= i <= |ifaces|
    ensures i < |ifaces| ==> ServiceNames(f, ifaces[..i + 1]) == ServiceNames(f, ifaces[..i]) + {ServiceName(f.name, ifaces[i].name)}
    ensures i == |ifaces| ==> ServiceNames(f, ifaces[..i]) == ServiceNames(f, ifaces)
  {
    if i < |ifaces| {
      assert forall j :: 0 <= j < i ==> ifaces[..i + 1][j] == ifaces[..i][j];
      assert ifaces[..i + 1][i] == ifaces[i];
    } else {
      assert ifaces[..i] == ifaces;
    }
  }

  /** Brings one interface's Service in line: the loop body. */
  method SyncService(store: Store, f: Api.Rollout, intf: Api.InterfaceSpec) returns (err: Option<Error>)
    requires store.Valid()
    modifies store
    ensures store.Valid()
    ensures ServiceStep(old(store.objects), store.faulty, f, intf) ==
      Pass(store.objects, if err.None? then Running else Failed(err.value))
  {
    var service := ServiceFor(f, intf);
    var got := store.Get(ServiceKey(f, intf));
    if got.FetchError? && got.error == NotFound {
      err := store.Create(service);
    } else if got.FetchError? {
      err := Some(got.error);
    } else if got.obj.body.service.ports != ServicePorts(intf) {
      err := store.Update(WithPorts(got.obj, ServicePorts(intf)));
    } else {
      err := None;
    }
  }

  lemma ServicesStoppedAt(
    before: map<Key, Obj>, after: map<Key, Obj>, faulty: set<Key>, listFaulty: set<Kind>, f: Api.Rollout, e: Error)
    requires WellKeyed(before)
    requires ServicesPass(before, faulty, f, f.spec.interfaces) == Pass(after, Failed(e))
    ensures ServiceReconciled(before, after, faulty, listFaulty, f, Some(e))
  {
  }

  lemma ServicesSweptAfter(
    before: map<Key, Obj>, mid: map<Key, Obj>, after: map<Key, Obj>, faulty: set<Key>, listFaulty: set<Kind>,
    f: Api.Rollout, err: Option<Error>)
    requires WellKeyed(before)
    requires ServicesPass(before, faulty, f, f.spec.interfaces) == Pass(mid, Running)
    requires Swept(mid, after, Service, ServiceNames(f, f.spec.interfaces), LabelScope(f.namespace, f.name), faulty, listFaulty, err)
    ensures ServiceReconciled(before, after, faulty, listFaulty, f, err)
  {
  }

  method ReconcileService(store: Store, f: Api.Rollout) returns (err: Option<Error>)
    requires store.Valid()
    modifies store
    ensures store.Valid()
    ensures ServiceReconciled(old(store.objects), store.objects, store.faulty, store.listFaulty, f, err)
  {
    var ifaces := f.spec.interfaces;
    ghost var m0 := store.objects;
    var expected: set<string> := {};
    var i := 0;
    while i < |ifaces|
      invariant 0 <= i <= |ifaces|
      invariant store.Valid()
      invariant ServicesPass(m0, store.faulty, f, ifaces) == ServicesPass(store.objects, store.faulty, f, ifaces[i..])
      invariant expected == ServiceNames(f, ifaces[..i])
    {
      var intf := ifaces[i];
      var name := ServiceName(f.name, intf.name);
      ServicesPassUnfold(store.objects, store.faulty, f, ifaces, i);
      ServiceNamesGrow(f, ifaces, i);
      expected := expected + {name};
      err := SyncService(store, f, intf);
      if err.Some? {
        ServicesStoppedAt(m0, store.objects, store.faulty, store.listFaulty, f, err.value);
        return;
      }
      i := i + 1;
    }
    ServiceNamesGrow(f, ifaces, i);
    assert ifaces[i..] == [];
    ghost var mid := store.objects;
    err := store.Sweep(Service, expected, LabelScope(f.namespace, f.name));
    ServicesSweptAfter(m0, mid, store.objects, store.faulty, store.listFaulty, f, err);
  }

  /** The loop writes only the Services of the interfaces it was given. */
  lemma {:induction false} ServicesPassFrame(m: map<Key, Obj>, faulty: set<Key>, f: Api.Rollout, ifaces: seq<Api.InterfaceSpec>, j: Key)
    requires WellKeyed(m)
    requires j.kind != Service || j.name !in ServiceNames(f, ifaces)
    ensures var p := ServicesPass(m, faulty, f, ifaces);
      (j in p.objects <==> j in m) && (j in m ==> p.objects[j] == m[j])
    decreases |ifaces|
  {
    if ifaces != [] {
      var p := ServiceStep(m, faulty, f, ifaces[0]);
      if p.status == Running {
        assert ServiceNames(f, ifaces[1..]) <= ServiceNames(f, ifaces) by {
          assert forall i :: 0 <= i < |ifaces| - 1 ==> ifaces[1..][i] == ifaces[i + 1];
        }
        ServicesPassFrame(p.objects, faulty, f, ifaces[1..], j);
      }
    }
  }

  /** The loop fails exactly when the Service key of some interface is
      faulty, and then with Other. */
  lemma {:induction false} ServicesPassFails(m: map<Key, Obj>, faulty: set<Key>, f: Api.Rollout, ifaces: seq<Api.InterfaceSpec>)
    requires WellKeyed(m)
    ensures var p := ServicesPass(m, faulty, f, ifaces);
      && (p.status.Failed? <==> exists i :: 0 <= i < |ifaces| && ServiceKey(f, ifaces[i]) in faulty)
      && (p.status.Failed? ==> p.status.error == Other)
    decreases |ifaces|
  {
    if ifaces != [] {
      var p := ServiceStep(m, faulty, f, ifaces[0]);
      if p.status == Running {
        ServicesPassFails(p.objects, faulty, f, ifaces[1..]);
        assert forall i :: 1 <= i < |ifaces| ==> ifaces[i] == ifaces[1..][i - 1];
        assert forall i :: 0 <= i < |ifaces| - 1 ==> ifaces[1..][i] == ifaces[i + 1];
      }
    }
  }

  /** After a loop that got through, the Service of every interface exists
      and carries the ports of the last interface bearing its name. */
  lemma {:induction false} ServicesPassPorts(m: map<Key, Obj>, faulty: set<Key>, f: Api.Rollout, ifaces: seq<Api.InterfaceSpec>, i: int)
    requires WellKeyed(m)
    requires ServicesPass(m, faulty, f, ifaces).status == Running
    requires 0 <= i < |ifaces|
    requires forall j :: i < j < |ifaces| ==> ifaces[j].name != ifaces[i].name
    ensures var p := ServicesPass(m, faulty, f, ifaces);
      var k := ServiceKey(f, ifaces[i]);
      k in p.objects && p.objects[k].body.service.ports == ServicePorts(ifaces[i])
    decreases |ifaces|
  {
    var p := ServiceStep(m, faulty, f, ifaces[0]);
    assert p.status == Running;
    if i == 0 {
      var k := ServiceKey(f, ifaces[0]);
      assert k in p.objects && p.objects[k].body.service.ports == ServicePorts(ifaces[0]);
      forall j | 0 <= j < |ifaces[1..]|
        ensures ServiceName(f.name, ifaces[1..][j].name) != k.name
      {
        assert ifaces[1..][j] == ifaces[j + 1];
        ServiceNameInjective(f.name, ifaces[0].name, ifaces[1..][j].name);
      }
      ServicesPassFrame(p.objects, faulty, f, ifaces[1..], k);
    } else {
      forall j | i - 1 < j < |ifaces[1..]|
        ensures ifaces[1..][j].name != ifaces[1..][i - 1].name
      {
        assert ifaces[1..][j] == ifaces[j + 1];
      }
      ServicesPassPorts(p.objects, faulty, f, ifaces[1..], i - 1);
    }
  }

  /** A successful reconcile leaves every interface's Service with its
      ports, leaves every object outside the Services' scope as the loop left
      it, and leaves no labelled Service that no interface asks for. */
  lemma ServiceReconciledMeaning(
    before: map<Key, Obj>, after: map<Key, Obj>, faulty: set<Key>, listFaulty: set<Kind>, f: Api.Rollout, err: Option<Error>)
    requires WellKeyed(before)
    requires ServiceReconciled(before, after, faulty, listFaulty, f, err) && err.None?
    ensures forall i :: (0 <= i < |f.spec.interfaces| &&
      forall j :: i < j < |f.spec.interfaces| ==> f.spec.interfaces[j].name != f.spec.interfaces[i].name) ==>
        var k := ServiceKey(f, f.spec.interfaces[i]);
        k in after && after[k].body.service.ports == ServicePorts(f.spec.interfaces[i])
    ensures forall k :: k in after && k.kind == Service && InScope(after[k], LabelScope(f.namespace, f.name)) ==>
      k.name in ServiceNames(f, f.spec.interfaces)
    ensures forall k: Key :: k.kind != Service ==> (k in after <==> k in before) && (k in before ==> after[k] == before[k])
  {
    var ifaces := f.spec.interfaces;
    var p := ServicesPass(before, faulty, f, ifaces);
    var scope := LabelScope(f.namespace, f.name);
    SweptKeeps(p.objects, after, Service, ServiceNames(f, ifaces), scope, faulty, listFaulty, err);
    SweptClean(p.objects, after, Service, ServiceNames(f, ifaces), scope, faulty, listFaulty, err);
    forall i | 0 <= i < |ifaces| && (forall j :: i < j < |ifaces| ==> ifaces[j].name != ifaces[i].name)
      ensures ServiceKey(f, ifaces[i]) in after && after[ServiceKey(f, ifaces[i])].body.service.ports == ServicePorts(ifaces[i])
    {
      ServicesPassPorts(before, faulty, f, ifaces, i);
    }
    forall k: Key | k.kind != Service
      ensures (k in after <==> k in before) && (k in before ==> after[k] == before[k])
    {
      ServicesPassFrame(before, faulty, f, ifaces, k);
    }
  }
}

=== FILE: store.dfy ===
/** The backing store the reconcilers talk to, reduced to the objects of the
    Rollout's namespace (plus cluster-scoped StorageClasses), keyed by kind
    and name. Failures are part of the store's state: every call on a key in
    `faulty`, and every List of a kind in `listFaulty`, answers `Other`. */
module Cluster {
  import opened Common
  import opened Kube
  import opened Naming

  /** The answer to a Get: the object, or the error (NotFound or Other). */
  datatype Fetched = Found(obj: Obj) | FetchError(error: Error)

  /** Which listed objects a garbage-collection sweep may delete. */
  datatype Scope =
    | LabelScope(project: string, deployment: string)  // both ownership labels carry these values
    | OwnerNameScope(rollout: string)                  // an owner reference of kind Rollout with this name
    | OwnerUidScope(uid: string)                       // an owner reference with this uid

  /** A label lookup as a Go map read: a missing label reads as "". */
  function LabelValue(labels: map<string, string>, key: string): string
  {
    if key in labels then labels[key] else ""
  }

  /** Some owner reference has kind "Rollout" and the given name. */
  function IsOwnedBy(owners: seq<OwnerRef>, rollout: string): (b: bool)
    ensures b <==> exists i :: 0 <= i < |owners| && owners[i].kind == "Rollout" && owners[i].name == rollout
  {
    if owners == [] then false
    else if owners[0].kind == "Rollout" && owners[0].name == rollout then true
    else
      var rest := IsOwnedBy(owners[1..], rollout);
      assert forall i :: 1 <= i < |owners| ==> owners[i] == owners[1..][i - 1];
      rest
  }

  /** Some owner reference carries the given uid (the field selector on
      `metadata.ownerReferences.uid`). */
  function HasOwnerUid(owners: seq<OwnerRef>, uid: string): (b: bool)
    ensures b <==> exists i :: 0 <= i < |owners| && owners[i].uid == uid
  {
    if owners == [] then false
    else if owners[0].uid == uid then true
    else
      var rest := HasOwnerUid(owners[1..], uid);
      assert forall i :: 1 <= i < |owners| ==> owners[i] == owners[1..][i - 1];
      rest
  }

  predicate InScope(o: Obj, scope: Scope)
  {
    match scope
    case LabelScope(project, deployment) =>
      LabelValue(o.meta.labels, ProjectLabel) == project && LabelValue(o.meta.labels, DeploymentLabel) == deployment
    case OwnerNameScope(rollout) => IsOwnedBy(o.meta.owners, rollout)
    case OwnerUidScope(uid) => HasOwnerUid(o.meta.owners, uid)
  }

  function OfKind(m: map<Key, Obj>, kind: Kind): set<Key>
  {
    set k | k in m && k.kind == kind
  }

  /** The keys a sweep over `kind` deletes: in scope and not expected. */
  function Doomed(m: map<Key, Obj>, kind: Kind, expected: set<string>, scope: Scope): set<Key>
  {
    set k | k in m && k.kind == kind && k.name !in expected && InScope(m[k], scope)
  }

  /** The outcome of a sweep: a List failure changes nothing; otherwise the
      sweep deletes doomed keys and nothing else, fails iff a doomed key is
      faulty, and on success has deleted every doomed key. */
  ghost predicate Swept(
    before: map<Key, Obj>, after: map<Key, Obj>, kind: Kind, expected: set<string>, scope: Scope,
    faulty: set<Key>, listFaulty: set<Kind>, err: Option<Error>)
  {
    if kind in listFaulty then err == Some(Other) && after == before
    else
      var doomed := Doomed(before, kind, expected, scope);
      && (err.None? <==> doomed !! faulty)
      && (err.Some? ==> err == Some(Other))
      && after.Keys <= before.Keys
      && before.Keys - after.Keys <= doomed
      && after == before - (before.Keys - after.Keys)
      && (err.None? ==> after == before - doomed)
  }

  /** What a single write leaves behind: the objects and the error, if any. */
  datatype Outcome = Outcome(objects: map<Key, Obj>, err: Option<Error>)

  /** Create as the store answers it: a faulty key fails, an existing key is
      AlreadyExists, otherwise the object is inserted. */
  function Created(m: map<Key, Obj>, faulty: set<Key>, o: Obj): Outcome
  {
    var k := KeyOf(o);
    if k in faulty then Outcome(m, Some(Other))
    else if k in m then Outcome(m, Some(AlreadyExists))
    else Outcome(m[k := o], None)
  }

  /** Update as the store answers it: a faulty key fails, a missing key is
      NotFound, otherwise the object replaces the stored one. */
  function Updated(m: map<Key, Obj>, faulty: set<Key>, o: Obj): Outcome
  {
    var k := KeyOf(o);
    if k in faulty then Outcome(m, Some(Other))
    else if k !in m then Outcome(m, Some(NotFound))
    else Outcome(m[k := o], None)
  }

  /** Delete as the store answers it. */
  function Deleted(m: map<Key, Obj>, faulty: set<Key>, k: Key): Outcome
  {
    if k in faulty then Outcome(m, Some(Other))
    else if k !in m then Outcome(m, Some(NotFound))
    else Outcome(m - {k}, None)
  }

  /** A sweep touches only doomed keys: every other object survives as it
      was, and nothing is added or altered. */
  lemma SweptKeeps(
    before: map<Key, Obj>, after: map<Key, Obj>, kind: Kind, expected: set<string>, scope: Scope,
    faulty: set<Key>, listFaulty: set<Kind>, err: Option<Error>)
    requires Swept(before, after, kind, expected, scope, faulty, listFaulty, err)
    ensures forall k :: k in before && (k.kind != kind || k.name in expected || !InScope(before[k], scope)) ==>
      k in after && after[k] == before[k]
    ensures forall k :: k in after ==> k in before && after[k] == before[k]
  {
  }

  /** After a successful sweep no object of the kind inside the scope bears
      an unexpected name. */
  lemma SweptClean(
    before: map<Key, Obj>, after: map<Key, Obj>, kind: Kind, expected: set<string>, scope: Scope,
    faulty: set<Key>, listFaulty: set<Kind>, err: Option<Error>)
    requires Swept(before, after, kind, expected, scope, faulty, listFaulty, err) && err.None?
    ensures forall k :: k in after && k.kind == kind && InScope(after[k], scope) ==> k.name in expected
  {
  }

  /** Where a reconciler's per-entry loop stands: still going, stopped early
      without an error, or stopped by an error. */
  datatype Status = Running | Halted | Failed(error: Error)

  datatype Pass = Pass(objects: map<Key, Obj>, status: Status)

  /** A write's outcome as a step of a per-entry loop: an error stops the loop. */
  function Continue(out: Outcome): Pass
  {
    Pass(out.objects, if out.err.None? then Running else Failed(out.err.value))
  }

  function KeysOf(items: seq<Obj>): set<Key>
  {
    if items == [] then {} else KeysOf(items[..|items| - 1]) + {KeyOf(items[|items| - 1])}
  }

  lemma {:induction false} KeysOfMembers(items: seq<Obj>, k: Key)
    ensures k in KeysOf(items) <==> exists i :: 0 <= i < |items| && KeyOf(items[i]) == k
  {
    if items != [] {
      var init := items[..|items| - 1];
      KeysOfMembers(init, k);
      assert forall i :: 0 <= i < |init| ==> init[i] == items[i];
    }
  }

  /** `items` lists every object of `kind` in `m` once. */
  ghost predicate Enumerates(items: seq<Obj>, m: map<Key, Obj>, kind: Kind)
  {
    && (forall i :: 0 <= i < |items| ==> KeyOf(items[i]) in m && m[KeyOf(items[i])] == items[i])
    && (forall i, j :: 0 <= i < j < |items| ==> KeyOf(items[i]) != KeyOf(items[j]))
    && KeysOf(items) == OfKind(m, kind)
  }

  /** One step of a sweep: the listed object sits in the store under its
      key, is doomed exactly when the sweep's test selects it, and has not
      been seen before. */
  lemma SweepStep(m: map<Key, Obj>, kind: Kind, expected: set<string>, scope: Scope, items: seq<Obj>, i: int)
    requires Enumerates(items, m, kind) && 0 <= i < |items|
    ensures var k := KeyOf(items[i]);
      && k in m && m[k] == items[i]
      && (k in Doomed(m, kind, expected, scope) <==> items[i].meta.name !in expected && InScope(items[i], scope))
      && k !in KeysOf(items[..i])
      && KeysOf(items[..i + 1]) == KeysOf(items[..i]) + {k}
  {
    var k := KeyOf(items[i]);
    assert items[..i + 1][..i] == items[..i];
    KeysOfMembers(items, k);
    KeysOfMembers(items[..i], k);
  }

  /** A sweep that saw every listed object has seen every doomed key. */
  lemma SweepDone(m: map<Key, Obj>, kind: Kind, expected: set<string>, scope: Scope, items: seq<Obj>)
    requires Enumerates(items, m, kind)
    ensures Doomed(m, kind, expected, scope) * KeysOf(items[..|items|]) == Doomed(m, kind, expected, scope)
  {
    assert items[..|items|] == items;
  }

  /** A sweep that deleted `gone`, a part of the doomed keys, ends as Swept
      says: all of them with no error, or an error once a doomed key fails. */
  lemma SweptFrom(
    before: map<Key, Obj>, gone: set<Key>, kind: Kind, expected: set<string>, scope: Scope,
    faulty: set<Key>, listFaulty: set<Kind>, err: Option<Error>)
    requires kind !in listFaulty
    requires gone <= Doomed(before, kind, expected, scope)
    requires err.None? ==> gone == Doomed(before, kind, expected, scope) && gone !! faulty
    requires err.Some? ==> err == Some(Other) && !(Doomed(before, kind, expected, scope) !! faulty)
    ensures Swept(before, before - gone, kind, expected, scope, faulty, listFaulty, err)
  {
    var after := before - gone;
    assert before.Keys - after.Keys == gone;
  }

  class Store {
    var objects: map<Key, Obj>
    const faulty: set<Key>
    const listFaulty: set<Kind>

    ghost predicate Valid()
      reads this
    {
      WellKeyed(objects)
    }

    constructor (objects: map<Key, Obj>, faulty: set<Key>, listFaulty: set<Kind>)
      requires WellKeyed(objects)
      ensures Valid()
      ensures this.objects == objects && this.faulty == faulty && this.listFaulty == listFaulty
    {
      this.objects := objects;
      this.faulty := faulty;
      this.listFaulty := listFaulty;
    }

    method Get(k: Key) returns (r: Fetched)
      requires Valid()
      ensures k in faulty ==> r == FetchError(Other)
      ensures k !in faulty && k !in objects ==> r == FetchError(NotFound)
      ensures k !in faulty && k in objects ==> r == Found(objects[k]) && KeyOf(r.obj) == k
    {
      if k in faulty {
        r := FetchError(Other);
      } else if k in objects {
        r := Found(objects[k]);
      } else {
        r := FetchError(NotFound);
      }
    }

    method Create(o: Obj) returns (err: Option<Error>)
      requires Valid()
      modifies this
      ensures Valid()
      ensures KeyOf(o) in faulty ==> err == Some(Other) && objects == old(objects)
      ensures KeyOf(o) !in faulty && KeyOf(o) in old(objects) ==>
        err == Some(AlreadyExists) && objects == old(objects)
      ensures KeyOf(o) !in faulty && KeyOf(o) !in old(objects) ==>
        err == None && objects == old(objects)[KeyOf(o) := o]
      ensures Outcome(objects, err) == Created(old(objects), faulty, o)
    {
      var k := KeyOf(o);
      if k in faulty {
        err := Some(Other);
      } else if k in objects {
        err := Some(AlreadyExists);
      } else {
        objects := objects[k := o];
        err := None;
      }
    }

    method Update(o: Obj) returns (err: Option<Error>)
      requires Valid()
      modifies this
      ensures Valid()
      ensures KeyOf(o) in faulty ==> err == Some(Other) && objects == old(objects)
      ensures KeyOf(o) !in faulty && KeyOf(o) !in old(objects) ==>
        err == Some(NotFound) && objects == old(objects)
      ensures KeyOf(o) !in faulty && KeyOf(o) in old(objects) ==>
        err == None && objects == old(objects)[KeyOf(o) := o]
      ensures Outcome(objects, err) == Updated(old(objects), faulty, o)
    {
      var k := KeyOf(o);
      if k in faulty {
        err := Some(Other);
      } else if k !in objects {
        err := Some(NotFound);
      } else {
        objects := objects[k := o];
        err := None;
      }
    }

    method Delete(k: Key) returns (err: Option<Error>)
      requires Valid()
      modifies this
      ensures Valid()
      ensures k in faulty ==> err == Some(Other) && objects == old(objects)
      ensures k !in faulty && k !in old(objects) ==> err == Some(NotFound) && objects == old(objects)
      ensures k !in faulty && k in old(objects) ==> err == None && objects == old(objects) - {k}
      ensures Outcome(objects, err) == Deleted(old(objects), faulty, k)
    {
      if k in faulty {
        err := Some(Other);
      } else if k !in objects {
        err := Some(NotFound);
      } else {
        objects := objects - {k};
        err := None;
      }
    }

    /** Every object of a kind, each once, in an order the store chooses. */
    method List(kind: Kind) returns (items: Option<seq<Obj>>)
      requires Valid()
      ensures kind in listFaulty <==> items.None?
      ensures items.Some? ==> Enumerates(items.value, objects, kind)
    {
      if kind in listFaulty {
        return None;
      }
      var pending := OfKind(objects, kind);
      var acc: seq<Obj> := [];
      while pending != {}
        invariant pending <= OfKind(objects, kind)
        invariant forall i :: 0 <= i < |acc| ==> KeyOf(acc[i]) in objects && objects[KeyOf(acc[i])] == acc[i]
        invariant forall i, j :: 0 <= i < j < |acc| ==> KeyOf(acc[i]) != KeyOf(acc[j])
        invariant KeysOf(acc) == OfKind(objects, kind) - pending
        decreases pending
      {
        var k :| k in pending;
        forall i | 0 <= i < |acc|
          ensures KeyOf(acc[i]) != k
        {
          KeysOfMembers(acc, KeyOf(acc[i]));
        }
        var next := acc + [objects[k]];
        assert next[..|next| - 1] == acc;
        acc := next;
        pending := pending - {k};
      }
      return Some(acc);
    }

    /** Lists `kind` and deletes every listed object whose name is not
        expected and which lies in `scope`; the first failing delete ends the
        sweep with its error. */
    method Sweep(kind: Kind, expected: set<string>, scope: Scope) returns (err: Option<Error>)
      requires Valid()
      modifies this
      ensures Valid()
      ensures Swept(old(objects), objects, kind, expected, scope, faulty, listFaulty, err)
    {
      var listed := List(kind);
      if listed.None? {
        return Some(Other);
      }
      var items := listed.value;
      ghost var before := objects;
      ghost var doomed := Doomed(before, kind, expected, scope);
      ghost var gone: set<Key> := {};
      var i := 0;
      while i < |items|
        invariant 0 <= i <= |items|
        invariant Valid()
        invariant gone == doomed * KeysOf(items[..i])
        invariant objects == before - gone
        invariant gone !! faulty
      {
        var o := items[i];
        var k := KeyOf(o);
        SweepStep(before, kind, expected, scope, items, i);
        if o.meta.name !in expected && InScope(o, scope) {
          err := Delete(k);
          if err.Some? {
            SweptFrom(before, gone, kind, expected, scope, faulty, listFaulty, err);
            return;
          }
          gone := gone + {k};
        }
        i := i + 1;
      }
      SweepDone(before, kind, expected, scope, items);
      err := None;
      SweptFrom(before, gone, kind, expected, scope, faulty, listFaulty, err);
    }
  }
}

=== FILE: volume.dfy ===
/** The PersistentVolumeClaim reconciler: one claim per declared volume,
    grown (never shrunk) when the declared size exceeds the live request,
    and a prune of the Rollout's claims no volume asks for. */
module Volumes {
  import opened Common
  import opened Kube
  import Api
  import opened Naming
  import opened Cluster
  import opened Helpers

  /** A StorageClass allows expansion only when the field is set and true. */
  predicate AllowsVolumeExpansion(allow: Option<bool>)
  {
    allow.Some? && allow.value
  }

  function ClaimKey(f: Api.Rollout, vol: Api.VolumeSpec): Key
  {
    Key(PersistentVolumeClaim, ClaimName(vol.name, f.name))
  }

  /** The claim for a declared volume: labelled, owned by the Rollout,
      read-write-once, asking for the parsed size in the declared class. */
  function ClaimFor(f: Api.Rollout, vol: Api.VolumeSpec, ext: Externals): (o: Obj)
    ensures KeyOf(o) == ClaimKey(f, vol)
    ensures o.meta.labels == OwnershipLabels(f) && o.meta.owners == [ControllerRef(f)]
    ensures InScope(o, OwnerNameScope(f.name))
    ensures o.body.claim.accessModes == [ReadWriteOnce]
    ensures o.body.claim.requests == map[Storage := ext.parseQuantity(vol.size)]
    ensures o.body.claim.storageClassName == Some(vol.storageClass)
  {
    Obj(Meta(ClaimName(vol.name, f.name), OwnershipLabels(f), map[], [ControllerRef(f)]),
      ClaimBody(ClaimSpec([ReadWriteOnce], map[Storage := ext.parseQuantity(vol.size)], Some(vol.storageClass), None)))
  }

  /** The storage a claim requests; a missing entry reads as zero. */
  function StorageRequest(claim: ClaimSpec): Quantity
  {
    if Storage in claim.requests then claim.requests[Storage] else 0
  }

  /** The claim with only its storage request replaced. */
  function Resized(o: Obj, size: Quantity): (r: Obj)
    requires o.body.ClaimBody?
    ensures KeyOf(r) == KeyOf(o) && r.meta == o.meta
    ensures r.body.claim.requests.Keys == o.body.claim.requests.Keys + {Storage}
    ensures StorageRequest(r.body.claim) == size
    ensures forall n :: n in o.body.claim.requests && n != Storage ==> r.body.claim.requests[n] == o.body.claim.requests[n]
    ensures r.body.claim.(requests := o.body.claim.requests) == o.body.claim
  {
    o.(body := ClaimBody(o.body.claim.(requests := o.body.claim.requests[Storage := size])))
  }

  /** The declared size exceeds the live claim's request, and the claim is a
      filesystem volume: the case in which the reconciler tries to grow it. */
  predicate GrowOnFilesystem(m: map<Key, Obj>, ext: Externals, vol: Api.VolumeSpec, k: Key)
    requires k in m && m[k].body.ClaimBody?
  {
    ext.parseQuantity(vol.size) > StorageRequest(m[k].body.claim) && m[k].body.claim.volumeMode == Some(Filesystem)
  }

  /** One declared volume. An absent claim is created. A present claim is
      left alone unless the declared size is larger; then the pass halts
      when the claim is not a filesystem volume or its class does not allow
      expansion, and otherwise the claim is grown. Following a missing class
      name, or writing into a claim with no requests at all, fails. */
  function ClaimStep(m: map<Key, Obj>, faulty: set<Key>, f: Api.Rollout, ext: Externals, vol: Api.VolumeSpec): (p: Pass)
    requires WellKeyed(m)
    ensures WellKeyed(p.objects)
    ensures ClaimKey(f, vol) in faulty ==> p == Pass(m, Failed(Other))
    ensures var k := ClaimKey(f, vol);
      k !in m && k !in faulty ==> p == Pass(m[k := ClaimFor(f, vol, ext)], Running)
    ensures var k := ClaimKey(f, vol);
      k in m && k !in faulty && GrowOnFilesystem(m, ext, vol, k) ==>
        var sc := m[k].body.claim.storageClassName;
        && (sc.None? ==> p == Pass(m, Failed(Other)))
        && (sc.Some? && Key(StorageClass, sc.value) in faulty ==> p == Pass(m, Failed(Other)))
        && (sc.Some? && Key(StorageClass, sc.value) !in faulty && Key(StorageClass, sc.value) !in m ==> p == Pass(m, Failed(NotFound)))
    ensures var k := ClaimKey(f, vol);
      && k in m && k !in faulty && GrowOnFilesystem(m, ext, vol, k)
      && (var sc := m[k].body.claim.storageClassName;
          && sc.Some? && Key(StorageClass, sc.value) !in faulty && Key(StorageClass, sc.value) in m
          && AllowsVolumeExpansion(m[Key(StorageClass, sc.value)].body.allowVolumeExpansion))
      ==>
        if m[k].body.claim.requests == map[] then p == Pass(m, Failed(Other))
        else p == Pass(m[k := Resized(m[k], ext.parseQuantity(vol.size))], Running)
    ensures var k := ClaimKey(f, vol);
      k in m && ext.parseQuantity(vol.size) <= StorageRequest(m[k].body.claim) && k !in faulty ==> p == Pass(m, Running)
    ensures var k := ClaimKey(f, vol);
      && k in m && k !in faulty
      && ext.parseQuantity(vol.size) > StorageRequest(m[k].body.claim)
      && m[k].body.claim.volumeMode != Some(Filesystem)
      ==> p == Pass(m, Halted)
    ensures var k := ClaimKey(f, vol);
      && k in m && k !in faulty
      && ext.parseQuantity(vol.size) > StorageRequest(m[k].body.claim)
      && m[k].body.claim.volumeMode == Some(Filesystem)
      && (var sc := m[k].body.claim.storageClassName;
          && sc.Some? && Key(StorageClass, sc.value) !in faulty && Key(StorageClass, sc.value) in m
          && !AllowsVolumeExpansion(m[Key(StorageClass, sc.value)].body.allowVolumeExpansion))
      ==> p == Pass(m, Halted)
    ensures var k := ClaimKey(f, vol);
      p.status == Halted ==>
        && p.objects == m && k in m
        && ext.parseQuantity(vol.size) > StorageRequest(m[k].body.claim)
        && (m[k].body.claim.volumeMode != Some(Filesystem)
            || (var sc := m[k].body.claim.storageClassName;
                sc.Some? && Key(StorageClass, sc.value) in m
                && !AllowsVolumeExpansion(m[Key(StorageClass, sc.value)].body.allowVolumeExpansion)))
    ensures var k := ClaimKey(f, vol);
      p.objects != m ==>
        if k in m then
          && ext.parseQuantity(vol.size) > StorageRequest(m[k].body.claim)
          && p.objects == m[k := Resized(m[k], ext.parseQuantity(vol.size))]
        else p.objects == m[k := ClaimFor(f, vol, ext)]
  {
    var k := ClaimKey(f, vol);
    if k in faulty then Pass(m, Failed(Other))
    else if k !in m then Continue(Created(m, faulty, ClaimFor(f, vol, ext)))
    else
      var claim := m[k].body.claim;
      var desired := ext.parseQuantity(vol.size);
      if desired <= StorageRequest(claim) then Pass(m, Running)
      else if claim.volumeMode != Some(Filesystem) then Pass(m, Halted)
      else if claim.storageClassName.None? then Pass(m, Failed(Other))
      else
        var sk := Key(StorageClass, claim.storageClassName.value);
        if sk in faulty then Pass(m, Failed(Other))
        else if sk !in m then Pass(m, Failed(NotFound))
        else if !AllowsVolumeExpansion(m[sk].body.allowVolumeExpansion) then Pass(m, Halted)
        else if claim.requests == map[] then Pass(m, Failed(Other))
        else Continue(Updated(m, faulty, Resized(m[k], desired)))
  }

  /** The per-volume loop, stopped by the first error or halt. */
  function ClaimsPass(m: map<Key, Obj>, faulty: set<Key>, f: Api.Rollout, ext: Externals, vols: seq<Api.VolumeSpec>): (p: Pass)
    requires WellKeyed(m)
    ensures WellKeyed(p.objects)
    decreases |vols|
  {
    if vols == [] then Pass(m, Running)
    else
      var p := ClaimStep(m, faulty, f, ext, vols[0]);
      if p.status != Running then p else ClaimsPass(p.objects, faulty, f, ext, vols[1..])
  }

  function ClaimNames(f: Api.Rollout, vols: seq<Api.VolumeSpec>): set<string>
  {
    set i | 0 <= i < |vols| :: ClaimName(vols[i].name, f.name)
  }

  /** What the reconciler promises. With no volumes declared, every claim
      the Rollout owns is pruned. Otherwise the loop runs; an error is
      returned as is, a halt ends everything without error and without
      pruning, and a loop that got through is followed by a prune of the
      owned claims no volume asks for. */
  ghost predicate ClaimsReconciled(
    before: map<Key, Obj>, after: map<Key, Obj>, faulty: set<Key>, listFaulty: set<Kind>, f: Api.Rollout, ext: Externals, err: Option<Error>)
    requires WellKeyed(before)
  {
    var vols := f.spec.volumes;
    if vols == [] then Swept(before, after, PersistentVolumeClaim, {}, OwnerNameScope(f.name), faulty, listFaulty, err)
    else
      var p := ClaimsPass(before, faulty, f, ext, vols);
      if p.status.Failed? then err == Some(p.status.error) && after == p.objects
      else if p.status == Halted then err == None && after == p.objects
      else Swept(p.objects, after, PersistentVolumeClaim, ClaimNames(f, vols), OwnerNameScope(f.name), faulty, listFaulty, err)
  }

  /** Deletes every claim the Rollout owns. */
  method DeleteAllClaims(store: Store, f: Api.Rollout) returns (err: Option<Error>)
    requires store.Valid()
    modifies store
    ensures store.Valid()
    ensures Swept(old(store.objects), store.objects, PersistentVolumeClaim, {}, OwnerNameScope(f.name), store.faulty, store.listFaulty, err)
  {
    err := store.Sweep(PersistentVolumeClaim, {}, OwnerNameScope(f.name));
  }

  /** One declared volume, as the loop body does it; `halt` reports an early
      return without error. */
  method SyncClaim(store: Store, f: Api.Rollout, ext: Externals, vol: Api.VolumeSpec) returns (err: Option<Error>, halt: bool)
    requires store.Valid()
    modifies store
    ensures store.Valid()
    ensures ClaimStep(old(store.objects), store.faulty, f, ext, vol) ==
      Pass(store.objects, if err.Some? then Failed(err.value) else if halt then Halted else Running)
  {
    halt := false;
    var desired := ClaimFor(f, vol, ext);
    var got := store.Get(ClaimKey(f, vol));
    if got.FetchError? && got.error == NotFound {
      err := store.Create(desired);
      return;
    } else if got.FetchError? {
      return Some(got.error), false;
    }
    var found := got.obj;
    var claim := found.body.claim;
    var currentSize: Quantity := 0;
    if Storage in claim.requests {
      currentSize := claim.requests[Storage];
    }
    var desiredSize := ext.parseQuantity(vol.size);
    err := None;
    if desiredSize > currentSize {
      if claim.volumeMode != Some(Filesystem) {
        return None, true;
      }
      if claim.storageClassName.None? {
        return Some(Other), false;
      }
      var sc := store.Get(Key(StorageClass, claim.storageClassName.value));
      if sc.FetchError? {
        return Some(sc.error), false;
      }
      if !AllowsVolumeExpansion(sc.obj.body.allowVolumeExpansion) {
        return None, true;
      }
      if claim.requests == map[] {
        return Some(Other), false;
      }
      found := found.(body := ClaimBody(claim.(requests := claim.requests[Storage := desiredSize])));
      err := store.Update(found);
    }
  }

  lemma ClaimsPassUnfold(m: map<Key, Obj>, faulty: set<Key>, f: Api.Rollout, ext: Externals, vols: seq<Api.VolumeSpec>, i: int)
    requires WellKeyed(m) && 0 <= i < |vols|
    ensures ClaimsPass(m, faulty, f, ext, vols[i..]) ==
      var p := ClaimStep(m, faulty, f, ext, vols[i]);
      if p.status != Running then p else ClaimsPass(p.objects, faulty, f, ext, vols[i + 1..])
  {
    assert vols[i..][0] == vols[i] && vols[i..][1..] == vols[i + 1..];
  }

  lemma ClaimNamesGrow(f: Api.Rollout, vols: seq<Api.VolumeSpec>, i: int)
    requires 0 <= i <= |vols|
    ensures i < |vols| ==> ClaimNames(f, vols[..i + 1]) == ClaimNames(f, vols[..i]) + {ClaimName(vols[i].name, f.name)}
    ensures i == |vols| ==> ClaimNames(f, vols[..i]) == ClaimNames(f, vols)
  {
    if i < |vols| {
      assert forall j :: 0 <= j < i ==> vols[..i + 1][j] == vols[..i][j];
      assert vols[..i + 1][i] == vols[i];
    } else {
      assert vols[..i] == vols;
    }
  }

  lemma ClaimsStoppedAt(
    before: map<Key, Obj>, after: map<Key, Obj>, faulty: set<Key>, listFaulty: set<Kind>, f: Api.Rollout, ext: Externals,
    err: Option<Error>, halt: bool)
    requires WellKeyed(before) && f.spec.volumes != []
    requires err.Some? || halt
    requires ClaimsPass(before, faulty, f, ext, f.spec.volumes) ==
      Pass(after, if err.Some? then Failed(err.value) else Halted)
    ensures ClaimsReconciled(before, after, faulty, listFaulty, f, ext, err)
  {
  }

  lemma ClaimsSweptAfter(
    before: map<Key, Obj>, mid: map<Key, Obj>, after: map<Key, Obj>, faulty: set<Key>, listFaulty: set<Kind>,
    f: Api.Rollout, ext: Externals, err: Option<Error>)
    requires WellKeyed(before) && f.spec.volumes != []
    requires ClaimsPass(before, faulty, f, ext, f.spec.volumes) == Pass(mid, Running)
    requires Swept(mid, after, PersistentVolumeClaim, ClaimNames(f, f.spec.volumes), OwnerNameScope(f.name), faulty, listFaulty, err)
    ensures ClaimsReconciled(before, after, faulty, listFaulty, f, ext, err)
  {
  }

  method ReconcileClaims(store: Store, f: Api.Rollout, ext: Externals) returns (err: Option<Error>)
    requires store.Valid()
    modifies store
    ensures store.Valid()
    ensures ClaimsReconciled(old(store.objects), store.objects, store.faulty, store.listFaulty, f, ext, err)
  {
    var vols := f.spec.volumes;
    if |vols| == 0 {
      err := DeleteAllClaims(store, f);
      return;
    }
    ghost var m0 := store.objects;
    var expected: set<string> := {};
    var i := 0;
    while i < |vols|
      invariant 0 <= i <= |vols|
      invariant store.Valid()
      invariant expected == ClaimNames(f, vols[..i])
      invariant ClaimsPass(m0, store.faulty, f, ext, vols) == ClaimsPass(store.objects, store.faulty, f, ext, vols[i..])
    {
      ClaimsPassUnfold(store.objects, store.faulty, f, ext, vols, i);
      ClaimNamesGrow(f, vols, i);
      expected := expected + {ClaimName(vols[i].name, f.name)};
      var halt: bool;
      err, halt := SyncClaim(store, f, ext, vols[i]);
      if err.Some? || halt {
        ClaimsStoppedAt(m0, store.objects, store.faulty, store.listFaulty, f, ext, err, halt);
        return;
      }
      i := i + 1;
    }
    ClaimNamesGrow(f, vols, i);
    assert vols[i..] == [];
    ghost var mid := store.objects;
    err := store.Sweep(PersistentVolumeClaim, expected, OwnerNameScope(f.name));
    ClaimsSweptAfter(m0, mid, store.objects, store.faulty, store.listFaulty, f, ext, err);
  }

  /** The loop writes only the claims of the volumes it was given. */
  lemma {:induction false} ClaimsPassFrame(m: map<Key, Obj>, faulty: set<Key>, f: Api.Rollout, ext: Externals, vols: seq<Api.VolumeSpec>, j: Key)
    requires WellKeyed(m)
    requires j.kind != PersistentVolumeClaim || j.name !in ClaimNames(f, vols)
    ensures var p := ClaimsPass(m, faulty, f, ext, vols);
      (j in p.objects <==> j in m) && (j in m ==> p.objects[j] == m[j])
    decreases |vols|
  {
    if vols != [] {
      var p := ClaimStep(m, faulty, f, ext, vols[0]);
      if p.status == Running {
        assert ClaimNames(f, vols[1..]) <= ClaimNames(f, vols) by {
          assert forall i :: 0 <= i < |vols| - 1 ==> vols[1..][i] == vols[i + 1];
        }
        ClaimsPassFrame(p.objects, faulty, f, ext, vols[1..], j);
      }
    }
  }

  /** A claim is never shrunk and never removed by the loop. */
  lemma {:induction false} ClaimsNeverShrink(m: map<Key, Obj>, faulty: set<Key>, f: Api.Rollout, ext: Externals, vols: seq<Api.VolumeSpec>, k: Key)
    requires WellKeyed(m) && k in m && k.kind == PersistentVolumeClaim
    ensures var p := ClaimsPass(m, faulty, f, ext, vols);
      && k in p.objects && p.objects[k].body.ClaimBody?
      && StorageRequest(p.objects[k].body.claim) >= StorageRequest(m[k].body.claim)
    decreases |vols|
  {
    if vols != [] {
      var p := ClaimStep(m, faulty, f, ext, vols[0]);
      if p.status == Running {
        ClaimsNeverShrink(p.objects, faulty, f, ext, vols[1..], k);
      }
    }
  }

  /** A step that got through leaves its claim at least as large as declared. */
  lemma ClaimStepSized(m: map<Key, Obj>, faulty: set<Key>, f: Api.Rollout, ext: Externals, vol: Api.VolumeSpec)
    requires WellKeyed(m)
    requires ClaimStep(m, faulty, f, ext, vol).status == Running
    ensures var p := ClaimStep(m, faulty, f, ext, vol);
      var k := ClaimKey(f, vol);
      k in p.objects && p.objects[k].body.ClaimBody? && StorageRequest(p.objects[k].body.claim) >= ext.parseQuantity(vol.size)
  {
  }

  lemma {:induction false} ClaimsPassSized(m: map<Key, Obj>, faulty: set<Key>, f: Api.Rollout, ext: Externals, vols: seq<Api.VolumeSpec>)
    requires WellKeyed(m)
    ensures var p := ClaimsPass(m, faulty, f, ext, vols);
      p.status == Running ==>
        forall i :: 0 <= i < |vols| ==>
          && ClaimKey(f, vols[i]) in p.objects && p.objects[ClaimKey(f, vols[i])].body.ClaimBody?
          && StorageRequest(p.objects[ClaimKey(f, vols[i])].body.claim) >= ext.parseQuantity(vols[i].size)
    decreases |vols|
  {
    if vols != [] {
      var p := ClaimStep(m, faulty, f, ext, vols[0]);
      if p.status == Running {
        var q := ClaimsPass(p.objects, faulty, f, ext, vols[1..]);
        assert ClaimsPass(m, faulty, f, ext, vols) == q;
        var k := ClaimKey(f, vols[0]);
        ClaimStepSized(m, faulty, f, ext, vols[0]);
        ClaimsNeverShrink(p.objects, faulty, f, ext, vols[1..], k);
        ClaimsPassSized(p.objects, faulty, f, ext, vols[1..]);
        forall i | 0 <= i < |vols| && q.status == Running
          ensures ClaimKey(f, vols[i]) in q.objects && q.objects[ClaimKey(f, vols[i])].body.ClaimBody?
          ensures StorageRequest(q.objects[ClaimKey(f, vols[i])].body.claim) >= ext.parseQuantity(vols[i].size)
        {
          if i > 0 {
            assert vols[i] == vols[1..][i - 1];
          }
        }
      }
    }
  }

  /** A reconcile changes nothing but claims. */
  lemma ClaimsReconciledFrame(
    before: map<Key, Obj>, after: map<Key, Obj>, faulty: set<Key>, listFaulty: set<Kind>, f: Api.Rollout, ext: Externals, err: Option<Error>)
    requires WellKeyed(before)
    requires ClaimsReconciled(before, after, faulty, listFaulty, f, ext, err)
    ensures forall k: Key :: k.kind != PersistentVolumeClaim ==> (k in after <==> k in before) && (k in before ==> after[k] == before[k])
  {
    var vols := f.spec.volumes;
    var scope := OwnerNameScope(f.name);
    if vols == [] {
      SweptKeeps(before, after, PersistentVolumeClaim, {}, scope, faulty, listFaulty, err);
    } else {
      var p := ClaimsPass(before, faulty, f, ext, vols);
      forall k: Key | k.kind != PersistentVolumeClaim
        ensures (k in p.objects <==> k in before) && (k in before ==> p.objects[k] == before[k])
      {
        ClaimsPassFrame(before, faulty, f, ext, vols, k);
      }
      if p.status == Running {
        SweptKeeps(p.objects, after, PersistentVolumeClaim, ClaimNames(f, vols), scope, faulty, listFaulty, err);
      }
    }
  }

  /** A reconcile shrinks no claim that survives it. */
  lemma ClaimsReconciledNeverShrink(
    before: map<Key, Obj>, after: map<Key, Obj>, faulty: set<Key>, listFaulty: set<Kind>, f: Api.Rollout, ext: Externals, err: Option<Error>)
    requires WellKeyed(before)
    requires ClaimsReconciled(before, after, faulty, listFaulty, f, ext, err)
    ensures forall k :: k in before && k in after && k.kind == PersistentVolumeClaim ==>
      after[k].body.ClaimBody? && StorageRequest(after[k].body.claim) >= StorageRequest(before[k].body.claim)
  {
    var vols := f.spec.volumes;
    var scope := OwnerNameScope(f.name);
    if vols == [] {
      SweptKeeps(before, after, PersistentVolumeClaim, {}, scope, faulty, listFaulty, err);
    } else {
      var p := ClaimsPass(before, faulty, f, ext, vols);
      forall k | k in before && k.kind == PersistentVolumeClaim
        ensures k in p.objects && p.objects[k].body.ClaimBody?
        ensures StorageRequest(p.objects[k].body.claim) >= StorageRequest(before[k].body.claim)
      {
        ClaimsNeverShrink(before, faulty, f, ext, vols, k);
      }
      if p.status == Running {
        SweptKeeps(p.objects, after, PersistentVolumeClaim, ClaimNames(f, vols), scope, faulty, listFaulty, err);
      }
    }
  }

  /** With no volume declared, a successful reconcile leaves no claim the
      Rollout owns. */
  lemma ClaimsReconciledNoVolumes(
    before: map<Key, Obj>, after: map<Key, Obj>, faulty: set<Key>, listFaulty: set<Kind>, f: Api.Rollout, ext: Externals, err: Option<Error>)
    requires WellKeyed(before)
    requires ClaimsReconciled(before, after, faulty, listFaulty, f, ext, err)
    requires err.None? && f.spec.volumes == []
    ensures forall k :: k in after && k.kind == PersistentVolumeClaim ==> !IsOwnedBy(after[k].meta.owners, f.name)
  {
    SweptClean(before, after, PersistentVolumeClaim, {}, OwnerNameScope(f.name), faulty, listFaulty, err);
  }

  /** When the loop got through and the prune succeeded, every declared claim
      is present at no less than its declared size, and every other claim
      the Rollout owns is gone. */
  lemma ClaimsReconciledSized(
    before: map<Key, Obj>, after: map<Key, Obj>, faulty: set<Key>, listFaulty: set<Kind>, f: Api.Rollout, ext: Externals, err: Option<Error>)
    requires WellKeyed(before)
    requires ClaimsReconciled(before, after, faulty, listFaulty, f, ext, err)
    requires err.None? && f.spec.volumes != [] && ClaimsPass(before, faulty, f, ext, f.spec.volumes).status == Running
    ensures var vols := f.spec.volumes;
      forall i :: 0 <= i < |vols| ==>
        && ClaimKey(f, vols[i]) in after
        && StorageRequest(after[ClaimKey(f, vols[i])].body.claim) >= ext.parseQuantity(vols[i].size)
    ensures forall k :: k in after && k.kind == PersistentVolumeClaim && IsOwnedBy(after[k].meta.owners, f.name) ==>
      k.name in ClaimNames(f, f.spec.volumes)
  {
    var vols := f.spec.volumes;
    var scope := OwnerNameScope(f.name);
    var p := ClaimsPass(before, faulty, f, ext, vols);
    SweptKeeps(p.objects, after, PersistentVolumeClaim, ClaimNames(f, vols), scope, faulty, listFaulty, err);
    SweptClean(p.objects, after, PersistentVolumeClaim, ClaimNames(f, vols), scope, faulty, listFaulty, err);
    ClaimsPassSized(before, faulty, f, ext, vols);
    assert forall i :: 0 <= i < |vols| ==> ClaimKey(f, vols[i]).name in ClaimNames(f, vols);
  }
}
